=== FILE: README.md ===
# bluest, modelled in Dafny

`bluest` is a cross-platform Bluetooth Low Energy GATT client for Rust,
with backends for CoreBluetooth (macOS/iOS), WinRT (Windows), Android (JNI)
and BlueZ (Linux, via `bluer`). Most of the library is glue to native
APIs. Under that glue sits a layer of sequential logic, and that layer is
what this project models and proves things about:

- the Bluetooth UUID codec: short UUIDs on the Base UUID, and the 2, 4 and
  16 byte wire forms. There are two variants of it (`Uuids`, `BtUuid`,
  `UuidExt`);
- characteristic property bits, ATT error codes, the per-backend
  error-kind maps, native state decoding, and the six-digit passkey
  (`Properties`, `Errors`, `Kinds`, `CbErrorMap`, `BluerErrorMap`,
  `CbTypes`, `Pairing`);
- advertisement parsing and normalisation for each backend (`AdData`,
  `CbAd`, `CbAdvertisement`, `WinAdapter`, `BluerDevice`);
- the CoreBluetooth rule every GATT operation follows: check, make one
  native call, then decide on the first decisive delegate event
  (`CbGatt`, `CbAdapter`, `CbDevice`, `CbService`, `CbCharacteristic`,
  `CbDescriptor`, `Delegates`);
- the Android connection registry, service refresh, broadcast-intent
  dispatch, bond-state pairing, `Excluder` and `Notifier`, and the JNI frame
  counter (`GattTree`, `EventReceiver`, `AndroidDevice`, `AsyncUtil`,
  `Jni`);
- the Windows characteristic, device and pairing logic, the `StringVec`
  cursor and the version check (`WinCharacteristic`, `WinDevice`,
  `WinTypes`, `WinVer`);
- the L2CAP reader and writer over a bounded FIFO (`L2cap`);
- the BlueZ characteristic and device logic (`BluerCharacteristic`,
  `BluerDevice`).

The model follows some fixed conventions:

- Native calls and event streams are inputs. An event stream is a finite
  `seq`, and each waiting loop is a function that gives its verdict on the
  events received so far, or `None` while it would still be waiting.
- UUIDs are `bv128` in the source's big-endian `as_u128` order, and bytes
  are `bv8`.
- Fixed-width integers are subset types of `int` (`Ints`: `U8`, `U16`,
  `I16` and so on, each the range of its Rust type), and every cast is
  written out.
- Shared modules: `Wrappers` (`Option`/`Result`) and `Streams` (first
  match, filter, filter-map over sequences).

## Model

| member | source | states |
|---|---|---|
| Uuids.FromU16 | src/btuuid.rs:10-12 | a 16-bit short UUID lands on the Base UUID, with its number in the top 32 bits |
| Uuids.FromU32 | src/btuuid.rs:15-17 | a 32-bit short UUID lands on the Base UUID, with its number as the top 32 bits |
| Uuids.OnBaseDeterminedByHigh | src/btuuid.rs:7 | two UUIDs on the Base UUID with the same top 32 bits are equal |
| Uuids.FromBluetoothBytes | src/btuuid.rs:60-67 | 2 and 4 wire bytes are big-endian short UUIDs placed on the Base UUID, and 16 bytes are the full UUID; any other length panics, which the precondition excludes |
| Uuids.FromU16Octets | src/btuuid.rs:60-67 | a 2-byte wire form reappears as octets 2..4 of its UUID, after two zero octets |
| Uuids.FromU32Octets | src/btuuid.rs:60-67 | a 4-byte wire form reappears as the first four octets of its UUID |
| Uuids.BytesThenFromBytes | src/btuuid.rs:60-67 | the sixteen octets of a UUID read back give the same UUID |
| Uuids.FromBytesThenBytes | src/btuuid.rs:89-98 | any sixteen octets survive conversion to a UUID and back |
| BtUuid.TryToU16 | src/btuuid.rs:79-82 | a value is returned exactly for 16-bit UUIDs, and widening it gives the UUID back |
| BtUuid.TryToU32 | src/btuuid.rs:84-87 | a value is returned exactly for UUIDs on the Base UUID, and widening it gives the UUID back |
| BtUuid.AsBluetoothBytes | src/btuuid.rs:89-98 | the wire form is 2 bytes exactly for 16-bit UUIDs, 4 for other 32-bit ones and 16 otherwise |
| BtUuid.U16RoundTrip | src/btuuid.rs:52-54 | every 16-bit number comes back from its UUID through try_to_u16 |
| BtUuid.U32RoundTrip | src/btuuid.rs:56-58 | every 32-bit number, small ones included, comes back through try_to_u32 |
| BtUuid.U16IsU32 | src/btuuid.rs:69-77 | a 16-bit UUID is also a 32-bit one, and the two narrowings agree on it |
| BtUuid.WireRoundTrip | src/btuuid.rs:60-98 | decoding the wire form gives back the UUID it was taken from |
| BtUuid.TableUuids | src/btuuid.rs:110-617 | each assigned number in a table gives a UUID that narrows back to that number |
| BtUuid.L2capPsmIsLong | src/btuuid.rs:618 | the L2CAP PSM characteristic is not on the Base UUID, so it travels as 16 bytes |
| UuidExt.TryToU16 | src/uuid.rs:55-58 | a value is returned exactly for UUIDs on the Base UUID whose top 16 bits are clear, and it maps back to the UUID |
| UuidExt.TryToU32 | src/uuid.rs:60-63 | a value is returned exactly for UUIDs on the Base UUID with some of the top 16 bits set |
| UuidExt.AsBluetoothBytes | src/uuid.rs:65-74 | the wire form is 2, 4 or 16 bytes according to the two predicates |
| UuidExt.Exclusive | src/uuid.rs:45-53 | a UUID is never both a 16-bit and a 32-bit UUID in this version |
| UuidExt.U16RoundTrip | src/uuid.rs:28-30 | every 16-bit number comes back from its UUID |
| UuidExt.U32RoundTrip | src/uuid.rs:32-34 | a 32-bit number comes back from try_to_u32 exactly when it does not fit in 16 bits, and otherwise from try_to_u16 |
| UuidExt.LargeU32 | src/uuid.rs:50-53 | a number above 0xFFFF gives a 32-bit UUID |
| UuidExt.SmallU32 | src/uuid.rs:32-34 | a number up to 0xFFFF gives the same UUID as its 16-bit form |
| UuidExt.WireRoundTrip | src/uuid.rs:36-74 | decoding the wire form gives back the UUID |
| UuidExt.ShortWireRoundTrip | src/uuid.rs:36-74 | a 2-byte wire form is reproduced exactly |
| UuidExt.MediumWireRoundTrip | src/uuid.rs:36-74 | a 4-byte wire form is reproduced unless its first two octets are zero, in which case it collapses to its last two |
| Properties.ToBits | src/lib.rs:243-254 | the packed form uses bits 0..9 only |
| Properties.FromBitsToBits | src/lib.rs:225-254 | packing then unpacking gives the properties back |
| Properties.ToBitsFromBits | src/lib.rs:225-254 | unpacking then packing keeps bits 0..9 and clears the rest |
| Properties.FlagIsBit | src/lib.rs:225-254 | flag k is set exactly when bit k is set, for both conversions |
| Properties.HighBitsIgnored | src/lib.rs:225-238 | bits 10 and above make no difference to from_bits |
| Properties.DefaultIsZero | src/lib.rs:208-219 | the derived default has no flag set and packs to 0 |
| Errors.FromKind | src/error.rs:64-69 | the error keeps its kind and has an empty message |
| Errors.DisplayKeepsMessage | src/error.rs:8-14 | the rendering starts with the kind's text, is exactly that text when the message is empty, and the message can be read back out of it |
| Errors.FromKindDisplay | src/error.rs:8-14 | an error made from a kind renders as the kind's text alone |
| AttErrors.FromU8KeepsCode | src/error.rs:100-148 | the code can be recovered from its classification |
| AttErrors.FromU8Injective | src/error.rs:100-148 | two codes with the same classification are the same code |
| AttErrors.FromU8Ranges | src/error.rs:144-146 | codes 0x80..0x9F are Application, 0xE0..0xFF are Common, and the unnamed rest are Reserved, in both directions |
| AttErrors.NamedInOrder | src/error.rs:101-142 | the named codes 0x00..0x13 map to their variants in table order |
| Pairing.NewPasskey | src/pairing.rs:58-61 | a passkey holds its value, which the assertion keeps at six digits or fewer |
| Pairing.PasskeyToU32 | src/pairing.rs:71-73 | the conversion gives back the stored value |
| Pairing.PasskeyTryFrom | src/pairing.rs:79-85 | values up to 999999 convert and larger ones fail |
| Pairing.Display | src/pairing.rs:65-67 | the rendering is six decimal digits |
| Pairing.ParseU32Accepts | src/pairing.rs:91-95 | digits whose value fits in 32 bits parse to that value, with or without a leading plus sign |
| Pairing.ParsePasskey | src/pairing.rs:91-95 | parsing succeeds exactly when the text is a u32 of at most 999999, and yields that number |
| Pairing.DisplayValue | src/pairing.rs:65-67 | the six digits of a rendering denote the passkey |
| Pairing.DigitsValue | src/pairing.rs:65-67 | zero-padding a value below 10^n to n digits keeps its value |
| Pairing.ParseDisplay | src/pairing.rs:65-95 | parsing the rendering of a passkey gives the passkey back |
| Pairing.ParseRejects | src/pairing.rs:91-95 | text that is not a number, and numbers above 999999, are rejected |
| Pairing.DefaultAgent | src/pairing.rs:102-131 | an agent with the default methods rejects confirm, confirm_passkey and request_passkey |
| Pairing.NoInputOutputAgent | src/pairing.rs:139-149 | the agent reports no input or output, accepts confirm and rejects the rest |
| AdData.Lookup | src/lib.rs:186-187 | a key is found exactly when some entry has it, and the value found is the payload of an entry with that key |
| AdData.LookupLast | src/lib.rs:186-187 | looking a key up finds its last entry |
| AdData.Insert | src/lib.rs:186-187 | after an insert the key maps to the new value and every other key is unchanged |
| AdData.Without | src/lib.rs:186-187 | removing a key leaves no entry for it, and every entry left was in the table |
| AdData.WithoutLookup | src/lib.rs:186-187 | removing a key keeps every other key's payload |
| AdData.WithoutDistinct | src/lib.rs:186-187 | removing a key keeps the keys distinct |
| AdData.Collect | src/lib.rs:186-187 | collecting entries gives one entry per key, and a key's value is its last entry's value |
| BluerErrorMap.BluerClasses | src/bluer/error.rs:9-26 | which BlueZ error kinds become which library kind, in both directions, and that no other kind is produced |
| BluerErrorMap.IoClasses | src/bluer/error.rs:36-57 | which I/O error kinds become which library kind, in both directions |
| CbErrorMap.BluetoothCodeClasses | src/corebluetooth/error.rs:18-46 | which CoreBluetooth codes become NotSupported, NotConnected, Timeout, InvalidParameter, ConnectionFailed or Other, in both directions |
| CbErrorMap.AttCodes | src/corebluetooth/error.rs:18-46 | an ATT code becomes Protocol with the same value exactly when it fits in an octet, and everything unlisted becomes Other |
| CbErrorMap.KindRange | src/corebluetooth/error.rs:18-46 | the conversion yields only those six kinds or Protocol |
| CbTypes.ManagerStateDecoding | src/corebluetooth/types.rs:178-191 | decoding inverts the raw manager-state values, and every value outside 0..5 reads as Unknown |
| CbTypes.DecodePeripheralState | src/corebluetooth/types.rs:276-285 | values 0..3 decode to the state with that raw value; any other value panics, which the precondition excludes |
| CbTypes.PeripheralStateDecoding | src/corebluetooth/types.rs:276-285 | every peripheral state decodes from its raw value |
| CbTypes.CbErrorDecoding | src/corebluetooth/types.rs:56-75 | codes 0..16 decode to the error with that code and back, and every other code decodes to Unknown |
| CbTypes.KindOfInjective | src/corebluetooth/types.rs:78-98 | the kind determines the CoreBluetooth error, so no two errors share a kind |
| CbTypes.KindOfRange | src/corebluetooth/types.rs:78-98 | every kind except the three adapter-level ones is the kind of some CoreBluetooth error |
| CbTypes.FromNsError | src/corebluetooth/types.rs:125-142 | the message is the localized description; a CoreBluetooth-domain code gives the kind of that code, and any other domain gives Unknown |
| CbTypes.CbUuidData | src/corebluetooth/types.rs:154-160 | the data handed to CoreBluetooth has a valid Bluetooth wire length |
| CbTypes.CbUuidRoundTrip | src/corebluetooth/types.rs:154-166 | a UUID handed to CoreBluetooth comes back unchanged |
| Delegates.ConnectionEventFrom | src/corebluetooth/delegates.rs:132-138 | a decoded event has the given raw value, and a rejected value is returned as the error |
| Delegates.ConnectionEventDecoding | src/corebluetooth/delegates.rs:124-138 | decoding inverts the raw values and accepts only 0 and 1 |
| Delegates.New | src/corebluetooth/delegates.rs:401-404 | a new delegate has a live sender and has sent nothing |
| Delegates.Send | src/corebluetooth/delegates.rs:173-184 | an event is appended to the channel exactly when the sender slot is not null, and the delegate is otherwise unchanged |
| Delegates.Dealloc | src/corebluetooth/delegates.rs:406-414 | after deallocation the slot is null, and what was already sent stays sent |
| Delegates.SendAllForwards | src/corebluetooth/delegates.rs:173-184 | a live delegate forwards every callback in order, and a null slot forwards none |
| Delegates.DeallocSilences | src/corebluetooth/delegates.rs:406-414 | once deallocated, no later callback reaches the channel |
| Delegates.OnConnectionEvent | src/corebluetooth/delegates.rs:306-329 | the channel grows exactly when the delegate is live and the code is valid, and then by that event for that peripheral |
| CbAdapter.RequirePoweredOn | src/corebluetooth/adapter.rs:174-176 | an operation proceeds exactly when the manager is powered on, and otherwise fails with AdapterUnavailable |
| CbAdapter.EventsReportStates | src/corebluetooth/adapter.rs:81-96 | Available appears exactly when some state change reached PoweredOn, Unavailable exactly when some went elsewhere, and nothing appears without state changes |
| CbAdapter.WaitAvailable | src/corebluetooth/adapter.rs:99-116 | waiting ends exactly when the adapter is already powered on or a change to PoweredOn arrives |
| CbAdapter.OpenDevice | src/corebluetooth/adapter.rs:126-136 | the first retrieved peripheral is returned, and NotFound when none is retrieved |
| CbAdapter.StartScan | src/corebluetooth/adapter.rs:170-214 | scanning starts exactly when the adapter is powered on and no scan is running; otherwise AdapterUnavailable or AlreadyScanning, in that order of checks |
| CbAdapter.StopScan | src/corebluetooth/adapter.rs:170-214 | the drop guard stops scanning and leaves the power state alone |
| CbAdapter.ScanThenStop | src/corebluetooth/adapter.rs:170-214 | a scan that started and whose stream was dropped leaves the central as it was |
| CbAdapter.ScanStreamEnds | src/corebluetooth/adapter.rs:170-214 | the scan stream ends at the first loss of power, and nothing after it is seen |
| CbAdapter.ScanStreamItems | src/corebluetooth/adapter.rs:170-214 | every scanned device comes from a discovery event received before any loss of power, with its rssi |
| CbAdapter.DiscoverDevices | src/corebluetooth/adapter.rs:222-237 | the connected devices come first, in order; a scan that cannot start adds its error and nothing else; once it starts, the scan stream's devices follow the connected ones, in order and one for one |
| CbAdapter.DiscoveredAfterConnected | src/corebluetooth/adapter.rs:218-237 | once the scan has started, every device after the connected ones was discovered before any loss of power |
| CbAdapter.ConnectOutcomes | src/corebluetooth/adapter.rs:246-286 | the verdict is that of the first decisive event: Ok for this peripheral's connection, its error for a failed connection, and AdapterUnavailable for a loss of power |
| CbAdapter.ConnectWaits | src/corebluetooth/adapter.rs:267-283 | the loop keeps waiting exactly while no loss of power and no connection result for this peripheral has arrived |
| CbAdapter.ConnectVerdict | src/corebluetooth/adapter.rs:267-283 | the loop ends with a given verdict exactly when its first decisive event gives that verdict |
| CbAdapter.ConnectSkips | src/corebluetooth/adapter.rs:246-286 | an event the loop skips can be removed from anywhere without changing the verdict |
| CbAdapter.CancelsOnDrop | src/corebluetooth/adapter.rs:246-286 | the drop guard cancels the connection attempt exactly when no decision was reached |
| CbAdapter.ConnectDevice | src/corebluetooth/adapter.rs:246-286 | AdapterUnavailable when the manager is not powered on; otherwise it waits exactly while no decisive event has arrived, and succeeds exactly when this peripheral's Connect comes first |
| CbAdapter.DisconnectOutcomes | src/corebluetooth/adapter.rs:293-326 | with the corrected state test: Ok for this peripheral's error-free disconnection, AdapterUnavailable after a loss of power, and a loss of power always decides |
| CbAdapter.DisconnectWaits | src/corebluetooth/adapter.rs:308-323 | with the corrected state test, the loop keeps waiting exactly while no loss of power and no disconnection of this peripheral has arrived |
| CbAdapter.DisconnectVerdict | src/corebluetooth/adapter.rs:308-323 | with the corrected state test, the loop ends with a given verdict exactly when its first decisive event gives that verdict |
| CbAdapter.DisconnectAsWrittenAbortsOnPoweredOn | src/corebluetooth/adapter.rs:310 | as written, a PoweredOn notice before the disconnection turns success into AdapterUnavailable, where the corrected loop succeeds |
| CbAdapter.DisconnectAsWrittenIgnoresPowerOff | src/corebluetooth/adapter.rs:310 | as written, powering off leaves the loop waiting, where the corrected loop fails with AdapterUnavailable |
| CbAdapter.DisconnectAsWrittenWaits | src/corebluetooth/adapter.rs:308-323 | as written, the loop keeps waiting exactly while no state change other than PoweredOff and no disconnection of this peripheral has arrived |
| CbAdapter.DisconnectAsWrittenVerdict | src/corebluetooth/adapter.rs:308-323 | as written, the loop ends with a given verdict exactly when its first decisive event gives that verdict |
| CbAdapter.DisconnectDevice | src/corebluetooth/adapter.rs:293-326 | with the corrected loop: AdapterUnavailable when the manager is not powered on; otherwise it waits exactly while no decisive event has arrived, and succeeds exactly when this peripheral's error-free Disconnect comes first |
| CbAdapter.DisconnectAgreesWithoutStateChanges | src/corebluetooth/adapter.rs:308-323 | the written and the corrected loop differ only on state changes: without one they reach the same verdict |
| CbAdapter.Register | src/corebluetooth/adapter.rs:329-360 | one more guard is counted for the identifier, and the native registration is renewed exactly when the identifier is new, with every registered identifier |
| CbAdapter.Release | src/corebluetooth/adapter.rs:329-360 | dropping a guard removes the identifier exactly when it was the last guard, and only then renews the native registration |
| CbAdapter.RegisterCounts | src/corebluetooth/adapter.rs:329-360 | registering keeps each identifier's count equal to its live guards |
| CbAdapter.ReleaseCounts | src/corebluetooth/adapter.rs:329-360 | releasing keeps each identifier's count equal to its live guards, and renews the registration exactly when the last guard goes |
| CbAdapter.PlatformsAgree | src/corebluetooth/adapter.rs:370-436 | without native connection events for the device, the iOS and macOS streams are the same |
| CbAdapter.ConnectionItemsAreThisDevice | src/corebluetooth/adapter.rs:370-436 | every connection event on either platform comes from an event about this device |
| CbAdapter.ConnectionItemsFromDevice | src/corebluetooth/adapter.rs:370-436 | every item of the stream comes from an event about this device before any loss of power |
| CbAdapter.ConnectionEvents | src/corebluetooth/adapter.rs:370-436 | AdapterUnavailable exactly when the manager is not powered on; otherwise the stream of the device's connection events, each from an event about this device before any loss of power |
| CbGatt.Reach | src/corebluetooth/characteristic.rs:81-94 | the native call is made exactly when the service and its peripheral exist and the peripheral is connected; otherwise NotFound or NotConnected |
| CbGatt.Completion | src/corebluetooth/characteristic.rs:105 | a native completion keeps its value, and its error becomes the matching library kind |
| CbGatt.AwaitFirst | src/corebluetooth/characteristic.rs:100-118 | the loop waits exactly while no decisive event has arrived, and the first decisive event gives the verdict |
| CbGatt.AwaitAt | src/corebluetooth/characteristic.rs:100-118 | the first decisive event fixes the verdict, whatever follows it |
| CbGatt.AwaitSkips | src/corebluetooth/characteristic.rs:116 | an event the loop ignores can be removed without changing the verdict |
| CbGatt.AwaitSucceeds | src/corebluetooth/characteristic.rs:100-118 | the loop succeeds with a value exactly when its first decisive event is its own completion carrying that value |
| CbGatt.StepSucceeds | src/corebluetooth/characteristic.rs:107-114 | disconnections and service changes only ever fail, so a success comes from the operation's own completion |
| CbGatt.Cached | src/corebluetooth/characteristic.rs:73-77 | a cached value is returned when present, and NotReady otherwise |
| CbGatt.Run | src/corebluetooth/characteristic.rs:80-119 | a failed check is the result; otherwise the operation waits exactly while undecided, succeeds with its answer exactly when its own completion succeeds first, and fails with the completion's error when its own completion fails first |
| CbGatt.AwaitFails | src/corebluetooth/characteristic.rs:100-118 | when the operation's own completion is the first decisive event and carries an error, that error is the verdict |
| CbGatt.Interrupted | src/corebluetooth/characteristic.rs:107-114 | a disconnection is the operation's error, and a services-changed event naming its service gives ServiceChanged, when it comes first |
| CbGatt.CachedOrDiscover | src/corebluetooth/device.rs:154-159 | a cached list is returned without discovery, and discovery runs otherwise |
| CbGatt.WithUuid | src/corebluetooth/device.rs:118-121 | the result holds exactly the discovered attributes with the requested UUID, and errors and waiting pass through |
| CbDevice.DiscoverServices | src/corebluetooth/device.rs:123-149 | NotConnected unless the peripheral is connected; then the first service discovery or disconnection decides, a failed discovery coming first is the error, and success returns the cached services |
| CbDevice.DiscoverIgnoresServicesChanged | src/corebluetooth/device.rs:123-149 | a services-changed event never ends a device-wide discovery |
| CbDevice.DiscoverServicesWithUuid | src/corebluetooth/device.rs:118-121 | the result holds the discovered services whose UUID matches, with errors unchanged |
| CbDevice.Services | src/corebluetooth/device.rs:154-168 | the cached list is returned when there is one, and a discovery runs otherwise |
| CbDevice.Rssi | src/corebluetooth/device.rs:192-205 | the wait ends exactly at an rssi reading or a receive failure; the first of these decides, a reading giving its value or error and a receive failure giving the receive error |
| CbDevice.RssiFirst | src/corebluetooth/device.rs:192-205 | the first rssi reading or receive failure is the one the wait returns |
| CbDevice.RssiIgnores | src/corebluetooth/device.rs:192-205 | a disconnection or any other event does not end the wait |
| CbDevice.IsPaired | src/corebluetooth/device.rs:83-85 | the answer is NotSupported |
| CbDevice.Unpair | src/corebluetooth/device.rs:108-110 | the answer is NotSupported |
| CbDevice.Pair | src/corebluetooth/device.rs:91-101 | pairing succeeds without doing anything |
| CbDevice.WasInvalidated | src/corebluetooth/device.rs:255-257 | a service was invalidated exactly when its handle is among the invalidated ones |
| CbService.DiscoverCharacteristics | src/corebluetooth/service.rs:48-87 | NotFound or NotConnected without a native call; then this service's first discovery completion, a disconnection or a change naming the service decides, a failed discovery coming first is the error, and success returns the cache |
| CbService.CharacteristicsServiceChanged | src/corebluetooth/service.rs:48-87 | a change naming this service that comes first fails the discovery with ServiceChanged |
| CbService.CharacteristicsIgnoreOthers | src/corebluetooth/service.rs:48-87 | discovery completions for other services do not affect the result |
| CbService.DiscoverIncludedServices | src/corebluetooth/service.rs:123-162 | the same checks and wait, for this service's included-services completion, whose error is the result when it fails first |
| CbCharacteristic.FromCb | src/corebluetooth/characteristic.rs:38-68 | reliable write and writable auxiliaries are never reported |
| CbCharacteristic.FromCbIsLowOctet | src/corebluetooth/characteristic.rs:38-68 | the flags read are the low octet in the library's bit layout, and higher CoreBluetooth flags are dropped |
| CbCharacteristic.Value | src/corebluetooth/characteristic.rs:73-77 | the cached value is returned when present, and NotReady otherwise |
| CbCharacteristic.Read | src/corebluetooth/characteristic.rs:80-119 | a failed check is the result; otherwise the read waits exactly while undecided, succeeds only after this characteristic's value update succeeds first, and fails with the update's error when a failed update comes first |
| CbCharacteristic.Write | src/corebluetooth/characteristic.rs:123-165 | a failed check is the result; otherwise the write waits exactly while undecided, succeeds only after its own write completion succeeds first, and fails with the completion's error when a failed completion comes first |
| CbCharacteristic.WriteFails | src/corebluetooth/characteristic.rs:123-165 | a failed write completion that comes first is the write's error |
| CbCharacteristic.WriteWithoutResponse | src/corebluetooth/characteristic.rs:168-223 | a success comes from a pass whose checks held and whose peripheral could send |
| CbCharacteristic.WritesAtOnce | src/corebluetooth/characteristic.rs:168-223 | a connected peripheral that can send takes the write at once |
| CbCharacteristic.RetriesWhenReady | src/corebluetooth/characteristic.rs:168-223 | a pass that is told the peripheral is ready again retries with the next pass |
| CbCharacteristic.CheckFails | src/corebluetooth/characteristic.rs:180-190 | a pass whose service, peripheral or connection check fails ends the write with that NotFound or NotConnected error |
| CbCharacteristic.WaitFails | src/corebluetooth/characteristic.rs:203-216 | when the first event ending a pass's wait is a disconnection, its error is the result, and when it is a services change naming the service, ServiceChanged is |
| CbCharacteristic.WaitsWhileUndecided | src/corebluetooth/characteristic.rs:203-216 | a pass whose events never end its wait leaves the write waiting |
| CbCharacteristic.Notify | src/corebluetooth/characteristic.rs:245-321 | NotSupported before any native call when the characteristic neither notifies nor indicates; then the checks, success only after its notification state update, and that update's error when a failed update comes first |
| CbCharacteristic.NotifyStreamItems | src/corebluetooth/characteristic.rs:302-320 | the stream's values are exactly this characteristic's successful updates; its errors are exactly those of this characteristic's failed updates, of every disconnection, and ServiceChanged when its service is named as changed |
| CbCharacteristic.NotifyStreamValues | src/corebluetooth/characteristic.rs:302-309 | the stream's values are exactly this characteristic's successful updates, in both directions |
| CbCharacteristic.NotifyStreamErrors | src/corebluetooth/characteristic.rs:302-316 | an error is in the stream exactly when a failed update of this characteristic, a disconnection or a change naming its service put it there |
| CbCharacteristic.DiscoverDescriptors | src/corebluetooth/characteristic.rs:329-368 | a failed check is the result; otherwise discovery waits exactly while undecided, succeeds only after this characteristic's discovery completion, and fails with its error when a failed completion comes first |
| CbDescriptor.Value | src/corebluetooth/descriptor.rs:34-38 | the cached value is returned when present, and NotReady otherwise |
| CbDescriptor.Read | src/corebluetooth/descriptor.rs:41-80 | a failed check is the result; otherwise the read waits exactly while undecided, succeeds only after this descriptor's value update succeeds first, and fails with the update's error when a failed update comes first |
| CbDescriptor.ReadWithoutValue | src/corebluetooth/descriptor.rs:41-80 | a successful read with nothing cached still gives NotReady |
| CbDescriptor.Write | src/corebluetooth/descriptor.rs:83-121 | a failed check is the result; otherwise the write waits exactly while undecided, succeeds only after its own write completion, and fails with the completion's error when a failed completion comes first |
| CbDescriptor.WriteDisconnected | src/corebluetooth/descriptor.rs:83-121 | a disconnection before the write completes is the write's error |
| CbAd.ToUuids | src/corebluetooth/ad.rs:4-22 | each native UUID is converted in place, in the same order |
| CbAd.Rekey | src/corebluetooth/ad.rs:4-22 | each service-data entry keeps its payload, with its key converted to a UUID, in the same order |
| CbAd.FromNative | src/corebluetooth/ad.rs:4-22 | the services are the service UUIDs followed by the overflow UUIDs, the service data has one entry per UUID with the native payload, and the other fields are copied |
| CbAd.ToUuidsMembers | src/corebluetooth/ad.rs:4-22 | a UUID is among the converted ones exactly when some native UUID converts to it |
| CbAd.ServicesReported | src/corebluetooth/ad.rs:4-22 | every advertised service UUID, primary or overflow, is reported, and no other |
| CbAd.ServiceDataPresent | src/corebluetooth/ad.rs:4-22 | a UUID has service data exactly when some native entry's key converts to it |
| CbAd.ServiceDataValue | src/corebluetooth/ad.rs:4-22 | the payload reported under a UUID is that of the last native entry with that UUID |
| CbAd.ServiceDataKeepsUuid | src/corebluetooth/ad.rs:4-22 | service data handed to CoreBluetooth under a UUID is reported under the same UUID |
| CbAdvertisement.Payload | src/corebluetooth/advertisement.rs:101-105 | the payload is two octets of company identifier followed by the data unchanged |
| CbAdvertisement.ParsePayload | src/corebluetooth/advertisement.rs:101-105 | a payload can be read back exactly when it has at least two octets |
| CbAdvertisement.PayloadRoundTrip | src/corebluetooth/advertisement.rs:101-105 | reading a payload back gives the company identifier and the data, so the identifier is written high octet first |
| CbAdvertisement.ManufacturerEntry | src/corebluetooth/advertisement.rs:99-116 | the dictionary has a manufacturer entry exactly when the record has manufacturer data, and the entry reads back as that data |
| CbAdvertisement.EnsureManager | src/corebluetooth/advertisement.rs:83-89 | a held manager is kept, and a new one is used only when none is held |
| CbAdvertisement.StartAdvertisingWith | src/corebluetooth/advertisement.rs:79-135 | the advertiser ends up holding a manager shared with the guard, reuses a held one, and starts advertising the record's manufacturer entry on it |
| CbAdvertisement.Stop | src/corebluetooth/advertisement.rs:69-77 | the manager is let go, and stopAdvertising is sent exactly when one was held |
| CbAdvertisement.Advertise | src/corebluetooth/advertisement.rs:32-67 | advertising starts with the raw data as the manufacturer entry; with a duration it then stops and lets the manager go, and without one it keeps the manager |
| CbAdvertisement.RestartReusesManager | src/corebluetooth/advertisement.rs:79-135 | starting twice reuses the first manager, and the guard stops that same manager |
| L2cap.TrySend | src/corebluetooth/l2cap_channel.rs:188-203 | a packet is queued at the back exactly when the channel is open and the queue has room; otherwise ConnectionFailed when closed and NotReady when full |
| L2cap.TryRecv | src/corebluetooth/l2cap_channel.rs:95-119 | the front packet is taken exactly when one is queued, even after closing; otherwise ConnectionFailed when closed and NotReady when open |
| L2cap.Recv | src/corebluetooth/l2cap_channel.rs:72-91 | the read waits exactly while the queue is empty and open, and otherwise behaves as the non-blocking read |
| L2cap.CopyInto | src/corebluetooth/l2cap_channel.rs:95-119 | a packet is copied exactly when it fits the buffer, giving its length and leaving the rest of the buffer as it was; otherwise InvalidParameter |
| L2cap.Deliver | src/corebluetooth/l2cap_channel.rs:95-119 | a receive error is the result, and otherwise the received packet is copied out |
| L2cap.TryRead | src/corebluetooth/l2cap_channel.rs:95-119 | an empty queue gives ConnectionFailed or NotReady, a packet is dequeued even when it does not fit, and a success returns the packet's length |
| L2cap.Read | src/corebluetooth/l2cap_channel.rs:72-91 | the read waits exactly while the queue is empty and open, and otherwise is the non-blocking read |
| L2cap.TryWrite | src/corebluetooth/l2cap_channel.rs:188-203 | the write succeeds exactly when the channel is open with room, appending the packet; otherwise ConnectionFailed or NotReady |
| L2cap.Write | src/corebluetooth/l2cap_channel.rs:175-185 | the write waits exactly while the queue is full and open, and otherwise is the non-blocking write |
| L2cap.BytesAvailable | src/corebluetooth/l2cap_channel.rs:241-267 | a listening delegate enqueues at most 1024 available octets as one packet, or stops listening when the queue refuses it, keeps the queue bounded; a stopped delegate and a failed native read change nothing |
| L2cap.RecvAll | src/corebluetooth/l2cap_channel.rs:95-119 | receiving from a queue returns exactly its packets, in order |
| L2cap.SendAllAppends | src/corebluetooth/l2cap_channel.rs:188-203 | sending into an open queue with room appends every packet |
| L2cap.Fifo | src/corebluetooth/l2cap_channel.rs:72-203 | packets sent into a fresh queue come back out in the order sent |
| WinAdapter.Width | src/windows/adapter.rs:103-119 | a UUID kind takes 2, 4 or 16 octets |
| WinAdapter.ReadUuid | src/windows/adapter.rs:109-119 | a UUID is read exactly when enough octets remain; a 16- or 32-bit value narrows back to the integer read, and a 128-bit UUID is the sixteen octets |
| WinAdapter.ReadAll | src/windows/adapter.rs:121-144 | reading until failure gives one UUID per whole width, starting with the first, and short forms lie on the Base UUID |
| WinAdapter.SolicitedKind | src/windows/adapter.rs:121-144 | exactly the AD types 0x14, 0x15 and 0x1F list solicited services |
| WinAdapter.ServiceDataKind | src/windows/adapter.rs:146-172 | exactly the AD types 0x16, 0x20 and 0x21 carry service data |
| WinAdapter.SectionSolicits | src/windows/adapter.rs:121-144 | a section that is not a solicitation type contributes nothing |
| WinAdapter.SolicitedAppend | src/windows/adapter.rs:121-144 | the sections' UUIDs are concatenated in order |
| WinAdapter.SolicitedU16Section | src/windows/adapter.rs:121-144 | a 16-bit solicitation section contributes one 16-bit UUID per two octets |
| WinAdapter.ReadAllU16 | src/windows/adapter.rs:109-119 | every UUID read as 16-bit is a 16-bit UUID |
| WinAdapter.ServiceDataEntry | src/windows/adapter.rs:146-172 | a section gives an entry exactly when it has a service-data type and room for its UUID, and the value is every octet after the UUID |
| WinAdapter.ServiceData | src/windows/adapter.rs:146-172 | the service data has one entry per UUID |
| WinAdapter.ServiceDataKeepsLast | src/windows/adapter.rs:146-172 | a UUID keeps the value of the last section that carries it |
| WinAdapter.ServiceDataSkips | src/windows/adapter.rs:146-172 | sections without an entry can be removed without changing the result |
| WinAdapter.FromReceived | src/windows/adapter.rs:39-99 | an empty name is no name, only the first manufacturer entry is kept, connectability defaults to false, and without an advertisement every advertised field is empty |
| WinAdapter.ScanFilter | src/windows/adapter.rs:225-305 | an advertisement is yielded exactly when it was received and passes the service filter |
| WinAdapter.ScanFilterExtremes | src/windows/adapter.rs:225-305 | no filter keeps every advertisement, and an empty service list keeps none |
| WinAdapter.FilterAll | src/windows/adapter.rs:225-305 | no filter keeps every advertisement, in order |
| WinAdapter.FilterNone | src/windows/adapter.rs:225-305 | an empty service list keeps no advertisement |
| WinCharacteristic.CheckStatus | src/windows/characteristic.rs:174-182 | success exactly for a Success status, and AdapterUnavailable otherwise |
| WinCharacteristic.PropertiesOf | src/windows/characteristic.rs:48-54 | undeclared bits are dropped instead of failing, so the result packs to the low ten bits |
| WinCharacteristic.ReadValue | src/windows/characteristic.rs:68-83 | the value is returned exactly on a Success status, and AdapterUnavailable otherwise |
| WinCharacteristic.Value | src/windows/characteristic.rs:59-61 | the value comes from a read in the cached mode, and only when that read succeeds |
| WinCharacteristic.Read | src/windows/characteristic.rs:64-66 | the value comes from a read in the uncached mode, and only when that read succeeds |
| WinCharacteristic.WriteKind | src/windows/characteristic.rs:96-112 | the value is written with the requested option, and the outcome is the status check |
| WinCharacteristic.Write | src/windows/characteristic.rs:86-88 | the value is sent without asking for a response, and the write succeeds exactly on a Success status |
| WinCharacteristic.WriteAcknowledged | src/windows/characteristic.rs:92-94 | the value is sent asking for a response, and the write succeeds exactly on a Success status |
| WinCharacteristic.NotifyValue | src/windows/characteristic.rs:117-135 | Notify when the characteristic notifies, else Indicate when it indicates, else OperationNotSupported |
| WinCharacteristic.Notify | src/windows/characteristic.rs:117-205 | a value is written exactly when the characteristic can notify or indicate, the handler is kept exactly when the write succeeds, and that is when set-up succeeds |
| WinCharacteristic.StopWrite | src/windows/characteristic.rs:163-199 | the drop guard exists exactly when set-up succeeded, and what it writes clears both the Notify and the Indicate bit |
| WinCharacteristic.IsNotifying | src/windows/characteristic.rs:208-224 | on success, notifying exactly when the descriptor has the Notify or Indicate bit |
| WinCharacteristic.NotifyThenIsNotifying | src/windows/characteristic.rs:117-224 | after a successful set-up the descriptor reads back as notifying, and after the drop guard's write it reads back as not notifying |
| WinCharacteristic.GetDescriptors | src/windows/characteristic.rs:242-264 | the query carries the UUID and cache mode, and the descriptors are returned exactly on a Success status |
| WinCharacteristic.DiscoverDescriptors | src/windows/characteristic.rs:230-232 | discovery asks the device, for the given UUID or for all, and succeeds exactly on a Success status |
| WinCharacteristic.Descriptors | src/windows/characteristic.rs:238-240 | the listing asks the cache for every descriptor, and succeeds exactly on a Success status |
| WinDevice.SupportedKindsFollowCapability | src/windows/device.rs:118-131 | a PIN is shown exactly with a display, asked for exactly with a keyboard, matched exactly with a display and a way to answer, and plain confirmation is offered unless the device is display-only |
| WinDevice.Respond | src/windows/device.rs:153-177 | confirmation is accepted exactly when the agent confirms; a PIN to display is shown exactly when it parses as a passkey; a ProvidePin request is accepted with the six-digit form of the agent's passkey whenever the agent supplies one, and only then; a PIN to match is accepted exactly when it parses and the agent confirms it; other kinds go unanswered |
| WinDevice.ProvidedPinRoundTrips | src/windows/device.rs:153-177 | a PIN given to the device is six digits that parse back to the agent's passkey |
| WinDevice.DefaultAgentAnswersNothing | src/windows/device.rs:153-177 | the default agent answers only display requests |
| WinDevice.PairWithAgent | src/windows/device.rs:117-199 | the run answers at most one request per event, a cancellation always has an error outcome, and an undecided run answered every request |
| WinDevice.PairDecides | src/windows/device.rs:117-199 | the first event that is not a handled request decides: a completion gives its outcome, a failing handler cancels with its error, and every earlier request was answered in order |
| WinDevice.Rssi | src/windows/device.rs:262-264 | the answer is NotSupported |
| WinDevice.EqualityAgreesWithHash | src/windows/device.rs:25-35 | equality is an equivalence on the identifier, and devices with identifiers are equal exactly when they hash alike |
| WinTypes.First | src/windows/types.rs:23-29 | the cursor starts at position 0 of the same vector |
| WinTypes.Current | src/windows/types.rs:33-40 | an element is returned exactly when the cursor is on one, and it is the element at the cursor |
| WinTypes.MoveNext | src/windows/types.rs:47-50 | the cursor advances by one, and the answer is whether it is still on an element |
| WinTypes.Available | src/windows/types.rs:52-61 | the count is at most the capacity: the remaining elements or the capacity, whichever is smaller |
| WinTypes.GetMany | src/windows/types.rs:52-61 | the next elements are copied to the front of the buffer, the rest of the buffer is untouched, and the cursor moves by the buffer's length |
| WinTypes.WalkVisitsInOrder | src/windows/types.rs:23-50 | after k steps from First, the cursor shows element k, or an error past the end |
| WinVer.Cmp | src/windows/winver.rs:24-33 | the ordering is Less, Equal or Greater as the integers compare |
| WinVer.VersionAboveIsLexicographic | src/windows/winver.rs:24-33 | the answer is true exactly when the version is known and lexicographically at least the one asked for |
| WinVer.VersionAboveItself | src/windows/winver.rs:24-33 | a known version is above itself |
| WinVer.VersionAboveMonotone | src/windows/winver.rs:24-33 | a version above w is above every version below w |
| AsyncUtil.NewExcluder | src/android/async_util.rs:45-50 | a new excluder is unlocked and stores nothing |
| AsyncUtil.TryLockExcludes | src/android/async_util.rs:90-97 | try_lock succeeds exactly when no lock is held, a lock is held afterwards, and a second try fails |
| AsyncUtil.UnlockHandsOver | src/android/async_util.rs:112-152 | the lock holder wakes with the value unlock stored, and unlocking or dropping the lock frees it |
| AsyncUtil.DroppedWaiterGetsNothing | src/android/async_util.rs:131-152 | a waiter woken by the excluder's drop gets nothing, and the lock is free |
| AsyncUtil.Obtain | src/android/async_util.rs:32-40 | the operation's error is returned at once with the stored value untouched; otherwise the callback's value, or nothing when the excluder was dropped |
| AsyncUtil.NewNotifier | src/android/async_util.rs:184-189 | a new notifier is inactive and within capacity |
| AsyncUtil.Push | src/android/async_util.rs:230-235 | the item goes to the back; a full queue drops its oldest item |
| AsyncUtil.Broadcast | src/android/async_util.rs:230-235 | every holding receiver gets the item, and queues stay within capacity |
| AsyncUtil.Subscribe | src/android/async_util.rs:201-227 | on_start runs exactly when the notifier is inactive; its failure leaves the notifier unchanged and is returned, and otherwise the new receiver is appended and the notifier is active |
| AsyncUtil.Notify | src/android/async_util.rs:230-235 | an inactive notifier is unchanged, and an active one broadcasts the value |
| AsyncUtil.DropNotifier | src/android/async_util.rs:262-267 | queues stay within capacity |
| AsyncUtil.Release | src/android/async_util.rs:271-273 | only that receiver stops holding, and on_stop runs exactly when the notifier goes from active to inactive |
| AsyncUtil.ReleaseStopsOnLast | src/android/async_util.rs:271-273 | on_stop runs exactly when the receiver let go was the only one still holding the sender |
| AsyncUtil.Next | src/android/async_util.rs:241-254 | a receiver that let go has ended, an empty queue is pending, and an item is the front of the queue, which is removed |
| AsyncUtil.NotifyReachesHolders | src/android/async_util.rs:230-235 | a notified value reaches every holding receiver at the back of its queue, and no other |
| AsyncUtil.DropEndsStreams | src/android/async_util.rs:262-267 | after the drop, every holding receiver has the end marker last in its queue |
| AsyncUtil.EndMarkerEnds | src/android/async_util.rs:241-254 | reading the end marker ends the stream for good and lets go of the sender |
| AsyncUtil.SubscriberSeesLaterValues | src/android/async_util.rs:201-235 | a new subscriber of an active notifier starts empty and sees only values notified after it joined |
| GattTree.Register | src/android/gatt_tree.rs:133-151 | the device's entry is replaced by a fresh connection with no services, an unlocked excluder and an inactive notifier, and every other entry is unchanged |
| GattTree.Deregister | src/android/gatt_tree.rs:154-156 | the entry is removed, the others are unchanged, and the answer is whether there was one |
| GattTree.Clear | src/android/gatt_tree.rs:159-167 | the registry ends empty, and the answer is whether it held anything |
| GattTree.Find | src/android/gatt_tree.rs:169-178 | a connection is returned exactly when its callback handler is alive, and an entry whose handler is gone is removed |
| GattTree.FindService | src/android/gatt_tree.rs:180-182 | a tree is returned exactly when the connection is live and lists the service, and it is that service's tree |
| GattTree.FindEvictsOnlyDead | src/android/gatt_tree.rs:169-178 | finding never removes a live connection and never touches another device's entry |
| GattTree.AddListed | src/android/gatt_tree.rs:201-218 | known services keep their trees; without an error every listed identifier gets an entry, and each new one holds the tree built for its first listing |
| GattTree.RefreshServices | src/android/gatt_tree.rs:201-218 | on success exactly the listed services remain, the known ones with their old trees; on an error nothing known is lost |
| GattTree.AddListedKnown | src/android/gatt_tree.rs:201-218 | listing only known services adds nothing and fails nowhere |
| GattTree.RefreshKeepsKnown | src/android/gatt_tree.rs:201-218 | refreshing with exactly the known services keeps the map as it was |
| GattTree.GattErrorCheck | src/android/gatt_tree.rs:491-499 | success exactly for status 0; an error status that fits an octet is its own ATT code, and any other is UNLIKELY_ERROR |
| GattTree.GattErrorCodes | src/android/gatt_tree.rs:491-499 | an error never carries the success code, and distinct octet statuses stay distinct |
| GattTree.OnConnectionStateChange | src/android/gatt_tree.rs:295-311 | a disconnection removes the device's connection, and any other state leaves the registry unchanged |
| GattTree.OnServicesDiscovered | src/android/gatt_tree.rs:313-329 | nothing happens without a live connection; otherwise the services are refreshed, the ATT result is handed over, the proxy's lock is dropped and subscribers are notified |
| GattTree.OnServiceChanged | src/android/gatt_tree.rs:471-488 | discovery is called exactly when the connection is live and its excluder is free; a successful call keeps the lock, and a failed one leaves everything as it was |
| GattTree.ServiceChangeWaitsForDiscovery | src/android/gatt_tree.rs:471-488 | after a successful trigger, a second service change triggers nothing until the discovery completes |
| EventReceiver.Trim | src/android/event_receiver.rs:111 | the result is a contiguous part of the text with no whitespace at either end |
| EventReceiver.TrimStart | src/android/event_receiver.rs:111 | the result is a suffix of the text, only whitespace was removed, and it starts with a non-whitespace character |
| EventReceiver.TrimEnd | src/android/event_receiver.rs:111 | the result is a prefix of the text, only whitespace was removed, and it ends with a non-whitespace character |
| EventReceiver.TrimKeepsClean | src/android/event_receiver.rs:111 | text with no whitespace at either end is its own trim |
| EventReceiver.ActionsDistinct | src/android/event_receiver.rs:111-160 | the four action names are distinct, so each intent takes exactly one branch |
| EventReceiver.DroppedReceiverIgnores | src/android/event_receiver.rs:98-110 | a dropped receiver changes nothing and forwards nothing |
| EventReceiver.StateChangeForwarded | src/android/event_receiver.rs:112-123 | a state change is forwarded with its state, and the registry is cleared exactly when the state is STATE_OFF |
| EventReceiver.AclConnectedForwarded | src/android/event_receiver.rs:124-134 | an ACL connection is forwarded exactly for the LE transport with a readable device, and the registry is untouched |
| EventReceiver.AclDisconnectedForwarded | src/android/event_receiver.rs:135-146 | an LE disconnection removes the device's connection and is forwarded, and other transports do nothing |
| EventReceiver.BondChangeForwarded | src/android/event_receiver.rs:147-160 | a bond-state change is forwarded with the device and both states exactly when all three read, and the registry is untouched |
| EventReceiver.OtherIntentsIgnored | src/android/event_receiver.rs:98-165 | a missing intent, an unreadable action or an unknown action does nothing |
| EventReceiver.Build | src/android/event_receiver.rs:34-52 | a live receiver is returned as it is; otherwise a proxy failure is returned with no global receiver, and a successful proxy makes the new receiver the global one and returns it |
| EventReceiver.BuildIsSingleton | src/android/event_receiver.rs:34-52 | building again while the first receiver lives returns that same receiver |
| AndroidDevice.GetConnection | src/android/device.rs:231-234 | the cached connection is used when there is one; otherwise the registry's live connection, and NotConnected when there is none |
| AndroidDevice.Pair | src/android/device.rs:91-137 | a missing connection, a failed subscription, a failed bond-state read and a failed createBond (including its false answer) are each returned as the error; createBond is called exactly when the first three succeed and the device is neither bonded nor bonding; success means the device was bonded or a bonded event arrived |
| AndroidDevice.PairWhenBonded | src/android/device.rs:91-137 | a bonded device pairs at once, without createBond, whatever the events |
| AndroidDevice.PairCallsCreateBond | src/android/device.rs:91-137 | createBond is called exactly when the device is neither bonded nor bonding |
| AndroidDevice.PairDecidedBy | src/android/device.rs:91-137 | the first deciding bond event gives the result: bonded is success, unbonded after bonding is NotAuthorized, and unbonded after bonded removes the connection and is NotConnected |
| AndroidDevice.PairUndecided | src/android/device.rs:91-137 | when no event decides, the ended stream gives NotConnected and the registry keeps the connection |
| AndroidDevice.IsPaired | src/android/device.rs:81-89 | paired exactly when the bond state is bonded, and a failing Java call is Internal |
| AndroidDevice.Services | src/android/device.rs:177-186 | the identifiers of the connection's services, and NotConnected without a connection |
| AndroidDevice.DiscoverServices | src/android/device.rs:155-166 | success exactly when the connection, the call and the callback's ATT result all succeed, giving the refreshed services; an ATT error becomes Protocol |
| AndroidDevice.DiscoverServicesWithUuid | src/android/device.rs:168-175 | the result holds exactly the discovered services with the given identifier, and errors pass through |
| AndroidDevice.TruncateI16 | src/android/gatt_tree.rs:462-467 | the result agrees with the value modulo 2^16 |
| AndroidDevice.TruncateKeepsI16 | src/android/gatt_tree.rs:462-467 | a value that fits 16 bits survives the cast |
| AndroidDevice.RssiResult | src/android/gatt_tree.rs:462-467 | success exactly for status 0, with the truncated RSSI, and otherwise the status check's ATT error |
| AndroidDevice.Rssi | src/android/device.rs:210-220 | success exactly when the connection, the call and the callback's result all succeed, giving the reading; an ATT error becomes Protocol |
| AndroidDevice.PairWithAgent | src/android/device.rs:139-145 | the answer is NotSupported |
| AndroidDevice.Unpair | src/android/device.rs:147-153 | the answer is NotSupported |
| AndroidDevice.ServiceChangedIndications | src/android/device.rs:188-208 | NotSupported below API level 31; otherwise success exactly when the connection check succeeds |
| AndroidDevice.WasInvalidated | src/android/device.rs:243-245 | a service is invalidated exactly when the device has no live connection listing it |
| AndroidDevice.RefreshInvalidates | src/android/device.rs:243-245 | after a discovery that drops a service, that service reads as invalidated |
| Jni.FrameSize | src/android/jni.rs:116-127 | the frame holds 512 references on threads this module attached, and 256 otherwise |
| Jni.FrameOpenWhileNested | src/android/jni.rs:116-140 | a frame is open exactly while the level is positive: pushes exceed pops by one then, and equal them at level 0 |
| Jni.RunEnters | src/android/jni.rs:116-127 | entries raise the level by their number and push a frame only when starting at level 0 |
| Jni.RunExits | src/android/jni.rs:129-140 | exits lower the level by their number and pop a frame only on reaching 0 from 1 |
| Jni.OneFramePerNesting | src/android/jni.rs:33-66 | balanced nested use from level 0 pushes and pops exactly one frame and returns to level 0 |
| Jni.ExitAtZero | src/android/jni.rs:129-140 | exiting at level 0 pops nothing and stays at 0 |
| Jni.AsVecU8 | src/android/jni.rs:206-209 | each Java byte is reinterpreted as unsigned: negative bytes gain 256, and the length is kept |
| Jni.ByteArrayRoundTrip | src/android/jni.rs:201-209 | storing bytes in a Java array and reading them back gives them unchanged, and the other way round |
| BluerDevice.EqualityAgreesWithHash | src/bluer/device.rs:19-32 | equality is an equivalence on adapter name and address, and devices are equal exactly when they hash alike |
| BluerDevice.ListOrEmpty | src/bluer/device.rs:134-167 | the list is empty exactly when the read failed, gave nothing or gave an empty list, and a non-empty list is the property's value |
| BluerDevice.AdvData | src/bluer/device.rs:134-167 | the device is always connectable, a missing or empty alias is no name, only the first manufacturer entry is kept, and failed reads count as absent |
| BluerDevice.FirstNotification | src/bluer/device.rs:106-118 | Ok exactly for a first value; a failed notify() or an error item is that error, and a stream that ends is Internal |
| BluerDevice.SearchCharacteristics | src/bluer/device.rs:104-121 | the first characteristic whose UUID read fails or is Service Changed decides: the read error, or its first notification; none means no verdict |
| BluerDevice.SearchServices | src/bluer/device.rs:102-122 | the first service that decides is the answer: a failed UUID read or characteristic listing of a Generic Attribute service gives its error, and otherwise its inner search's verdict |
| BluerDevice.ServicesChanged | src/bluer/device.rs:100-123 | a failed service listing is its error; otherwise the first deciding service's verdict, and NotFound when none decides |
| BluerDevice.SearchFindsServiceChanged | src/bluer/device.rs:100-123 | with every read succeeding, the search stops at a characteristic exactly when some Generic Attribute service has Service Changed |
| BluerDevice.SearchCharacteristicsFinds | src/bluer/device.rs:107-118 | with every UUID readable, the inner search stops exactly when the characteristic is present |
| BluerDevice.NotFoundWithoutCharacteristic | src/bluer/device.rs:100-123 | without a Service Changed characteristic in a Generic Attribute service, the answer is NotFound |
| BluerDevice.ServicesChangedDecidedBy | src/bluer/device.rs:100-123 | with everything readable, the answer is the first notification of the first Service Changed characteristic of the first Generic Attribute service that has one |
| BluerDevice.SkippedService | src/bluer/device.rs:102-121 | a readable service without a Service Changed characteristic is passed over |
| BluerDevice.Rssi | src/bluer/device.rs:130-132 | the reading is returned exactly when BlueZ knows one, NotFound when it does not, and a failed BlueZ read's own error passes through |
| BluerCharacteristic.FromFlagsCopiesEach | src/bluer/characteristic.rs:140-155 | every flag becomes the property of the same name, so distinct flag sets give distinct properties |
| BluerCharacteristic.FromFlagsPacksEach | src/bluer/characteristic.rs:140-155 | bit k of the packed properties is BlueZ flag k |
| BluerCharacteristic.Write | src/bluer/characteristic.rs:89-91 | the value is sent as a request, and an error is reported exactly when BlueZ reports one |
| BluerCharacteristic.WriteWithoutResponse | src/bluer/characteristic.rs:94-105 | the value is sent as a command |
| BluerCharacteristic.WritesDiffer | src/bluer/characteristic.rs:89-105 | both writes send the same value with different operations, and only write reports errors |

## Left out

- Objective-C, JNI and WinRT plumbing are left out: class registration, message sends, delegate object lifetimes and the Java shim classes. Native results appear only as inputs.
- The serial dispatch queue, the Android L2CAP threads and the CoreBluetooth run-loop stream delegates are left out. They are scheduling, not logic.
- `Excluder::lock` is modelled as a state, not as a task. A second locker waits (it sees `Locked`) and never fails fast. `wait_unlock_with_timeout` and `StreamUntil` are timers and are left out.
- Advertising publishers that are pure FFI are left out, as are the `todo!()` stubs of the Android adapter, service, characteristic and descriptor, the forwarding facades, `src/util.rs`, and the data-only module roots.
- The Android characteristic and descriptor callbacks (`onCharacteristicRead` and the like) are left out. They follow the same excluder pattern as `onReadRemoteRssi`, which is modelled.
- `GattTree` takes its service identifier as a type parameter, and a service tree as an opaque value built from a listing. The Java object graph behind a tree is not part of this model.
- `max_write_len`, `name`, the CoreBluetooth and BlueZ notification drop guards and `open_l2cap_channel` on each backend are left out. They are a single native call each, with no decision in them.
- CoreBluetooth `is_notifying` is left out because it reads a native flag.
- The Windows `pair_with_agent` race between the agent's answer and the pairing operation's completion is not modelled. The model takes the handler's answer as given, and cancels on an agent error.
- WinDevice.PairWithAgent: a custom-pairing failure after a partial answer from the handler is not distinguished from other failures.
- WinAdapter.ReadU16 and WinAdapter.ReadU32 take the `DataReader` byte order as a parameter, because the native reader's setting decides it.
- WinCharacteristic.PropertiesOf assumes the WinRT `GattCharacteristicProperties` bits match the Bluetooth Core Specification's property bits. It drops the others.
- WinTypes.GetMany takes the position as an unbounded `nat`. The source's `AtomicUsize` cannot wrap in practice.
- WinVer.VersionAbove takes the version triple, or its absence, as an input. Obtaining it is an OS call.
- Uuids.FromBluetoothBytes requires a length of 2, 4 or 16. Both UUID files decode through it, and both panic on any other length; a panic is not modelled.
- CbAdapter.DiscoverDevices requires at least one service UUID, because src/corebluetooth/adapter.rs:146-150 asserts it and a panic is not modelled.
- WinDevice.HashKey requires the device identifier to be present, because the source's `Hash` (src/windows/device.rs:33-35) unwraps it and a panic is not modelled.
- BluerDevice.DiscoverServicesWithUuid ignores its UUID and returns every service, as src/bluer/device.rs:88-90 does.
- WinAdapter.SolicitedServices and WinAdapter.ServiceData assume every native getter of a data section succeeds. In the source a `?` failure in `DataType`, `Data`, the reader or `ReadBytes` drops that advertisement's whole list of solicited UUIDs or its whole service-data map (src/windows/adapter.rs:121-172).
- WinAdapter.ScanFilter takes the advertisements whose address was read. The scan stream also drops an advertisement whose address or address type cannot be read, and one whose device cannot be created (src/windows/adapter.rs:258-305); those native failures are not modelled.
- CbAdapter.ConnectDevice and CbAdapter.DisconnectDevice give `None` when the event stream ends undecided. The source reaches `unreachable!()` there, and a panic is not modelled. DisconnectDevice uses the corrected loop (see Findings).
- CbTypes.DecodePeripheralState requires a state code in 0..3. The source panics on any other code.
- AndroidDevice.Pair takes the bond-event stream as a finite sequence. A stream that has ended is the end of the sequence.
- BluerDevice.SearchServices takes BlueZ's service and characteristic listings in the order given. BlueZ's own order is not modelled.
- BlueZ D-Bus property reads are inputs, each an `Ok` value or an error.
- The advertisement `ServiceData` map is a table of distinct keys with insertion order preserved. UUID-keyed Dafny maps are not used.
- BluerCharacteristic.SameCharacteristic, Descriptors and DiscoverDescriptors carry no contract: equality compares four identifiers, and both listings return what BlueZ gives unchanged, so nothing can be stated beyond the definitions.
- WinCharacteristic.StopWrite does not model the status of the guard's write: the source only logs a failure, on a spawned task.

## Findings

| source | as written | input that shows it | evidently intended | confidence | as-written member | corrected member |
|---|---|---|---|---|---|---|
| src/corebluetooth/adapter.rs:310 | `disconnect_device` ends its wait with `AdapterUnavailable` on any state change whose state is not `PoweredOff` | a `StateChanged(PoweredOn)` event before the `Disconnect` event aborts a healthy disconnection, and a `StateChanged(PoweredOff)` event is ignored, so the loop keeps waiting on a powered-off adapter | test `!= PoweredOn`, as `connect_device` (line 269) and the scan stream do | not executed | CbAdapter.DisconnectDecideAsWritten | CbAdapter.DisconnectDecide |

=== FILE: ad_data.dfy ===
/**
  * The platform-independent advertisement record of `src/lib.rs`
  * (`AdvertisementData`, `ManufacturerData`, `AdapterEvent`) that every
  * backend converts its native advertisement into.
  */
module AdData {
  import opened Wrappers
  import opened Ints
  import Uuids

  /** Manufacturer specific data: a company identifier and the raw payload. */
  datatype ManufacturerData = ManufacturerData(companyId: bv16, data: seq<bv8>)

  /**
    * Service data, the `HashMap<Uuid, Vec<u8>>` of the record, as a table
    * of (UUID, payload) entries; a well-formed table has distinct keys.
    */
  type ServiceData = seq<(Uuids.Uuid, seq<bv8>)>

  predicate DistinctKeys(d: ServiceData) {
    forall i, j :: 0 <= i < j < |d| ==> d[i].0 != d[j].0
  }

  /** The payload stored under `u`: the last entry with that key wins. */
  function Lookup(d: ServiceData, u: Uuids.Uuid): (r: Option<seq<bv8>>)
    ensures r.Some? <==> exists i :: 0 <= i < |d| && d[i].0 == u
    ensures r.Some? ==> exists i :: 0 <= i < |d| && d[i] == (u, r.value)
    decreases |d|
  {
    if d == [] then None
    else if d[|d| - 1].0 == u then Some(d[|d| - 1].1)
    else
      var r := Lookup(d[..|d| - 1], u);
      assert forall i :: 0 <= i < |d| - 1 ==> d[..|d| - 1][i] == d[i];
      r
  }

  /** Looking up a key finds its last entry. */
  lemma {:induction false} LookupLast(d: ServiceData, u: Uuids.Uuid, i: nat)
    requires i < |d| && d[i].0 == u && forall j :: i < j < |d| ==> d[j].0 != u
    ensures Lookup(d, u) == Some(d[i].1)
    decreases |d|
  {
    var n := |d| - 1;
    if i < n {
      var init := d[..n];
      assert init[i] == d[i];
      assert forall j :: i < j < n ==> init[j] == d[j];
      LookupLast(init, u, i);
    }
  }

  /** `HashMap::insert`: `u` now maps to `v`, every other key is untouched. */
  function Insert(d: ServiceData, u: Uuids.Uuid, v: seq<bv8>): (r: ServiceData)
    ensures DistinctKeys(d) ==> DistinctKeys(r)
    ensures Lookup(r, u) == Some(v)
    ensures forall k :: k != u ==> Lookup(r, k) == Lookup(d, k)
  {
    InsertKeeps(d, u, v);
    Without(d, u) + [(u, v)]
  }

  /** Appending `u`'s entry after removing `u` keeps the keys distinct and every other key's payload. */
  lemma InsertKeeps(d: ServiceData, u: Uuids.Uuid, v: seq<bv8>)
    ensures DistinctKeys(d) ==> DistinctKeys(Without(d, u) + [(u, v)])
    ensures forall k :: k != u ==> Lookup(Without(d, u) + [(u, v)], k) == Lookup(d, k)
  {
    var kept := Without(d, u);
    if DistinctKeys(d) {
      WithoutDistinct(d, u);
    }
    forall k | k != u
      ensures Lookup(kept + [(u, v)], k) == Lookup(d, k)
    {
      assert (kept + [(u, v)])[..|kept|] == kept;
      WithoutLookup(d, u, k);
    }
  }

  /** The table without key `u`, in the same order. */
  function Without(d: ServiceData, u: Uuids.Uuid): (r: ServiceData)
    ensures forall i :: 0 <= i < |r| ==> r[i].0 != u && r[i] in d
    decreases |d|
  {
    if d == [] then []
    else
      var init := d[..|d| - 1];
      var rest := Without(init, u);
      assert forall x :: x in init ==> x in d;
      if d[|d| - 1].0 == u then rest else rest + [d[|d| - 1]]
  }

  /** Removing a key keeps every other key's payload. */
  lemma {:induction false} WithoutLookup(d: ServiceData, u: Uuids.Uuid, k: Uuids.Uuid)
    requires k != u
    ensures Lookup(Without(d, u), k) == Lookup(d, k)
    decreases |d|
  {
    if d != [] {
      var init := d[..|d| - 1];
      var rest := Without(init, u);
      WithoutLookup(init, u, k);
      if d[|d| - 1].0 != u {
        assert (rest + [d[|d| - 1]])[..|rest|] == rest;
      }
    }
  }

  /** Removing a key keeps the keys distinct. */
  lemma {:induction false} WithoutDistinct(d: ServiceData, u: Uuids.Uuid)
    requires DistinctKeys(d)
    ensures DistinctKeys(Without(d, u))
    decreases |d|
  {
    if d != [] {
      var init := d[..|d| - 1];
      var last := d[|d| - 1];
      assert DistinctKeys(init) by {
        assert forall i :: 0 <= i < |init| ==> init[i] == d[i];
      }
      WithoutDistinct(init, u);
      var rest := Without(init, u);
      if last.0 != u {
        forall i | 0 <= i < |rest|
          ensures rest[i].0 != last.0
        {
          var j :| 0 <= j < |init| && init[j] == rest[i];
          assert d[j] == rest[i];
        }
      }
    }
  }

  /** Collecting entries into a map, in order: a later entry for a key replaces an earlier one. */
  function Collect(entries: ServiceData): (r: ServiceData)
    ensures DistinctKeys(r)
    ensures forall u :: Lookup(r, u) == Lookup(entries, u)
    decreases |entries|
  {
    if entries == [] then []
    else
      var init := entries[..|entries| - 1];
      var last := entries[|entries| - 1];
      var r := Insert(Collect(init), last.0, last.1);
      assert forall u :: u != last.0 ==> Lookup(entries, u) == Lookup(init, u);
      r
  }

  datatype AdvertisementData = AdvertisementData(
    localName: Option<string>,
    manufacturerData: Option<ManufacturerData>,
    services: seq<Uuids.Uuid>,
    serviceData: ServiceData,
    txPowerLevel: Option<I16>,
    isConnectable: bool)

  /** Whether the adapter became usable or unusable. */
  datatype AdapterEvent = Available | Unavailable

  /** A device's connection state change. */
  datatype ConnectionEvent = Disconnected | Connected
}

=== FILE: android_device.dfy ===
/**
  * `src/android/device.rs`: the bond-state machine of `pair`, the service
  * accessors over the connection's service tree, the RSSI result, the
  * operations Android does not support, and `was_invalidated`. Java calls
  * are inputs: their answers or the errors they raise.
  */
module AndroidDevice {
  import opened Wrappers
  import opened Ints
  import opened Kinds
  import GattTree
  import EventReceiver
  import Streams

  /** `BluetoothDevice.BOND_NONE`, `BOND_BONDING` and `BOND_BONDED`. */
  const BondNone: I32 := 10
  const BondBonding: I32 := 11
  const BondBonded: I32 := 12

  /**
    * `get_connection`: the connection cached in the device while it lives,
    * otherwise the registry's live connection for the device (caching is
    * left to the caller), otherwise `NotConnected`.
    */
  function GetConnection<S(==)>(reg: GattTree.Registry<S>, id: GattTree.DeviceId, cached: Option<GattTree.Connection<S>>)
    : (r: (GattTree.Registry<S>, Result<GattTree.Connection<S>, Kind>))
    ensures cached.Some? ==> r == (reg, Ok(cached.value))
    ensures cached.None? ==> r.0 == GattTree.Find(reg, id).0
    ensures cached.None? && r.1.Ok? ==> id in reg && r.1.value == reg[id]
    ensures cached.None? ==> (r.1.Err? <==> !GattTree.IsLive(reg, id)) && (r.1.Err? ==> r.1.error == NotConnected)
  {
    match cached
    case Some(c) => (reg, Ok(c))
    case None =>
      var (reg', found) := GattTree.Find(reg, id);
      match found
      case Some(c) => (reg', Ok(c))
      case None => (reg', Err(NotConnected))
  }

  /** How a bond event for this device ends the wait of `pair`. */
  datatype BondOutcome = Bonded | Refused | Unbonded

  /** The verdict on one event: only this device's bond-state changes count. */
  function BondStep(id: GattTree.DeviceId): EventReceiver.GlobalEvent -> Option<BondOutcome> {
    (e: EventReceiver.GlobalEvent) =>
      if !e.BondStateChanged? || e.id != id then None
      else if e.state == BondBonded then Some(Bonded)
      else if e.state == BondNone && e.previous == BondBonding then Some(Refused)
      else if e.state == BondNone && e.previous == BondBonded then Some(Unbonded)
      else None
  }

  /**
    * `pair`. After the connection check and the subscription to global
    * events, the device's bond state decides: bonded is done at once,
    * bonding only waits, anything else first calls `createBond` (whose
    * error, including its `false` answer, is returned). Then the events
    * decide; a stream that ends undecided gives `NotConnected`. Returns the
    * registry, the result, and whether `createBond` was called.
    */
  function Pair<S(==)>(reg: GattTree.Registry<S>, id: GattTree.DeviceId, cached: Option<GattTree.Connection<S>>,
                       subscribe: Result<(), Kind>, bondState: Result<I32, Kind>, createBond: Result<(), Kind>,
                       events: seq<EventReceiver.GlobalEvent>)
    : (r: (GattTree.Registry<S>, Result<(), Kind>, bool))
    ensures GetConnection(reg, id, cached).1.Err? ==> r.1 == Err(GetConnection(reg, id, cached).1.error) && !r.2
    ensures GetConnection(reg, id, cached).1.Ok? && subscribe.Err? ==> r.1 == Err(subscribe.error) && !r.2
    ensures GetConnection(reg, id, cached).1.Ok? && subscribe.Ok? && bondState.Err? ==> r.1 == Err(bondState.error) && !r.2
    ensures r.2 <==> GetConnection(reg, id, cached).1.Ok? && subscribe.Ok? && bondState.Ok?
                     && bondState.value != BondBonded && bondState.value != BondBonding
    ensures r.2 && createBond.Err? ==> r.1 == Err(createBond.error)
    ensures r.1.Ok? ==> bondState == Ok(BondBonded) || Streams.FirstSome(events, BondStep(id)) == Some(Bonded)
  {
    var (reg1, conn) := GetConnection(reg, id, cached);
    if conn.Err? then (reg1, Err(conn.error), false)
    else if subscribe.Err? then (reg1, Err(subscribe.error), false)
    else if bondState.Err? then (reg1, Err(bondState.error), false)
    else if bondState.value == BondBonded then (reg1, Ok(()), false)
    else if bondState.value != BondBonding && createBond.Err? then (reg1, Err(createBond.error), true)
    else
      var called := bondState.value != BondBonding;
      var outcome: Option<BondOutcome> := Streams.FirstSome(events, BondStep(id));
      match outcome
      case None => (reg1, Err(NotConnected), called)
      case Some(Bonded) => (reg1, Ok(()), called)
      case Some(Refused) => (reg1, Err(NotAuthorized), called)
      case Some(Unbonded) => (GattTree.Deregister(reg1, id).0, Err(NotConnected), called)
  }

  /** Whether `pair` gets to wait for events: connected, subscribed, and bonding or asked to bond. */
  predicate Waits<S>(cached: Option<GattTree.Connection<S>>, reg: GattTree.Registry<S>, id: GattTree.DeviceId,
                     subscribe: Result<(), Kind>, bondState: Result<I32, Kind>, createBond: Result<(), Kind>)
  {
    (cached.Some? || GattTree.IsLive(reg, id)) && subscribe.Ok? && bondState.Ok? && bondState.value != BondBonded
    && (bondState.value == BondBonding || createBond.Ok?)
  }

  /** A bonded device pairs at once, without `createBond` and whatever the events. */
  lemma PairWhenBonded<S>(reg: GattTree.Registry<S>, id: GattTree.DeviceId, cached: Option<GattTree.Connection<S>>,
                          createBond: Result<(), Kind>, events: seq<EventReceiver.GlobalEvent>)
    requires cached.Some? || GattTree.IsLive(reg, id)
    ensures var r := Pair(reg, id, cached, Ok(()), Ok(BondBonded), createBond, events); r.1 == Ok(()) && !r.2
  {
  }

  /** `createBond` is called exactly when the device is neither bonded nor bonding. */
  lemma PairCallsCreateBond<S>(reg: GattTree.Registry<S>, id: GattTree.DeviceId, cached: Option<GattTree.Connection<S>>,
                               state: I32, createBond: Result<(), Kind>, events: seq<EventReceiver.GlobalEvent>)
    requires cached.Some? || GattTree.IsLive(reg, id)
    ensures Pair(reg, id, cached, Ok(()), Ok(state), createBond, events).2 <==> state != BondBonded && state != BondBonding
  {
  }

  /**
    * Once waiting, the first bond event of this device that decides gives
    * the result: bonded is success, unbonded after bonding is
    * `NotAuthorized`, unbonded after bonded removes the connection and is
    * `NotConnected`. Events before it are ignored.
    */
  lemma PairDecidedBy<S>(reg: GattTree.Registry<S>, id: GattTree.DeviceId, cached: Option<GattTree.Connection<S>>,
                         bondState: Result<I32, Kind>, createBond: Result<(), Kind>,
                         events: seq<EventReceiver.GlobalEvent>, i: nat)
    requires Waits(cached, reg, id, Ok(()), bondState, createBond)
    requires i < |events| && BondStep(id)(events[i]).Some?
    requires forall j :: 0 <= j < i ==> BondStep(id)(events[j]).None?
    ensures var r := Pair(reg, id, cached, Ok(()), bondState, createBond, events);
            && (events[i].state == BondBonded ==> r.1 == Ok(()))
            && (events[i].state == BondNone && events[i].previous == BondBonding ==> r.1 == Err(NotAuthorized))
            && (events[i].state == BondNone && events[i].previous == BondBonded ==>
                  r.1 == Err(NotConnected) && id !in r.0)
  {
    Streams.FirstSomeAt(events, BondStep(id), i);
  }

  /** When no event decides, the ended stream gives `NotConnected` and the registry keeps the connection. */
  lemma PairUndecided<S>(reg: GattTree.Registry<S>, id: GattTree.DeviceId, cached: Option<GattTree.Connection<S>>,
                         bondState: Result<I32, Kind>, createBond: Result<(), Kind>, events: seq<EventReceiver.GlobalEvent>)
    requires Waits(cached, reg, id, Ok(()), bondState, createBond)
    requires forall j :: 0 <= j < |events| ==> BondStep(id)(events[j]).None?
    ensures var r := Pair(reg, id, cached, Ok(()), bondState, createBond, events);
            r.1 == Err(NotConnected) && r.0 == GetConnection(reg, id, cached).0
  {
  }

  /** `is_paired`: whether the bond state is bonded; a failing Java call is `Internal`. */
  function IsPaired(bondState: Result<I32, Kind>): (r: Result<bool, Kind>)
    ensures r.Ok? <==> bondState.Ok?
    ensures r.Ok? ==> (r.value <==> bondState.value == BondBonded)
    ensures r.Err? ==> r.error == Internal
  {
    match bondState
    case Ok(s) => Ok(s == BondBonded)
    case Err(_) => Err(Internal)
  }

  /** `services`: the identifiers of the connection's services. */
  function Services<S(==)>(reg: GattTree.Registry<S>, id: GattTree.DeviceId, cached: Option<GattTree.Connection<S>>)
    : (r: Result<set<S>, Kind>)
    ensures r.Err? <==> cached.None? && !GattTree.IsLive(reg, id)
    ensures r.Err? ==> r.error == NotConnected
    ensures r.Ok? && cached.None? ==> r.value == reg[id].services.Keys
    ensures r.Ok? && cached.Some? ==> r.value == cached.value.services.Keys
  {
    match GetConnection(reg, id, cached).1
    case Err(e) => Err(e)
    case Ok(c) => Ok(c.services.Keys)
  }

  /**
    * `discover_services`: the connection check, the `discoverServices`
    * call, then the ATT result the services-discovered callback hands over
    * (`None` when the wait ends without one, which the connection check
    * `lost` turns into an error), then `services` on the refreshed tree.
    */
  function DiscoverServices<S(==)>(conn: Result<GattTree.Connection<S>, Kind>, call: Result<(), Kind>,
                                   outcome: Option<Result<(), U8>>, lost: Kind, refreshed: map<S, GattTree.Tree>)
    : (r: Result<set<S>, Kind>)
    ensures r.Ok? <==> conn.Ok? && call.Ok? && outcome.Some? && outcome.value.Ok?
    ensures r.Ok? ==> r.value == refreshed.Keys
    ensures conn.Ok? && call.Ok? && outcome.Some? && outcome.value.Err? ==> r == Err(Protocol(outcome.value.error))
  {
    if conn.Err? then Err(conn.error)
    else if call.Err? then Err(call.error)
    else match outcome
      case None => Err(lost)
      case Some(Err(att)) => Err(Protocol(att))
      case Some(Ok(_)) => Ok(refreshed.Keys)
  }

  /** `discover_services_with_uuid`: the discovered services with the given identifier; errors unchanged. */
  function DiscoverServicesWithUuid<S(==,!new)>(discovered: Result<set<S>, Kind>, uuid: S): (r: Result<set<S>, Kind>)
    ensures r.Err? <==> discovered.Err?
    ensures r.Err? ==> r == discovered
    ensures r.Ok? ==> forall s :: s in r.value <==> s in discovered.value && s == uuid
  {
    match discovered
    case Err(e) => Err(e)
    case Ok(services) => Ok(set s | s in services && s == uuid)
  }

  /** `rssi as i16`: the low 16 bits of the callback's `i32`, as a two's-complement value. */
  function TruncateI16(x: I32): (r: I16)
    ensures (r - x) % 0x1_0000 == 0
  {
    var low := x % 0x1_0000;
    if low >= 0x8000 then low - 0x1_0000 else low
  }

  /** A value that fits 16 bits survives the cast. */
  lemma TruncateKeepsI16(x: I32)
    requires -0x8000 <= x < 0x8000
    ensures TruncateI16(x) == x
  {
  }

  /** `onReadRemoteRssi`'s result: the ATT status check, then the truncated RSSI. */
  function RssiResult(status: I32, rssi: I32): (r: Result<I16, U8>)
    ensures r.Ok? <==> status == GattTree.Success
    ensures r.Ok? ==> r.value == TruncateI16(rssi)
    ensures r.Err? ==> r.error == GattTree.GattErrorCheck(status).error
  {
    match GattTree.GattErrorCheck(status)
    case Ok(_) => Ok(TruncateI16(rssi))
    case Err(e) => Err(e)
  }

  /** `rssi`: like `discover_services`, ending with the callback's result. */
  function Rssi<S>(conn: Result<GattTree.Connection<S>, Kind>, call: Result<(), Kind>,
                   outcome: Option<Result<I16, U8>>, lost: Kind): (r: Result<I16, Kind>)
    ensures r.Ok? <==> conn.Ok? && call.Ok? && outcome.Some? && outcome.value.Ok?
    ensures r.Ok? ==> r.value == outcome.value.value
    ensures conn.Ok? && call.Ok? && outcome.Some? && outcome.value.Err? ==> r == Err(Protocol(outcome.value.error))
  {
    if conn.Err? then Err(conn.error)
    else if call.Err? then Err(call.error)
    else match outcome
      case None => Err(lost)
      case Some(Err(att)) => Err(Protocol(att))
      case Some(Ok(v)) => Ok(v)
  }

  /** `pair_with_agent` and `unpair` are not supported. */
  function PairWithAgent(): (r: Result<(), Kind>)
    ensures r == Err(NotSupported)
  {
    Err(NotSupported)
  }

  function Unpair(): (r: Result<(), Kind>)
    ensures r == Err(NotSupported)
  {
    Err(NotSupported)
  }

  /** The API level that introduced `BluetoothGattCallback.onServiceChanged`. */
  const ServiceChangedApiLevel: int := 31

  /**
    * `service_changed_indications`: not supported below API level 31;
    * otherwise the connection check, then a subscription to the
    * connection's services-changed notifier (whose start hook cannot fail).
    */
  function ServiceChangedIndications<S>(apiLevel: int, conn: Result<GattTree.Connection<S>, Kind>): (r: Result<(), Kind>)
    ensures apiLevel < ServiceChangedApiLevel ==> r == Err(NotSupported)
    ensures apiLevel >= ServiceChangedApiLevel ==> (r.Ok? <==> conn.Ok?)
    ensures apiLevel >= ServiceChangedApiLevel && conn.Err? ==> r == Err(conn.error)
  {
    if apiLevel < ServiceChangedApiLevel then Err(NotSupported)
    else match conn
      case Err(e) => Err(e)
      case Ok(_) => Ok(())
  }

  /**
    * `was_invalidated`: the service is no longer found in the tree (the
    * lookup may drop a dead connection from the registry).
    */
  function WasInvalidated<S(==)>(reg: GattTree.Registry<S>, id: GattTree.DeviceId, service: S): (r: (GattTree.Registry<S>, bool))
    ensures r.1 <==> !(GattTree.IsLive(reg, id) && service in reg[id].services)
    ensures r.0 == GattTree.Find(reg, id).0
  {
    var (reg', tree) := GattTree.FindService(reg, id, service);
    (reg', tree.None?)
  }

  /**
    * A discovery that drops a service invalidates it, and one that keeps a
    * service keeps it valid.
    */
  lemma RefreshInvalidates<S>(reg: GattTree.Registry<S>, p: GattTree.Proxy, status: I32,
                              listed: seq<GattTree.Listed<S>>, service: S)
    requires GattTree.Valid(reg) && GattTree.IsLive(reg, p.id)
    requires GattTree.RefreshServices(reg[p.id].services, listed).1.Ok?
    ensures WasInvalidated(GattTree.OnServicesDiscovered(reg, p, status, listed).0, p.id, service).1
            <==> service !in GattTree.ListedIds(listed)
  {
  }
}

=== FILE: async_util.dfy ===
/**
  * `src/android/async_util.rs`: the two synchronisation helpers the Android
  * backend builds its callbacks on, as sequential state machines.
  *
  * An `Excluder` lets one task at a time issue an operation whose result
  * arrives in a Java callback: the callback stores the result and releases
  * the lock. A `Notifier` fans a callback's values out to every current
  * subscriber, starting the native source on the first subscription and
  * stopping it when the last subscriber goes away.
  */
module AsyncUtil {
  import opened Wrappers

  /** The excluder: whether a lock is held, and the value the last callback stored. */
  datatype Excluder<T> = Excluder(locked: bool, lastValue: Option<T>)

  /** `Excluder::new`: unlocked, nothing stored. */
  function NewExcluder<T>(): (e: Excluder<T>)
    ensures !e.locked && e.lastValue.None?
  {
    Excluder(false, None)
  }

  /** `try_lock`: takes the lock when it is free; reports whether it did. */
  function TryLock<T>(e: Excluder<T>): (r: (Excluder<T>, bool))
  {
    if e.locked then (e, false) else (e.(locked := true), true)
  }

  /** `lock`, once it has stopped waiting: the lock is held. */
  function Lock<T>(e: Excluder<T>): Excluder<T> {
    e.(locked := true)
  }

  /** `unlock`: the callback's value is stored whether or not a lock is held, and any lock is released. */
  function Unlock<T>(e: Excluder<T>, v: T): Excluder<T> {
    Excluder(false, Some(v))
  }

  /** Dropping an `ExcluderLock` releases the lock and leaves the stored value alone. */
  function DropLock<T>(e: Excluder<T>): Excluder<T> {
    e.(locked := false)
  }

  /** Dropping the `Excluder` forgets the stored value and wakes any waiter. */
  function DropExcluder<T>(e: Excluder<T>): Excluder<T> {
    Excluder(false, None)
  }

  /** What `wait_unlock` returns once woken: the stored value, `None` if the excluder was dropped. */
  function WaitUnlock<T>(e: Excluder<T>): Option<T> {
    e.lastValue
  }

  /**
    * `try_lock` succeeds exactly when no lock is held, and a lock is held
    * afterwards either way; the stored value is untouched.
    */
  lemma TryLockExcludes<T>(e: Excluder<T>)
    ensures TryLock(e).1 <==> !e.locked
    ensures TryLock(e).0.locked
    ensures TryLock(e).0.lastValue == e.lastValue
    ensures !TryLock(TryLock(e).0).1
  {
  }

  /**
    * A lock's life: whoever holds it is woken with the value the callback
    * stored, the lock is free again, and a dropped lock frees it too.
    */
  lemma UnlockHandsOver<T>(e: Excluder<T>, v: T)
    ensures WaitUnlock(Unlock(Lock(e), v)) == Some(v)
    ensures TryLock(Unlock(Lock(e), v)).1
    ensures TryLock(DropLock(Lock(e))).1
    ensures Unlock(e, v).lastValue == Some(v)
  {
  }

  /** A waiter woken by the excluder's drop gets `None`, whatever was stored. */
  lemma DroppedWaiterGetsNothing<T>(e: Excluder<T>)
    ensures WaitUnlock(DropExcluder(e)).None?
    ensures !DropExcluder(e).locked
  {
  }

  /** How the wait for the callback ends: the callback's `unlock`, or the excluder's drop. */
  datatype Signal<T> = Callback(value: T) | Dropped

  /**
    * `obtain`: lock, run the operation that triggers the callback, wait.
    * The operation's error is returned at once; otherwise the callback's
    * result is returned, `None` when the excluder went away first.
    */
  function Obtain<T, E>(e: Excluder<Result<T, E>>, operation: Result<(), E>, signal: Signal<Result<T, E>>)
    : (r: (Excluder<Result<T, E>>, Result<Option<T>, E>))
    ensures !r.0.locked
    ensures operation.Err? ==> r.1 == Err(operation.error) && r.0.lastValue == e.lastValue
    ensures operation.Ok? && signal.Dropped? ==> r.1 == Ok(None)
    ensures operation.Ok? && signal.Callback? ==>
              r.1 == (match signal.value case Ok(v) => Ok(Some(v)) case Err(x) => Err(x))
  {
    var held := Lock(e);
    match operation
    case Err(x) => (DropLock(held), Err(x))
    case Ok(_) =>
      var after: Excluder<Result<T, E>> := match signal case Callback(v) => Unlock(held, v) case Dropped => DropExcluder(held);
      var stored: Option<Result<T, E>> := WaitUnlock(after);
      var result: Result<Option<T>, E> :=
        if stored.None? then Ok(None)
        else if stored.value.Ok? then Ok(Some(stored.value.value))
        else Err(stored.value.error);
      (DropLock(after), result)
  }

  /** The capacity of a notifier's broadcast queue; the channel refuses zero. */
  type Capacity = n: nat | n > 0 witness 1

  /**
    * One receiver's view: its queue (`None` marks the end the notifier's
    * drop broadcasts) and whether it still holds the shared sender.
    */
  datatype Receiver<T> = Receiver(queue: seq<Option<T>>, holding: bool)

  /** The notifier and every receiver ever handed out, by index. */
  datatype Notifier<T> = Notifier(capacity: Capacity, receivers: seq<Receiver<T>>)

  /** `Notifier::new`: inactive, no receivers. */
  function NewNotifier<T>(capacity: Capacity): (n: Notifier<T>)
    ensures !Active(n) && Bounded(n)
  {
    Notifier(capacity, [])
  }

  /** Active while some receiver still holds the shared sender. */
  predicate Active<T>(n: Notifier<T>) {
    exists i :: 0 <= i < |n.receivers| && n.receivers[i].holding
  }

  /** No receiver's queue is longer than the capacity. */
  predicate Bounded<T>(n: Notifier<T>) {
    forall i :: 0 <= i < |n.receivers| ==> |n.receivers[i].queue| <= n.capacity
  }

  /** A broadcast into a full queue with overflow enabled drops the oldest item. */
  function Push<T>(q: seq<Option<T>>, x: Option<T>, capacity: Capacity): (r: seq<Option<T>>)
    requires |q| <= capacity
    ensures 0 < |r| <= capacity && r[|r| - 1] == x
    ensures |q| < capacity ==> r == q + [x]
    ensures |q| == capacity ==> r == q[1..] + [x]
  {
    if |q| < capacity then q + [x] else q[1..] + [x]
  }

  /** Sends `x` to every receiver that still holds the sender. */
  function Broadcast<T>(n: Notifier<T>, x: Option<T>): (r: Notifier<T>)
    requires Bounded(n)
    ensures Bounded(r) && r.capacity == n.capacity && |r.receivers| == |n.receivers|
    ensures forall i :: 0 <= i < |n.receivers| ==>
              r.receivers[i].holding == n.receivers[i].holding
              && (n.receivers[i].holding ==> r.receivers[i].queue == Push(n.receivers[i].queue, x, n.capacity))
              && (!n.receivers[i].holding ==> r.receivers[i] == n.receivers[i])
  {
    var rs := seq(|n.receivers|, i requires 0 <= i < |n.receivers| =>
                var rc := n.receivers[i];
                if rc.holding then rc.(queue := Push(rc.queue, x, n.capacity)) else rc);
    Notifier(n.capacity, rs)
  }

  /**
    * `subscribe`: while active, a new receiver joins without `on_start`;
    * otherwise `on_start` runs, and only when it succeeds is the notifier
    * active with the new receiver. Returns the receiver's index and whether
    * `on_start` ran.
    */
  function Subscribe<T, E>(n: Notifier<T>, onStart: Result<(), E>): (r: (Notifier<T>, Result<nat, E>, bool))
    requires Bounded(n)
    ensures Bounded(r.0)
    ensures r.2 <==> !Active(n)
    ensures r.1.Err? <==> !Active(n) && onStart.Err?
    ensures r.1.Err? ==> r.0 == n && r.1.error == onStart.error && !Active(r.0)
    ensures r.1.Ok? ==> Active(r.0) && r.1.value == |n.receivers| && r.0.receivers == n.receivers + [Receiver([], true)]
  {
    var joined := Notifier(n.capacity, n.receivers + [Receiver([], true)]);
    assert joined.receivers[|n.receivers|].holding;
    if Active(n) then (joined, Ok(|n.receivers|), false)
    else match onStart
      case Err(x) => (n, Err(x), true)
      case Ok(_) => (joined, Ok(|n.receivers|), true)
  }

  /** `notify`: broadcast to the receivers while active; nothing at all while inactive. */
  function Notify<T>(n: Notifier<T>, v: T): (r: Notifier<T>)
    requires Bounded(n)
    ensures Bounded(r)
    ensures !Active(n) ==> r == n
    ensures Active(n) ==> r == Broadcast(n, Some(v))
  {
    if Active(n) then Broadcast(n, Some(v)) else n
  }

  /** Dropping the `Notifier` broadcasts the end marker. */
  function DropNotifier<T>(n: Notifier<T>): (r: Notifier<T>)
    requires Bounded(n)
    ensures Bounded(r)
  {
    Broadcast(n, None)
  }

  /**
    * A receiver gives up the shared sender (it is dropped, or its stream
    * ended). Returns whether `on_stop` ran: when that was the last holder.
    */
  function Release<T>(n: Notifier<T>, i: nat): (r: (Notifier<T>, bool))
    requires i < |n.receivers|
    ensures Bounded(n) ==> Bounded(r.0)
    ensures r.0.capacity == n.capacity && |r.0.receivers| == |n.receivers| && !r.0.receivers[i].holding
    ensures forall j :: 0 <= j < |n.receivers| && j != i ==> r.0.receivers[j] == n.receivers[j]
    ensures r.1 <==> Active(n) && !Active(r.0)
  {
    var rs := n.receivers[i := n.receivers[i].(holding := false)];
    var r' := Notifier(n.capacity, rs);
    assert forall j :: 0 <= j < |rs| && j != i ==> rs[j] == n.receivers[j];
    (r', Active(n) && !Active(r'))
  }

  /** `on_stop` runs exactly when the receiver given up was the only one still holding the sender. */
  lemma ReleaseStopsOnLast<T>(n: Notifier<T>, i: nat)
    requires i < |n.receivers|
    ensures Release(n, i).1 <==> n.receivers[i].holding
                                 && forall j :: 0 <= j < |n.receivers| && j != i ==> !n.receivers[j].holding
  {
    var r := Release(n, i).0;
    if n.receivers[i].holding && forall j :: 0 <= j < |n.receivers| && j != i ==> !n.receivers[j].holding {
      assert !Active(r);
    }
  }

  /** What polling a receiver's stream gives. */
  datatype Poll<T> = Item(value: T) | Ended | Pending

  /**
    * `poll_next`: a receiver that gave up the sender has ended; otherwise
    * the oldest queued item, and the end marker ends the stream and gives
    * up the sender (which may stop the notifier). Returns whether `on_stop` ran.
    */
  function Next<T>(n: Notifier<T>, i: nat): (r: (Notifier<T>, Poll<T>, bool))
    requires i < |n.receivers|
    ensures Bounded(n) ==> Bounded(r.0)
    ensures r.0.capacity == n.capacity && |r.0.receivers| == |n.receivers|
    ensures !n.receivers[i].holding ==> r == (n, Ended, false)
    ensures n.receivers[i].holding && n.receivers[i].queue == [] ==> r == (n, Pending, false)
    ensures r.1.Item? ==> n.receivers[i].queue[0] == Some(r.1.value) && r.0.receivers[i].queue == n.receivers[i].queue[1..]
  {
    var rc := n.receivers[i];
    if !rc.holding then (n, Ended, false)
    else if rc.queue == [] then (n, Pending, false)
    else
      var popped := Notifier(n.capacity, n.receivers[i := rc.(queue := rc.queue[1..])]);
      match rc.queue[0]
      case Some(v) => (popped, Item(v), false)
      case None =>
        var (released, stopped) := Release(popped, i);
        (released, Ended, stopped)
  }

  /** A notified value reaches every holding receiver, at the back of its queue, and no other. */
  lemma NotifyReachesHolders<T>(n: Notifier<T>, v: T, i: nat)
    requires Bounded(n) && i < |n.receivers|
    ensures n.receivers[i].holding ==> Notify(n, v).receivers[i].queue == Push(n.receivers[i].queue, Some(v), n.capacity)
    ensures !n.receivers[i].holding ==> Notify(n, v).receivers[i] == n.receivers[i]
  {
  }

  /**
    * After the notifier's drop, every receiver still holding the sender has
    * the end marker last in its queue, so reading it to the end ends its stream.
    */
  lemma DropEndsStreams<T>(n: Notifier<T>, i: nat)
    requires Bounded(n) && i < |n.receivers| && n.receivers[i].holding
    ensures var q := DropNotifier(n).receivers[i].queue; |q| > 0 && q[|q| - 1] == None
  {
  }

  /** Reading the end marker ends the stream for good and gives up the sender. */
  lemma EndMarkerEnds<T>(n: Notifier<T>, i: nat)
    requires Bounded(n) && i < |n.receivers| && n.receivers[i].holding
    requires n.receivers[i].queue != [] && n.receivers[i].queue[0] == None
    ensures Next(n, i).1 == Ended
    ensures !Next(n, i).0.receivers[i].holding
    ensures Next(Next(n, i).0, i).1 == Ended
  {
  }

  /** A new subscriber of an active notifier only sees values notified after it joined. */
  lemma SubscriberSeesLaterValues<T, E>(n: Notifier<T>, onStart: Result<(), E>, v: T)
    requires Bounded(n) && Active(n)
    ensures var (joined, r, _) := Subscribe(n, onStart);
            r.Ok? && r.value < |Notify(joined, v).receivers| && Notify(joined, v).receivers[r.value].queue == [Some(v)]
  {
    var (joined, r, _) := Subscribe(n, onStart);
    assert joined.receivers[r.value].holding;
  }
}

=== FILE: bluer_characteristic.dfy ===
/**
  * `src/bluer/characteristic.rs`: the conversion of BlueZ characteristic
  * flags into `CharacteristicProperties`, equality, the write operations
  * and descriptor discovery. BlueZ calls are inputs.
  */
module BluerCharacteristic {
  import opened Wrappers
  import opened Kinds
  import Properties

  /** `bluer::gatt::CharacteristicFlags`, the ten property flags this library reads. */
  datatype CharacteristicFlags = CharacteristicFlags(
    broadcast: bool,
    read: bool,
    writeWithoutResponse: bool,
    write: bool,
    notify: bool,
    indicate: bool,
    authenticatedSignedWrites: bool,
    extendedProperties: bool,
    reliableWrite: bool,
    writableAuxiliaries: bool)

  /** `From<CharacteristicFlags>`. */
  function FromFlags(f: CharacteristicFlags): (p: Properties.CharacteristicProperties)
  {
    Properties.CharacteristicProperties(
      f.broadcast, f.read, f.writeWithoutResponse, f.write, f.notify, f.indicate,
      f.authenticatedSignedWrites, f.extendedProperties, f.reliableWrite, f.writableAuxiliaries)
  }

  /** Flag number `k` of the BlueZ flags, in declaration order. */
  function FlagOf(f: CharacteristicFlags, k: nat): bool
    requires k < 10
  {
    match k
    case 0 => f.broadcast
    case 1 => f.read
    case 2 => f.writeWithoutResponse
    case 3 => f.write
    case 4 => f.notify
    case 5 => f.indicate
    case 6 => f.authenticatedSignedWrites
    case 7 => f.extendedProperties
    case 8 => f.reliableWrite
    case _ => f.writableAuxiliaries
  }

  /** Every flag is carried over to the property of the same name, and distinct flag sets give distinct properties. */
  lemma FromFlagsCopiesEach(f: CharacteristicFlags, g: CharacteristicFlags, k: nat)
    requires k < 10
    ensures Properties.Flag(FromFlags(f), k) == FlagOf(f, k)
    ensures FromFlags(f) == FromFlags(g) ==> f == g
  {
  }

  /** Bit `k` of the packed properties is BlueZ flag `k`. */
  lemma FromFlagsPacksEach(f: CharacteristicFlags, k: nat)
    requires k < 10
    ensures Properties.Bit(Properties.ToBits(FromFlags(f)), k) <==> FlagOf(f, k)
  {
    FromFlagsCopiesEach(f, f, k);
    Properties.FlagIsBit(FromFlags(f), 0, k);
  }

  /** A characteristic's identity: adapter name, device address, service id and characteristic id. */
  datatype Characteristic = Characteristic(adapterName: string, deviceAddress: seq<bv8>, serviceId: nat, id: nat)

  /** `PartialEq` compares the four identifying fields. */
  predicate SameCharacteristic(a: Characteristic, b: Characteristic) {
    a.adapterName == b.adapterName && a.deviceAddress == b.deviceAddress && a.serviceId == b.serviceId && a.id == b.id
  }

  /** `WriteOp`: with a response (`Request`) or without one (`Command`). */
  datatype WriteOp = Request | Command

  /** What a write sends, and the error its caller sees, if any. */
  datatype Written = Written(value: seq<bv8>, op: WriteOp, reported: Option<Kind>)

  /** `write`: a write request; the BlueZ result is returned. */
  function Write(value: seq<bv8>, outcome: Result<(), Kind>): (w: Written)
    ensures w.value == value && w.op == Request
    ensures w.reported.Some? <==> outcome.Err?
    ensures w.reported.Some? ==> w.reported.value == outcome.error
  {
    Written(value, Request, if outcome.Err? then Some(outcome.error) else None)
  }

  /** `write_without_response`: a write command; any BlueZ error is discarded. */
  function WriteWithoutResponse(value: seq<bv8>, outcome: Result<(), Kind>): (w: Written)
    ensures w.value == value && w.op == Command
  {
    Written(value, Command, None)
  }

  /** The two writes send the same value, differ in the operation, and only `write` reports errors. */
  lemma WritesDiffer(value: seq<bv8>, outcome: Result<(), Kind>)
    ensures Write(value, outcome).value == WriteWithoutResponse(value, outcome).value
    ensures Write(value, outcome).op != WriteWithoutResponse(value, outcome).op
    ensures WriteWithoutResponse(value, outcome).reported.None?
    ensures outcome.Err? ==> Write(value, outcome).reported.Some?
  {
  }

  /** `descriptors`: the descriptors BlueZ lists for the characteristic. */
  function Descriptors<D>(listed: Result<seq<D>, Kind>): (r: Result<seq<D>, Kind>)
  {
    listed
  }

  /** `discover_descriptors`: the same as `descriptors`. */
  function DiscoverDescriptors<D>(listed: Result<seq<D>, Kind>): (r: Result<seq<D>, Kind>)
  {
    Descriptors(listed)
  }
}

=== FILE: bluer_device.dfy ===
/**
  * `src/bluer/device.rs`: device equality, the advertisement data
  * assembled from the device's BlueZ properties, the search for the GATT
  * Service Changed characteristic, and the RSSI and service accessors.
  * Each BlueZ property read is an input: its value or its error.
  */
module BluerDevice {
  import opened Wrappers
  import opened Ints
  import opened Kinds
  import Uuids
  import BtUuid
  import AdData
  import Streams

  /** A device: the name of its adapter and its address. */
  datatype Device = Device(adapterName: string, address: seq<bv8>)

  /** `PartialEq`: same adapter and same address. */
  predicate SameDevice(a: Device, b: Device) {
    a.adapterName == b.adapterName && a.address == b.address
  }

  /** `Hash` hashes the adapter name, then the address. */
  function HashKey(d: Device): (string, seq<bv8>) {
    (d.adapterName, d.address)
  }

  /** Equality is an equivalence and agrees with the hashed fields both ways. */
  lemma EqualityAgreesWithHash(a: Device, b: Device, c: Device)
    ensures SameDevice(a, a)
    ensures SameDevice(a, b) ==> SameDevice(b, a)
    ensures SameDevice(a, b) && SameDevice(b, c) ==> SameDevice(a, c)
    ensures SameDevice(a, b) <==> HashKey(a) == HashKey(b)
  {
  }

  /** The BlueZ properties `adv_data` reads, each as the property call returned it. */
  datatype Properties = Properties(
    alias: Result<string, Kind>,
    manufacturerData: Result<Option<seq<(bv16, seq<bv8>)>>, Kind>,
    txPower: Result<Option<I16>, Kind>,
    serviceData: Result<Option<AdData.ServiceData>, Kind>,
    uuids: Result<Option<seq<Uuids.Uuid>>, Kind>)

  /** `unwrap_or_default` on a property holding an optional list. */
  function ListOrEmpty<T>(r: Result<Option<seq<T>>, Kind>): (s: seq<T>)
    ensures s == [] <==> r.Err? || r.value.None? || r.value.value == []
    ensures s != [] ==> r == Ok(Some(s))
  {
    match r
    case Ok(Some(s)) => s
    case _ => []
  }

  /**
    * `adv_data`: a failing read counts as absent; an empty alias is no
    * name; only the first manufacturer entry is kept; the device is always
    * reported connectable.
    */
  function AdvData(p: Properties): (r: AdData.AdvertisementData)
    ensures r.isConnectable
    ensures r.localName.None? <==> p.alias.Err? || p.alias.value == ""
    ensures r.localName.Some? ==> r.localName.value == p.alias.value
    ensures r.manufacturerData.Some? <==> ListOrEmpty(p.manufacturerData) != []
    ensures r.manufacturerData.Some? ==>
              var (id, data) := ListOrEmpty(p.manufacturerData)[0]; r.manufacturerData.value == AdData.ManufacturerData(id, data)
    ensures r.services == ListOrEmpty(p.uuids)
    ensures r.serviceData == ListOrEmpty(p.serviceData)
    ensures r.txPowerLevel == (if p.txPower.Ok? then p.txPower.value else None)
  {
    var name := if p.alias.Ok? then p.alias.value else "";
    var entries := ListOrEmpty(p.manufacturerData);
    AdData.AdvertisementData(
      if name == "" then None else Some(name),
      if entries == [] then None else Some(AdData.ManufacturerData(entries[0].0, entries[0].1)),
      ListOrEmpty(p.uuids),
      ListOrEmpty(p.serviceData),
      if p.txPower.Ok? then p.txPower.value else None,
      true)
  }

  /** A characteristic as `services_changed` reads it: its UUID, and the first item of its notification stream (`None` if the stream ended). */
  datatype RemoteCharacteristic = RemoteCharacteristic(uuid: Result<Uuids.Uuid, Kind>, notify: Result<Option<Result<seq<bv8>, Kind>>, Kind>)

  /** A service: its UUID and its characteristics. */
  datatype RemoteService = RemoteService(uuid: Result<Uuids.Uuid, Kind>, characteristics: Result<seq<RemoteCharacteristic>, Kind>)

  /**
    * What waiting on the Service Changed notifications gives: a failed
    * `notify()` or an error item is that error, the first value is `Ok`,
    * and a stream that ends is `Internal`.
    */
  function FirstNotification(notify: Result<Option<Result<seq<bv8>, Kind>>, Kind>): (r: Result<(), Kind>)
    ensures r.Ok? <==> notify.Ok? && notify.value.Some? && notify.value.value.Ok?
    ensures notify.Err? ==> r == Err(notify.error)
    ensures notify.Ok? && notify.value.Some? && notify.value.value.Err? ==> r == Err(notify.value.value.error)
    ensures notify == Ok(None) ==> r == Err(Internal)
  {
    match notify
    case Err(e) => Err(e)
    case Ok(None) => Err(Internal)
    case Ok(Some(Err(e))) => Err(e)
    case Ok(Some(Ok(_))) => Ok(())
  }

  /**
    * What one characteristic decides in the inner loop: a failed UUID read
    * is its error, a Service Changed characteristic its first notification,
    * and any other characteristic nothing.
    */
  function CharacteristicVerdict(c: RemoteCharacteristic): Option<Result<(), Kind>> {
    match c.uuid
    case Err(e) => Some(Err(e))
    case Ok(u) => if u == BtUuid.ServiceChanged then Some(FirstNotification(c.notify)) else None
  }

  /**
    * What one service decides in the outer loop: a failed UUID read is its
    * error; a Generic Attribute service decides by its characteristic list
    * (a failed listing is its error); any other service decides nothing.
    */
  function ServiceVerdict(s: RemoteService): Option<Result<(), Kind>> {
    match s.uuid
    case Err(e) => Some(Err(e))
    case Ok(u) =>
      if u != BtUuid.GenericAttribute then None
      else match s.characteristics
        case Err(e) => Some(Err(e))
        case Ok(cs) => SearchCharacteristics(cs)
  }

  /** The inner loop: the first characteristic with a verdict decides; `None` when there is none. */
  function SearchCharacteristics(cs: seq<RemoteCharacteristic>): (r: Option<Result<(), Kind>>)
    ensures r == Streams.FirstSome(cs, CharacteristicVerdict)
    ensures r.Some? && r.value.Ok? ==>
              exists j :: 0 <= j < |cs| && cs[j].uuid == Ok(BtUuid.ServiceChanged) && FirstNotification(cs[j].notify).Ok?
    decreases |cs|
  {
    if cs == [] then None
    else match cs[0].uuid
      case Err(e) => Some(Err(e))
      case Ok(u) =>
        if u == BtUuid.ServiceChanged then Some(FirstNotification(cs[0].notify))
        else
          var r := SearchCharacteristics(cs[1..]);
          assert forall j :: 0 <= j < |cs[1..]| ==> cs[1..][j] == cs[j + 1];
          r
  }

  /** The outer loop: the first service with a verdict decides; `None` when there is none. */
  function SearchServices(ss: seq<RemoteService>): (r: Option<Result<(), Kind>>)
    ensures r == Streams.FirstSome(ss, ServiceVerdict)
    ensures r.Some? && r.value.Ok? ==>
              exists i :: 0 <= i < |ss| && ss[i].uuid == Ok(BtUuid.GenericAttribute) && ss[i].characteristics.Ok?
                          && SearchCharacteristics(ss[i].characteristics.value) == r
    decreases |ss|
  {
    if ss == [] then None
    else match ss[0].uuid
      case Err(e) => Some(Err(e))
      case Ok(u) =>
        if u != BtUuid.GenericAttribute then SearchAfter(ss)
        else match ss[0].characteristics
          case Err(e) => Some(Err(e))
          case Ok(cs) =>
            var found := SearchCharacteristics(cs);
            if found.Some? then found else SearchAfter(ss)
  }

  /** `SearchServices` on all but the first service. */
  function SearchAfter(ss: seq<RemoteService>): (r: Option<Result<(), Kind>>)
    requires ss != []
    ensures r == SearchServices(ss[1..])
    ensures r.Some? && r.value.Ok? ==>
              exists i :: 0 <= i < |ss| && ss[i].uuid == Ok(BtUuid.GenericAttribute) && ss[i].characteristics.Ok?
                          && SearchCharacteristics(ss[i].characteristics.value) == r
    decreases |ss|, 0
  {
    var r := SearchServices(ss[1..]);
    assert forall i :: 0 <= i < |ss[1..]| ==> ss[1..][i] == ss[i + 1];
    r
  }

  /**
    * `services_changed`: the first Service Changed characteristic of a
    * Generic Attribute service decides through its first notification;
    * without one the result is `NotFound`. Reading a UUID or a list can
    * fail on the way, and that error is returned.
    */
  function ServicesChanged(services: Result<seq<RemoteService>, Kind>): (r: Result<(), Kind>)
    ensures services.Err? ==> r == Err(services.error)
    ensures services.Ok? ==>
              r == match Streams.FirstSome(services.value, ServiceVerdict)
                   case None => Err(NotFound)
                   case Some(v) => v
    ensures r.Ok? ==> services.Ok? && SearchServices(services.value).Some?
  {
    match services
    case Err(e) => Err(e)
    case Ok(ss) =>
      match SearchServices(ss)
      case None => Err(NotFound)
      case Some(r) => r
  }

  /** Whether every UUID and characteristic list of the services reads without error. */
  predicate Readable(ss: seq<RemoteService>) {
    forall i :: 0 <= i < |ss| ==>
      ss[i].uuid.Ok? && ss[i].characteristics.Ok?
      && forall j :: 0 <= j < |ss[i].characteristics.value| ==> ss[i].characteristics.value[j].uuid.Ok?
  }

  /** Whether some Generic Attribute service has a Service Changed characteristic. */
  predicate HasServiceChanged(ss: seq<RemoteService>) {
    exists i, j :: 0 <= i < |ss| && ss[i].uuid == Ok(BtUuid.GenericAttribute) && ss[i].characteristics.Ok?
                   && 0 <= j < |ss[i].characteristics.value| && ss[i].characteristics.value[j].uuid == Ok(BtUuid.ServiceChanged)
  }

  /** With everything readable, the search finds something exactly when the characteristic exists. */
  lemma {:induction false} SearchFindsServiceChanged(ss: seq<RemoteService>)
    requires Readable(ss)
    ensures SearchServices(ss).Some? <==> HasServiceChanged(ss)
    decreases |ss|
  {
    if ss != [] {
      assert Readable(ss[1..]) by {
        forall i | 0 <= i < |ss[1..]| ensures ss[1..][i] == ss[i + 1] { }
      }
      SearchFindsServiceChanged(ss[1..]);
      var cs := ss[0].characteristics.value;
      SearchCharacteristicsFinds(cs);
      if HasServiceChanged(ss[1..]) {
        var i, j :| 0 <= i < |ss[1..]| && ss[1..][i].uuid == Ok(BtUuid.GenericAttribute) && ss[1..][i].characteristics.Ok?
                    && 0 <= j < |ss[1..][i].characteristics.value| && ss[1..][i].characteristics.value[j].uuid == Ok(BtUuid.ServiceChanged);
        assert ss[i + 1] == ss[1..][i];
      }
      if HasServiceChanged(ss) {
        var i, j :| 0 <= i < |ss| && ss[i].uuid == Ok(BtUuid.GenericAttribute) && ss[i].characteristics.Ok?
                    && 0 <= j < |ss[i].characteristics.value| && ss[i].characteristics.value[j].uuid == Ok(BtUuid.ServiceChanged);
        if i > 0 {
          assert ss[1..][i - 1] == ss[i];
          assert HasServiceChanged(ss[1..]);
        }
      }
    }
  }

  /** With readable UUIDs, the inner search finds something exactly when the characteristic is there. */
  lemma {:induction false} SearchCharacteristicsFinds(cs: seq<RemoteCharacteristic>)
    requires forall j :: 0 <= j < |cs| ==> cs[j].uuid.Ok?
    ensures SearchCharacteristics(cs).Some? <==> exists j :: 0 <= j < |cs| && cs[j].uuid == Ok(BtUuid.ServiceChanged)
    decreases |cs|
  {
    if cs != [] {
      SearchCharacteristicsFinds(cs[1..]);
      assert forall j :: 0 <= j < |cs[1..]| ==> cs[1..][j] == cs[j + 1];
      if exists j :: 0 <= j < |cs| && cs[j].uuid == Ok(BtUuid.ServiceChanged) {
        var j :| 0 <= j < |cs| && cs[j].uuid == Ok(BtUuid.ServiceChanged);
        if j > 0 && cs[0].uuid != Ok(BtUuid.ServiceChanged) {
          assert cs[1..][j - 1] == cs[j];
        }
      }
    }
  }

  /** Without a Service Changed characteristic in a Generic Attribute service, the answer is `NotFound`. */
  lemma NotFoundWithoutCharacteristic(ss: seq<RemoteService>)
    requires Readable(ss) && !HasServiceChanged(ss)
    ensures ServicesChanged(Ok(ss)) == Err(NotFound)
  {
    SearchFindsServiceChanged(ss);
  }

  /** Whether service `s` is a Generic Attribute service with a Service Changed characteristic. */
  predicate OffersServiceChanged(s: RemoteService) {
    s.uuid == Ok(BtUuid.GenericAttribute) && s.characteristics.Ok?
    && exists j :: 0 <= j < |s.characteristics.value| && s.characteristics.value[j].uuid == Ok(BtUuid.ServiceChanged)
  }

  /**
    * With everything readable, the answer is the first notification of the
    * first Service Changed characteristic (`j`) of the first Generic
    * Attribute service that has one (`i`).
    */
  lemma ServicesChangedDecidedBy(ss: seq<RemoteService>, i: nat, j: nat)
    requires Readable(ss)
    requires i < |ss| && OffersServiceChanged(ss[i]) && forall k :: 0 <= k < i ==> !OffersServiceChanged(ss[k])
    requires j < |ss[i].characteristics.value| && ss[i].characteristics.value[j].uuid == Ok(BtUuid.ServiceChanged)
    requires forall k :: 0 <= k < j ==> ss[i].characteristics.value[k].uuid != Ok(BtUuid.ServiceChanged)
    ensures ServicesChanged(Ok(ss)) == FirstNotification(ss[i].characteristics.value[j].notify)
  {
    var cs := ss[i].characteristics.value;
    Streams.FirstSomeAt(cs, CharacteristicVerdict, j);
    forall k | 0 <= k < i ensures ServiceVerdict(ss[k]).None? {
      SkippedService(ss[k]);
    }
    Streams.FirstSomeAt(ss, ServiceVerdict, i);
  }

  /** A readable service without the characteristic decides nothing. */
  lemma SkippedService(s: RemoteService)
    requires s.uuid.Ok? && s.characteristics.Ok?
    requires forall j :: 0 <= j < |s.characteristics.value| ==> s.characteristics.value[j].uuid.Ok?
    requires !OffersServiceChanged(s)
    ensures ServiceVerdict(s).None?
  {
    if s.uuid.value == BtUuid.GenericAttribute {
      var cs := s.characteristics.value;
      assert forall j :: 0 <= j < |cs| ==> CharacteristicVerdict(cs[j]).None?;
    }
  }

  /** `rssi`: the RSSI when BlueZ knows one, `NotFound` when it does not. */
  function Rssi(rssi: Result<Option<I16>, Kind>): (r: Result<I16, Kind>)
    ensures r.Ok? <==> rssi.Ok? && rssi.value.Some?
    ensures r.Ok? ==> r.value == rssi.value.value
    ensures rssi == Ok(None) ==> r == Err(NotFound)
    ensures rssi.Err? ==> r == Err(rssi.error)
  {
    match rssi
    case Err(e) => Err(e)
    case Ok(None) => Err(NotFound)
    case Ok(Some(v)) => Ok(v)
  }

  /** `discover_services` and `discover_services_with_uuid`: both return `services`, the UUID is not used. */
  function DiscoverServicesWithUuid<S>(services: Result<seq<S>, Kind>, uuid: Uuids.Uuid): (r: Result<seq<S>, Kind>)
  {
    services
  }
}

=== FILE: bluer_error.dfy ===
/** `src/bluer/error.rs`: how BlueZ (`bluer`) and I/O errors become the library's error kinds. */
module BluerErrorMap {
  import opened Kinds

  /** `bluer::ErrorKind`, with the kinds this library does not name folded into `OtherBluer`. */
  datatype BluerKind =
    | ConnectionAttemptFailed
    | Failed
    | InvalidArguments
    | InvalidLength
    | BluerNotAuthorized
    | BluerNotReady
    | BluerNotSupported
    | NotPermitted
    | InvalidOffset
    | InvalidAddress(address: string)
    | InvalidName(name: string)
    | ServicesUnresolved
    | BluerNotFound
    | OtherBluer(name: string)

  /** `kind_from_bluer`. */
  function KindFromBluer(k: BluerKind): Kind {
    match k
    case ConnectionAttemptFailed => ConnectionFailed
    case Failed => Other
    case InvalidArguments => InvalidParameter
    case InvalidLength => InvalidParameter
    case BluerNotAuthorized => NotAuthorized
    case BluerNotReady => NotReady
    case BluerNotSupported => NotSupported
    case NotPermitted => NotAuthorized
    case InvalidOffset => InvalidParameter
    case InvalidAddress(_) => InvalidParameter
    case InvalidName(_) => InvalidParameter
    case ServicesUnresolved => NotReady
    case BluerNotFound => NotFound
    case OtherBluer(_) => Other
  }

  /** Which BlueZ kinds end up as which kind, in both directions. */
  lemma BluerClasses(k: BluerKind)
    ensures KindFromBluer(k) == InvalidParameter
      <==> k.InvalidArguments? || k.InvalidLength? || k.InvalidOffset? || k.InvalidAddress? || k.InvalidName?
    ensures KindFromBluer(k) == NotAuthorized <==> k.BluerNotAuthorized? || k.NotPermitted?
    ensures KindFromBluer(k) == NotReady <==> k.BluerNotReady? || k.ServicesUnresolved?
    ensures KindFromBluer(k) == Other <==> k.Failed? || k.OtherBluer?
    ensures KindFromBluer(k) == ConnectionFailed <==> k.ConnectionAttemptFailed?
    ensures KindFromBluer(k) in {InvalidParameter, NotAuthorized, NotReady, Other, ConnectionFailed, NotSupported, NotFound}
  {
  }

  /** `std::io::ErrorKind`, with the kinds this library does not name folded into `OtherIo`. */
  datatype IoKind =
    | IoNotFound
    | PermissionDenied
    | ConnectionRefused
    | ConnectionReset
    | HostUnreachable
    | NetworkUnreachable
    | ConnectionAborted
    | IoNotConnected
    | AddrNotAvailable
    | NetworkDown
    | ResourceBusy
    | TimedOut
    | Unsupported
    | IoOther
    | OtherIo(name: string)

  /** `kind_from_io`. */
  function KindFromIo(k: IoKind): Kind {
    match k
    case IoNotFound => NotFound
    case PermissionDenied => NotAuthorized
    case ConnectionRefused | ConnectionReset | HostUnreachable | NetworkUnreachable | ConnectionAborted => ConnectionFailed
    case IoNotConnected => NotConnected
    case AddrNotAvailable | NetworkDown | ResourceBusy => AdapterUnavailable
    case TimedOut => Timeout
    case Unsupported => NotSupported
    case IoOther => Other
    case OtherIo(_) => Internal
  }

  /** Which I/O kinds end up as which kind, in both directions. */
  lemma IoClasses(k: IoKind)
    ensures KindFromIo(k) == ConnectionFailed
      <==> k.ConnectionRefused? || k.ConnectionReset? || k.HostUnreachable? || k.NetworkUnreachable? || k.ConnectionAborted?
    ensures KindFromIo(k) == AdapterUnavailable <==> k.AddrNotAvailable? || k.NetworkDown? || k.ResourceBusy?
    ensures KindFromIo(k) == Timeout <==> k.TimedOut?
    ensures KindFromIo(k) == Other <==> k.IoOther?
    ensures KindFromIo(k) == Internal <==> k.OtherIo?
  {
  }
}

=== FILE: btuuid.dfy ===
/**
  * `src/btuuid.rs`: the `BluetoothUuidExt` implementation the library uses,
  * and its tables of assigned 16-bit numbers. Here the 32-bit predicate only
  * looks at the Base UUID part, so every 16-bit UUID is also a 32-bit one.
  */
module BtUuid {
  import opened Wrappers
  import opened Uuids

  /** `is_u16_uuid`: on the Base UUID with the top 16 bits clear. */
  predicate IsU16(u: Uuid) {
    OnBase(u) && High32(u) & 0xFFFF_0000 == 0
  }

  /** `is_u32_uuid`: on the Base UUID, whatever the top 32 bits are. */
  predicate IsU32(u: Uuid) {
    OnBase(u)
  }

  /** `try_to_u16`: the top bits truncated to 16 bits, when `IsU16` holds. */
  function TryToU16(u: Uuid): (r: Option<bv16>)
    ensures r.Some? <==> IsU16(u)
    ensures r.Some? ==> FromU16(r.value) == u
  {
    if IsU16(u) then OnBaseDeterminedByHigh(u); Some(((u >> 96) & 0xFFFF) as bv16) else None
  }

  /** `try_to_u32`: the top 32 bits, when `IsU32` holds. */
  function TryToU32(u: Uuid): (r: Option<bv32>)
    ensures r.Some? <==> IsU32(u)
    ensures r.Some? ==> FromU32(r.value) == u
  {
    if IsU32(u) then OnBaseDeterminedByHigh(u); Some((u >> 96) as bv32) else None
  }

  /**
    * `as_bluetooth_bytes`: octets 2..4 of a 16-bit UUID, octets 0..4 of a
    * 32-bit one, all sixteen octets otherwise.
    */
  function AsBluetoothBytes(u: Uuid): (r: seq<bv8>)
    ensures |r| == 2 <==> IsU16(u)
    ensures |r| == 4 <==> IsU32(u) && !IsU16(u)
    ensures |r| == 16 <==> !IsU32(u)
    ensures IsWireLength(|r|)
  {
    if IsU16(u) then Bytes(u)[2..4]
    else if IsU32(u) then Bytes(u)[0..4]
    else Bytes(u)
  }

  /** Every 16-bit number comes back from its UUID. */
  lemma U16RoundTrip(x: bv16)
    ensures IsU16(FromU16(x))
    ensures TryToU16(FromU16(x)) == Some(x)
  {
  }

  /** Every 32-bit number comes back from its UUID, the small ones included. */
  lemma U32RoundTrip(x: bv32)
    ensures IsU32(FromU32(x))
    ensures TryToU32(FromU32(x)) == Some(x)
  {
  }

  /** A 16-bit UUID is also a 32-bit one, and both narrowings agree on it. */
  lemma U16IsU32(u: Uuid)
    ensures IsU16(u) ==> IsU32(u)
    ensures TryToU16(u).Some? ==> TryToU32(u) == Some(TryToU16(u).value as bv32)
  {
  }

  /** The wire form decodes back to the UUID it came from. */
  lemma WireRoundTrip(u: Uuid)
    ensures FromBluetoothBytes(AsBluetoothBytes(u)) == u
  {
    var r := AsBluetoothBytes(u);
    HighOctets(u);
    if IsU16(u) {
      OnBaseDeterminedByHigh(u);
    } else if IsU32(u) {
      OnBaseDeterminedByHigh(u);
    } else {
      BytesThenFromBytes(u);
    }
  }

  /** Assigned numbers of GATT services, `btuuid::services`. */
  const ServiceCodes: seq<bv16> := [
    0x1800, 0x1801, 0x1802, 0x1803, 0x1804, 0x1805, 0x1806, 0x1807,
    0x1808, 0x1809, 0x180A, 0x180D, 0x180E, 0x180F, 0x1810, 0x1811,
    0x1812, 0x1813, 0x1814, 0x1815, 0x1816, 0x1818, 0x1819, 0x181A,
    0x181B, 0x181C, 0x181D, 0x181E, 0x181F, 0x1820, 0x1821, 0x1822,
    0x1823, 0x1824, 0x1825, 0x1826, 0x1827, 0x1828, 0x1829, 0x183A,
    0x183B, 0x183C, 0x183E, 0x1843, 0x1844, 0x1845, 0x1846, 0x1847,
    0x1848, 0x1849, 0x184A, 0x184B, 0x184C, 0x184D, 0x184E, 0x184F,
    0x1850, 0x1851, 0x1852, 0x1853, 0x1854, 0x1855, 0x1856
  ]

  /** Assigned numbers of GATT characteristics, `btuuid::characteristics`. */
  const CharacteristicCodes: seq<bv16> := [
    0x2A00, 0x2A01, 0x2A02, 0x2A03, 0x2A04, 0x2A05, 0x2A06, 0x2A07,
    0x2A08, 0x2A09, 0x2A0A, 0x2A0C, 0x2A0D, 0x2A0E, 0x2A0F, 0x2A11,
    0x2A12, 0x2A13, 0x2A14, 0x2A16, 0x2A17, 0x2A18, 0x2A19, 0x2A1C,
    0x2A1D, 0x2A1E, 0x2A21, 0x2A22, 0x2A23, 0x2A24, 0x2A25, 0x2A26,
    0x2A27, 0x2A28, 0x2A29, 0x2A2A, 0x2A2B, 0x2A31, 0x2A32, 0x2A33,
    0x2A34, 0x2A35, 0x2A36, 0x2A37, 0x2A38, 0x2A39, 0x2A3F, 0x2A40,
    0x2A41, 0x2A42, 0x2A43, 0x2A44, 0x2A45, 0x2A46, 0x2A47, 0x2A48,
    0x2A49, 0x2A4A, 0x2A4B, 0x2A4C, 0x2A4D, 0x2A4E, 0x2A4F, 0x2A50,
    0x2A51, 0x2A52, 0x2A53, 0x2A54, 0x2A55, 0x2A5A, 0x2A5B, 0x2A5C,
    0x2A5D, 0x2A5E, 0x2A5F, 0x2A60, 0x2A63, 0x2A64, 0x2A65, 0x2A66,
    0x2A67, 0x2A68, 0x2A69, 0x2A6A, 0x2A6B, 0x2A6C, 0x2A6D, 0x2A6E,
    0x2A6F, 0x2A70, 0x2A71, 0x2A72, 0x2A73, 0x2A74, 0x2A75, 0x2A76,
    0x2A77, 0x2A78, 0x2A79, 0x2A7A, 0x2A7B, 0x2A7D, 0x2A7E, 0x2A7F,
    0x2A80, 0x2A81, 0x2A82, 0x2A83, 0x2A84, 0x2A85, 0x2A86, 0x2A87,
    0x2A88, 0x2A89, 0x2A8A, 0x2A8B, 0x2A8C, 0x2A8D, 0x2A8E, 0x2A8F,
    0x2A90, 0x2A91, 0x2A92, 0x2A93, 0x2A94, 0x2A95, 0x2A96, 0x2A97,
    0x2A98, 0x2A99, 0x2A9A, 0x2A9B, 0x2A9C, 0x2A9D, 0x2A9E, 0x2A9F,
    0x2AA0, 0x2AA1, 0x2AA2, 0x2AA3, 0x2AA4, 0x2AA5, 0x2AA6, 0x2AA7,
    0x2AA8, 0x2AA9, 0x2AAA, 0x2AAB, 0x2AAC, 0x2AAD, 0x2AAE, 0x2AAF,
    0x2AB0, 0x2AB1, 0x2AB2, 0x2AB3, 0x2AB4, 0x2AB5, 0x2AB6, 0x2AB7,
    0x2AB8, 0x2AB9, 0x2ABA, 0x2ABB, 0x2ABC, 0x2ABD, 0x2ABE, 0x2ABF,
    0x2AC0, 0x2AC1, 0x2AC2, 0x2AC3, 0x2AC4, 0x2AC5, 0x2AC6, 0x2AC7,
    0x2AC8, 0x2AC9, 0x2ACA, 0x2ACB, 0x2ACC, 0x2ACD, 0x2ACE, 0x2ACF,
    0x2AD0, 0x2AD1, 0x2AD2, 0x2AD3, 0x2AD4, 0x2AD5, 0x2AD6, 0x2AD7,
    0x2AD8, 0x2AD9, 0x2ADA, 0x2ADB, 0x2ADC, 0x2ADD, 0x2ADE, 0x2AE0,
    0x2AE1, 0x2AE2, 0x2AE3, 0x2AE4, 0x2AE5, 0x2AE6, 0x2AE7, 0x2AE8,
    0x2AE9, 0x2AEA, 0x2AEB, 0x2AEC, 0x2AED, 0x2AEE, 0x2AEF, 0x2AF0,
    0x2AF1, 0x2AF2, 0x2AF3, 0x2AF4, 0x2AF5, 0x2AF6, 0x2AF7, 0x2AF8,
    0x2AF9, 0x2AFA, 0x2AFB, 0x2AFC, 0x2AFD, 0x2AFE, 0x2AFF, 0x2B00,
    0x2B01, 0x2B02, 0x2B03, 0x2B04, 0x2B05, 0x2B06, 0x2B07, 0x2B08,
    0x2B09, 0x2B0A, 0x2B0B, 0x2B0C, 0x2B0D, 0x2B0E, 0x2B0F, 0x2B10,
    0x2B11, 0x2B12, 0x2B13, 0x2B14, 0x2B15, 0x2B16, 0x2B17, 0x2B18,
    0x2B19, 0x2B1A, 0x2B1B, 0x2B1C, 0x2B1D, 0x2B1E, 0x2B1F, 0x2B20,
    0x2B21, 0x2B22, 0x2B23, 0x2B24, 0x2B25, 0x2B26, 0x2B27, 0x2B28,
    0x2B29, 0x2B2A, 0x2B2B, 0x2B2C, 0x2B2D, 0x2B2E, 0x2B34, 0x2B35,
    0x2B36, 0x2B38, 0x2B39, 0x2B3A, 0x2B3B, 0x2B3C, 0x2B3D, 0x2B3E,
    0x2B3F, 0x2B40, 0x2B41, 0x2B42, 0x2B43, 0x2B44, 0x2B45, 0x2B46,
    0x2B47, 0x2B48, 0x2B49, 0x2B4A, 0x2B4B, 0x2B4C, 0x2B4D, 0x2B4E,
    0x2B4F, 0x2B50, 0x2B51, 0x2B77, 0x2B78, 0x2B79, 0x2B7A, 0x2B7B,
    0x2B7C, 0x2B7D, 0x2B7E, 0x2B7F, 0x2B80, 0x2B81, 0x2B82, 0x2B83,
    0x2B84, 0x2B85, 0x2B86, 0x2B87, 0x2B8E, 0x2B8F, 0x2B90, 0x2B91,
    0x2B92, 0x2B93, 0x2B94, 0x2B95, 0x2B96, 0x2B97, 0x2B98, 0x2B99,
    0x2B9A, 0x2B9B, 0x2B9C, 0x2B9D, 0x2B9E, 0x2B9F, 0x2BA0, 0x2BA1,
    0x2BA2, 0x2BA3, 0x2BA4, 0x2BA5, 0x2BA6, 0x2BA7, 0x2BA9, 0x2BAA,
    0x2BAB, 0x2BAC, 0x2BAD, 0x2BAE, 0x2BAF, 0x2BB0, 0x2BB1, 0x2BB2,
    0x2BB3, 0x2BB4, 0x2BB5, 0x2BB6, 0x2BB7, 0x2BB8, 0x2BB9, 0x2BBA,
    0x2BBB, 0x2BBC, 0x2BBD, 0x2BBE, 0x2BBF, 0x2BC0, 0x2BC1, 0x2BC2,
    0x2BC3, 0x2BC4, 0x2BC5, 0x2BC6, 0x2BC7, 0x2BC8, 0x2BC9, 0x2BCA,
    0x2BCB, 0x2BCC, 0x2BCD, 0x2BCE, 0x2BCF, 0x2BD0, 0x2BD1, 0x2BD2,
    0x2BD3, 0x2BD4, 0x2BD5, 0x2BD6, 0x2BD7, 0x2BD8, 0x2BD9, 0x2BDA,
    0x2BDB, 0x2BDC
  ]

  /** Assigned numbers of GATT descriptors, `btuuid::descriptors`. */
  const DescriptorCodes: seq<bv16> := [
    0x2900, 0x2901, 0x2902, 0x2903, 0x2904, 0x2905, 0x2906, 0x2907,
    0x2908, 0x2909, 0x290A, 0x290B, 0x290C, 0x290D, 0x290E, 0x290F
  ]

  /** `services::GENERIC_ATTRIBUTE`. */
  const GenericAttribute: Uuid := FromU16(0x1801)

  /** `characteristics::SERVICE_CHANGED`. */
  const ServiceChanged: Uuid := FromU16(0x2A05)

  /** `descriptors::CLIENT_CHARACTERISTIC_CONFIGURATION`. */
  const ClientCharacteristicConfiguration: Uuid := FromU16(0x2902)

  /** `descriptors::L2CAPPSM_CHARACTERISTIC`, the one table entry not built on the Base UUID. */
  const L2capPsmCharacteristic: Uuid := 0xABDD3056_28FA_441D_A470_55A75A52553A

  /** The UUIDs a table of assigned numbers stands for. */
  function TableUuids(codes: seq<bv16>): (r: seq<Uuid>)
    ensures |r| == |codes|
    ensures forall i :: 0 <= i < |codes| ==> TryToU16(r[i]) == Some(codes[i])
  {
    if codes == [] then []
    else U16RoundTrip(codes[0]); [FromU16(codes[0])] + TableUuids(codes[1..])
  }

  /** `btuuid::services`, `btuuid::characteristics` and `btuuid::descriptors` as UUIDs. */
  const Services: seq<Uuid> := TableUuids(ServiceCodes)
  const Characteristics: seq<Uuid> := TableUuids(CharacteristicCodes)
  const Descriptors: seq<Uuid> := TableUuids(DescriptorCodes)

  /** The L2CAP PSM characteristic is neither a 16-bit nor a 32-bit UUID, so it travels as 16 octets. */
  lemma L2capPsmIsLong()
    ensures !IsU16(L2capPsmCharacteristic) && !IsU32(L2capPsmCharacteristic)
    ensures |AsBluetoothBytes(L2capPsmCharacteristic)| == 16
  {
  }
}

=== FILE: cb_ad.dfy ===
/**
  * `src/corebluetooth/ad.rs`: converting CoreBluetooth's advertisement
  * dictionary into the library's `AdvertisementData`.
  */
module CbAd {
  import opened Wrappers
  import opened Ints
  import Uuids
  import CbTypes
  import AdData

  /** A `CBUUID`, by its data: 2, 4 or 16 octets. */
  type CbUuid = d: seq<bv8> | Uuids.IsWireLength(|d|) witness [0, 0]

  /** The native advertisement; `serviceData` lists the native dictionary's entries in iteration order. */
  datatype NativeAdvertisement = NativeAdvertisement(
    localName: Option<string>,
    manufacturerData: Option<AdData.ManufacturerData>,
    serviceUuids: seq<CbUuid>,
    overflowServiceUuids: seq<CbUuid>,
    serviceData: seq<(CbUuid, seq<bv8>)>,
    txPowerLevel: Option<I16>,
    isConnectable: bool)

  function ToUuids(us: seq<CbUuid>): (r: seq<Uuids.Uuid>)
    ensures |r| == |us|
    ensures forall i :: 0 <= i < |us| ==> r[i] == CbTypes.CbUuidToUuid(us[i])
  {
    seq(|us|, i requires 0 <= i < |us| => CbTypes.CbUuidToUuid(us[i]))
  }

  /** The native entries with their keys converted to UUIDs, in the same order. */
  function Rekey(entries: seq<(CbUuid, seq<bv8>)>): (r: seq<(Uuids.Uuid, seq<bv8>)>)
    ensures |r| == |entries|
    ensures forall i :: 0 <= i < |entries| ==> r[i] == (CbTypes.CbUuidToUuid(entries[i].0), entries[i].1)
  {
    seq(|entries|, i requires 0 <= i < |entries| => (CbTypes.CbUuidToUuid(entries[i].0), entries[i].1))
  }

  /**
    * `From<AdvertisementData>`: the advertised services are the service
    * UUIDs followed by the overflow UUIDs, the service data is re-keyed by
    * UUID, and the remaining fields are copied.
    */
  function FromNative(a: NativeAdvertisement): (r: AdData.AdvertisementData)
    ensures r.services == ToUuids(a.serviceUuids) + ToUuids(a.overflowServiceUuids)
    ensures AdData.DistinctKeys(r.serviceData)
    ensures forall u :: AdData.Lookup(r.serviceData, u) == AdData.Lookup(Rekey(a.serviceData), u)
    ensures r.localName == a.localName && r.manufacturerData == a.manufacturerData
    ensures r.txPowerLevel == a.txPowerLevel && r.isConnectable == a.isConnectable
  {
    AdData.AdvertisementData(
      a.localName, a.manufacturerData,
      ToUuids(a.serviceUuids + a.overflowServiceUuids),
      AdData.Collect(Rekey(a.serviceData)),
      a.txPowerLevel, a.isConnectable)
  }

  /** A UUID is among the converted ones exactly when some native UUID converts to it. */
  lemma ToUuidsMembers(us: seq<CbUuid>, u: Uuids.Uuid)
    ensures u in ToUuids(us) <==> exists i :: 0 <= i < |us| && CbTypes.CbUuidToUuid(us[i]) == u
  {
    var r := ToUuids(us);
    if i :| 0 <= i < |us| && CbTypes.CbUuidToUuid(us[i]) == u {
      assert r[i] == u;
    }
  }

  /** Every advertised service UUID, primary or overflow, is reported, with no others. */
  lemma ServicesReported(a: NativeAdvertisement, u: Uuids.Uuid)
    ensures u in FromNative(a).services <==>
              (exists i :: 0 <= i < |a.serviceUuids| && CbTypes.CbUuidToUuid(a.serviceUuids[i]) == u)
              || (exists i :: 0 <= i < |a.overflowServiceUuids| && CbTypes.CbUuidToUuid(a.overflowServiceUuids[i]) == u)
  {
    var primary, overflow := ToUuids(a.serviceUuids), ToUuids(a.overflowServiceUuids);
    assert FromNative(a).services == primary + overflow;
    assert u in primary + overflow <==> u in primary || u in overflow;
    ToUuidsMembers(a.serviceUuids, u);
    ToUuidsMembers(a.overflowServiceUuids, u);
  }

  /** A UUID has reported service data exactly when some native entry's key converts to it. */
  lemma ServiceDataPresent(a: NativeAdvertisement, u: Uuids.Uuid)
    ensures AdData.Lookup(FromNative(a).serviceData, u).Some?
            <==> exists i :: 0 <= i < |a.serviceData| && CbTypes.CbUuidToUuid(a.serviceData[i].0) == u
  {
    assert AdData.Lookup(FromNative(a).serviceData, u) == AdData.Lookup(Rekey(a.serviceData), u);
    RekeyHasKey(a.serviceData, u);
  }

  /** A re-keyed table has a key exactly when some native key converts to it. */
  lemma RekeyHasKey(entries: seq<(CbUuid, seq<bv8>)>, u: Uuids.Uuid)
    ensures (exists i :: 0 <= i < |Rekey(entries)| && Rekey(entries)[i].0 == u)
            <==> exists i :: 0 <= i < |entries| && CbTypes.CbUuidToUuid(entries[i].0) == u
  {
    var r := Rekey(entries);
    if i :| 0 <= i < |entries| && CbTypes.CbUuidToUuid(entries[i].0) == u {
      assert r[i].0 == u;
    }
  }

  /** The payload reported under a UUID is the one of the last native entry whose key converts to it. */
  lemma ServiceDataValue(a: NativeAdvertisement, u: Uuids.Uuid, i: nat)
    requires i < |a.serviceData| && CbTypes.CbUuidToUuid(a.serviceData[i].0) == u
    requires forall j :: i < j < |a.serviceData| ==> CbTypes.CbUuidToUuid(a.serviceData[j].0) != u
    ensures AdData.Lookup(FromNative(a).serviceData, u) == Some(a.serviceData[i].1)
  {
    AdData.LookupLast(Rekey(a.serviceData), u, i);
  }

  /** A UUID handed to CoreBluetooth as advertised service data is reported under the same UUID. */
  lemma ServiceDataKeepsUuid(a: NativeAdvertisement, u: Uuids.Uuid, v: seq<bv8>)
    requires a.serviceData == [(CbTypes.CbUuidData(u), v)]
    ensures AdData.Lookup(FromNative(a).serviceData, u) == Some(v)
  {
    CbTypes.CbUuidRoundTrip(u);
    AdData.LookupLast(Rekey(a.serviceData), u, 0);
  }
}

=== FILE: cb_adapter.dfy ===
/**
  * `src/corebluetooth/adapter.rs`: the CoreBluetooth adapter. Each
  * operation checks the central manager's state, issues one native call,
  * then reads central-delegate events until the first one it decides on.
  */
module CbAdapter {
  import opened Wrappers
  import opened Ints
  import opened Kinds
  import CbTypes
  import CbErrorMap
  import AdData
  import Uuids
  import Streams

  /** Identity of a native `CBPeripheral`; a `Device` is compared by it. */
  type Peripheral = nat

  /** The central-delegate events as this file matches them: a state change carries the new state. */
  datatype Event =
    | StateChanged(state: CbTypes.ManagerState)
    | Connect(peripheral: Peripheral)
    | ConnectFailed(peripheral: Peripheral, reason: CbErrorMap.NativeKind)
    | Disconnect(peripheral: Peripheral, error: Option<CbErrorMap.NativeKind>)
    | ConnectionEvent(peripheral: Peripheral, event: AdData.ConnectionEvent)
    | Discovered(peripheral: Peripheral, advertisement: AdData.AdvertisementData, rssi: I16)

  /** A state change to anything but `PoweredOn`: the adapter has become unusable. */
  predicate LostPower(e: Event) {
    e.StateChanged? && e.state != CbTypes.PoweredOn
  }

  /** Events a stream that ends at a loss of power lets through. */
  predicate Powered(e: Event) {
    !LostPower(e)
  }

  /** What the central manager reports when an operation starts. */
  datatype Central = Central(state: CbTypes.ManagerState, scanning: bool)

  /** The shared precondition of `scan`, `connect_device`, `disconnect_device` and `device_connection_events`. */
  function RequirePoweredOn(c: Central): (r: Result<(), Kind>)
    ensures r.Ok? <==> c.state == CbTypes.PoweredOn
    ensures r.Err? ==> r.error == AdapterUnavailable
  {
    if c.state != CbTypes.PoweredOn then Err(AdapterUnavailable) else Ok(())
  }

  // ---------------------------------------------------------------- events

  function AdapterEventOf(e: Event): Option<AdData.AdapterEvent> {
    match e
    case StateChanged(s) => Some(if s == CbTypes.PoweredOn then AdData.Available else AdData.Unavailable)
    case _ => None
  }

  /** `events`: the adapter events the stream yields for the central events received so far. */
  function Events(es: seq<Event>): seq<AdData.AdapterEvent> {
    Streams.FilterMap(es, AdapterEventOf)
  }

  /**
    * `Available` appears exactly when some state change reached
    * `PoweredOn`, `Unavailable` exactly when some state change went
    * elsewhere, and a stream without state changes yields nothing.
    */
  lemma EventsReportStates(es: seq<Event>)
    ensures AdData.Available in Events(es) <==> exists i :: 0 <= i < |es| && es[i] == StateChanged(CbTypes.PoweredOn)
    ensures AdData.Unavailable in Events(es) <==> exists i :: 0 <= i < |es| && LostPower(es[i])
    ensures (forall i :: 0 <= i < |es| ==> !es[i].StateChanged?) ==> Events(es) == []
  {
    Streams.FilterMapMembers(es, AdapterEventOf);
    if Events(es) != [] {
      assert Events(es)[0] in Events(es);
      assert exists i :: 0 <= i < |es| && es[i].StateChanged?;
    }
  }

  /**
    * `wait_available`: returns at once when the adapter is powered on, else
    * once a state change to `PoweredOn` arrives; `false` means still waiting.
    */
  function WaitAvailable(state: CbTypes.ManagerState, es: seq<Event>): (done: bool)
    ensures done <==> state == CbTypes.PoweredOn || exists i :: 0 <= i < |es| && es[i] == StateChanged(CbTypes.PoweredOn)
  {
    state == CbTypes.PoweredOn
    || Streams.FirstSome(es, (e: Event) => if e == StateChanged(CbTypes.PoweredOn) then Some(()) else None).Some?
  }

  /** `open_device`: the first peripheral CoreBluetooth retrieves for the identifier, else `NotFound`. */
  function OpenDevice(retrieved: seq<Peripheral>): (r: Result<Peripheral, Kind>)
    ensures r.Ok? <==> |retrieved| > 0
    ensures r.Ok? ==> r.value == retrieved[0]
    ensures r.Err? ==> r.error == NotFound
  {
    if |retrieved| == 0 then Err(NotFound) else Ok(retrieved[0])
  }

  // ------------------------------------------------------------------ scan

  /**
    * `scan`'s start: `AdapterUnavailable` unless powered on, then
    * `AlreadyScanning` if a scan is running; only then does scanning start.
    */
  function StartScan(c: Central): (r: Result<Central, Kind>)
    ensures r.Ok? <==> c.state == CbTypes.PoweredOn && !c.scanning
    ensures r.Err? ==> r.error == (if c.state != CbTypes.PoweredOn then AdapterUnavailable else AlreadyScanning)
    ensures r.Ok? ==> r.value == c.(scanning := true)
  {
    if c.state != CbTypes.PoweredOn then Err(AdapterUnavailable)
    else if c.scanning then Err(AlreadyScanning)
    else Ok(c.(scanning := true))
  }

  /** Dropping the scan stream runs its guard, which stops the scan. */
  function StopScan(c: Central): (c': Central)
    ensures !c'.scanning && c'.state == c.state
  {
    c.(scanning := false)
  }

  /** A started scan, once its stream is dropped, leaves the central as it found it. */
  lemma ScanThenStop(c: Central)
    requires StartScan(c).Ok?
    ensures StopScan(StartScan(c).value) == c
  {
  }

  datatype AdvertisingDevice = AdvertisingDevice(device: Peripheral, advertisement: AdData.AdvertisementData, rssi: Option<I16>)

  function ScanItem(e: Event): Option<AdvertisingDevice> {
    match e
    case Discovered(p, ad, rssi) => Some(AdvertisingDevice(p, ad, Some(rssi)))
    case _ => None
  }

  /** The scan stream's items for the central events received so far. */
  function ScanStream(es: seq<Event>): seq<AdvertisingDevice> {
    Streams.FilterMap(Streams.TakeWhile(es, Powered), ScanItem)
  }

  /** The scan stream ends at the first loss of power: nothing after it is seen. */
  lemma ScanStreamEnds(a: seq<Event>, e: Event, b: seq<Event>)
    requires forall i :: 0 <= i < |a| ==> !LostPower(a[i])
    requires LostPower(e)
    ensures ScanStream(a + [e] + b) == ScanStream(a)
  {
    assert a + [e] + b == a + ([e] + b);
    Streams.TakeWhileAppend(a, [e] + b, Powered);
    assert Streams.TakeWhile([e] + b, Powered) == [];
    Streams.TakeWhileAppend(a, [], Powered);
    assert a + [] == a;
  }

  /** Every scanned device is a `Discovered` event, with its rssi, received before any loss of power. */
  lemma ScanStreamItems(es: seq<Event>, d: AdvertisingDevice)
    requires d in ScanStream(es)
    ensures d.rssi.Some?
    ensures exists i :: 0 <= i < |es| && es[i] == Discovered(d.device, d.advertisement, d.rssi.value)
                        && forall j :: 0 <= j <= i ==> !LostPower(es[j])
  {
    var t := Streams.TakeWhile(es, Powered);
    Streams.FilterMapMembers(t, ScanItem);
    var i :| 0 <= i < |t| && ScanItem(t[i]) == Some(d);
    assert t[i] == es[i];
    assert forall j :: 0 <= j <= i ==> t[j] == es[j];
  }

  /**
    * `discover_devices`: the connected devices providing a service come
    * first, then a scan; a scan that cannot start ends the stream with its error.
    */
  function DiscoverDevices(services: seq<Uuids.Uuid>, connected: seq<Peripheral>, c: Central, es: seq<Event>)
    : (r: seq<Result<Peripheral, Kind>>)
    requires |services| > 0
    ensures |r| >= |connected|
    ensures forall i :: 0 <= i < |connected| ==> r[i] == Ok(connected[i])
    ensures StartScan(c).Err? ==> r == r[..|connected|] + [Err(StartScan(c).error)]
    ensures StartScan(c).Ok? ==>
              |r| == |connected| + |ScanStream(es)|
              && forall i :: 0 <= i < |ScanStream(es)| ==> r[|connected| + i] == Ok(ScanStream(es)[i].device)
  {
    var first := seq(|connected|, i requires 0 <= i < |connected| => Ok(connected[i]));
    match StartScan(c)
    case Err(k) => first + [Err(k)]
    case Ok(_) =>
      var scanned := ScanStream(es);
      first + seq(|scanned|, i requires 0 <= i < |scanned| => Ok(scanned[i].device))
  }

  /**
    * Once the scan has started, every device after the connected ones is a
    * peripheral discovered before any loss of power.
    */
  lemma DiscoveredAfterConnected(services: seq<Uuids.Uuid>, connected: seq<Peripheral>, c: Central, es: seq<Event>, k: nat)
    requires |services| > 0 && StartScan(c).Ok?
    requires |connected| <= k < |DiscoverDevices(services, connected, c, es)|
    ensures DiscoverDevices(services, connected, c, es)[k].Ok?
    ensures exists i :: 0 <= i < |es| && es[i].Discovered? && es[i].peripheral == DiscoverDevices(services, connected, c, es)[k].value
                        && forall j :: 0 <= j <= i ==> !LostPower(es[j])
  {
    var d := ScanStream(es)[k - |connected|];
    ScanStreamItems(es, d);
  }

  // -------------------------------------------------------- connect_device

  /** The events `connect_device`'s loop acts on; every other event is skipped. */
  predicate ConnectDecisive(p: Peripheral, e: Event) {
    LostPower(e) || e == Connect(p) || (e.ConnectFailed? && e.peripheral == p)
  }

  function ConnectStep(p: Peripheral, e: Event): Option<Result<(), Kind>> {
    match e
    case StateChanged(s) => if s != CbTypes.PoweredOn then Some(Err(AdapterUnavailable)) else None
    case Connect(q) => if q == p then Some(Ok(())) else None
    case ConnectFailed(q, err) => if q == p then Some(Err(CbErrorMap.KindOf(err))) else None
    case _ => None
  }

  /** `connect_device`'s loop: its verdict on the events received so far, `None` while waiting. */
  function ConnectDecide(p: Peripheral, es: seq<Event>): Option<Result<(), Kind>> {
    Streams.FirstSome(es, (e: Event) => ConnectStep(p, e))
  }

  /** Whether no decisive event occurs before index `i`. */
  predicate NoneBefore(es: seq<Event>, i: nat, decisive: Event -> bool)
    requires i <= |es|
  {
    forall j :: 0 <= j < i ==> !decisive(es[j])
  }

  /**
    * The verdict is that of the first decisive event: `Ok` for this
    * peripheral's `Connect`, its error for this peripheral's
    * `ConnectFailed`, `AdapterUnavailable` for a loss of power.
    */
  lemma ConnectOutcomes(p: Peripheral, es: seq<Event>)
    ensures ConnectDecide(p, es).None? <==> NoneBefore(es, |es|, (e: Event) => ConnectDecisive(p, e))
    ensures ConnectDecide(p, es) == Some(Ok(()))
            <==> exists i :: 0 <= i < |es| && es[i] == Connect(p) && NoneBefore(es, i, (e: Event) => ConnectDecisive(p, e))
    ensures ConnectDecide(p, es) == Some(Err(AdapterUnavailable))
            <==> exists i :: 0 <= i < |es| && (LostPower(es[i]) || (es[i].ConnectFailed? && es[i].peripheral == p
                                                                    && CbErrorMap.KindOf(es[i].reason) == AdapterUnavailable))
                             && NoneBefore(es, i, (e: Event) => ConnectDecisive(p, e))
  {
    ConnectWaits(p, es);
    ConnectVerdict(p, es, Ok(()));
    ConnectVerdict(p, es, Err(AdapterUnavailable));
  }

  /** The loop waits exactly while no decisive event has arrived. */
  lemma ConnectWaits(p: Peripheral, es: seq<Event>)
    ensures ConnectDecide(p, es).None? <==> NoneBefore(es, |es|, (e: Event) => ConnectDecisive(p, e))
  {
    var f := (e: Event) => ConnectStep(p, e);
    assert forall e :: f(e).Some? <==> ConnectDecisive(p, e);
  }

  /** The loop's verdict is `v` exactly when its first decisive event gives `v`. */
  lemma ConnectVerdict(p: Peripheral, es: seq<Event>, v: Result<(), Kind>)
    ensures ConnectDecide(p, es) == Some(v)
            <==> exists i :: 0 <= i < |es| && ConnectStep(p, es[i]) == Some(v)
                             && NoneBefore(es, i, (e: Event) => ConnectDecisive(p, e))
  {
    var f := (e: Event) => ConnectStep(p, e);
    var d := (e: Event) => ConnectDecisive(p, e);
    assert forall e :: f(e).Some? <==> d(e);
    if i :| 0 <= i < |es| && ConnectStep(p, es[i]) == Some(v) && NoneBefore(es, i, d) {
      Streams.FirstSomeAt(es, f, i);
    }
  }

  /** An event `connect_device` skips can be removed from anywhere without changing its verdict. */
  lemma ConnectSkips(p: Peripheral, a: seq<Event>, e: Event, b: seq<Event>)
    requires !ConnectDecisive(p, e)
    ensures ConnectDecide(p, a + [e] + b) == ConnectDecide(p, a + b)
  {
    var f := (e: Event) => ConnectStep(p, e);
    Streams.FirstSomeAppend(a + [e], b, f);
    Streams.FirstSomeAppend(a, [e], f);
    Streams.FirstSomeAppend(a, b, f);
    assert Streams.FirstSome([e], f) == None by {
      assert [e][1..] == [];
    }
  }

  /**
    * The guard of `connect_device` cancels the connection attempt when the
    * future is dropped, unless a decision was reached (which defuses it).
    */
  function CancelsOnDrop(p: Peripheral, es: seq<Event>): (cancels: bool)
    ensures cancels <==> NoneBefore(es, |es|, (e: Event) => ConnectDecisive(p, e))
  {
    ConnectOutcomes(p, es);
    ConnectDecide(p, es).None?
  }

  /**
    * `connect_device`: the adapter must be powered on before the connection
    * is requested; then the loop's verdict, `None` while it waits.
    */
  function ConnectDevice(c: Central, p: Peripheral, es: seq<Event>): (r: Option<Result<(), Kind>>)
    ensures c.state != CbTypes.PoweredOn ==> r == Some(Err(AdapterUnavailable))
    ensures r.None? <==> c.state == CbTypes.PoweredOn && NoneBefore(es, |es|, (e: Event) => ConnectDecisive(p, e))
    ensures r == Some(Ok(())) <==>
              c.state == CbTypes.PoweredOn
              && exists i :: 0 <= i < |es| && es[i] == Connect(p) && NoneBefore(es, i, (e: Event) => ConnectDecisive(p, e))
  {
    ConnectOutcomes(p, es);
    match RequirePoweredOn(c)
    case Err(k) => Some(Err(k))
    case Ok(_) => ConnectDecide(p, es)
  }

  // ----------------------------------------------------- disconnect_device

  /**
    * `disconnect_device`'s loop as written: it gives up on any state change
    * that is not `PoweredOff`, so a repeated `PoweredOn` aborts it and an
    * actual power-off is ignored.
    */
  function DisconnectStepAsWritten(p: Peripheral, e: Event): Option<Result<(), Kind>> {
    match e
    case StateChanged(s) => if s != CbTypes.PoweredOff then Some(Err(AdapterUnavailable)) else None
    case Disconnect(q, err) =>
      if q != p then None
      else if err.None? then Some(Ok(()))
      else Some(Err(CbErrorMap.KindOf(err.value)))
    case _ => None
  }

  function DisconnectDecideAsWritten(p: Peripheral, es: seq<Event>): Option<Result<(), Kind>> {
    Streams.FirstSome(es, (e: Event) => DisconnectStepAsWritten(p, e))
  }

  /** The loop with the test every sibling loop uses: any state other than `PoweredOn` ends it. */
  function DisconnectStep(p: Peripheral, e: Event): Option<Result<(), Kind>> {
    match e
    case StateChanged(s) => if s != CbTypes.PoweredOn then Some(Err(AdapterUnavailable)) else None
    case Disconnect(q, err) =>
      if q != p then None
      else if err.None? then Some(Ok(()))
      else Some(Err(CbErrorMap.KindOf(err.value)))
    case _ => None
  }

  /** `disconnect_device`'s loop, corrected: its verdict on the events so far, `None` while waiting. */
  function DisconnectDecide(p: Peripheral, es: seq<Event>): Option<Result<(), Kind>> {
    Streams.FirstSome(es, (e: Event) => DisconnectStep(p, e))
  }

  predicate DisconnectDecisive(p: Peripheral, e: Event) {
    LostPower(e) || (e.Disconnect? && e.peripheral == p)
  }

  /**
    * Corrected verdict: `Ok` when this peripheral's first decisive event is
    * an error-free `Disconnect`, `AdapterUnavailable` after a loss of power,
    * and a loss of power always decides.
    */
  lemma DisconnectOutcomes(p: Peripheral, es: seq<Event>)
    ensures DisconnectDecide(p, es).None? <==> NoneBefore(es, |es|, (e: Event) => DisconnectDecisive(p, e))
    ensures DisconnectDecide(p, es) == Some(Ok(()))
            <==> exists i :: 0 <= i < |es| && es[i] == Disconnect(p, None) && NoneBefore(es, i, (e: Event) => DisconnectDecisive(p, e))
  {
    DisconnectWaits(p, es);
    DisconnectVerdict(p, es, Ok(()));
    assert forall e :: DisconnectStep(p, e) == Some(Ok(())) <==> e == Disconnect(p, None);
  }

  /** The corrected loop waits exactly while no decisive event has arrived. */
  lemma DisconnectWaits(p: Peripheral, es: seq<Event>)
    ensures DisconnectDecide(p, es).None? <==> NoneBefore(es, |es|, (e: Event) => DisconnectDecisive(p, e))
  {
    var f := (e: Event) => DisconnectStep(p, e);
    assert forall e :: f(e).Some? <==> DisconnectDecisive(p, e);
  }

  /** The corrected loop's verdict is `v` exactly when its first decisive event gives `v`. */
  lemma DisconnectVerdict(p: Peripheral, es: seq<Event>, v: Result<(), Kind>)
    ensures DisconnectDecide(p, es) == Some(v)
            <==> exists i :: 0 <= i < |es| && DisconnectStep(p, es[i]) == Some(v)
                             && NoneBefore(es, i, (e: Event) => DisconnectDecisive(p, e))
  {
    var f := (e: Event) => DisconnectStep(p, e);
    var d := (e: Event) => DisconnectDecisive(p, e);
    assert forall e :: f(e).Some? <==> d(e);
    if i :| 0 <= i < |es| && DisconnectStep(p, es[i]) == Some(v) && NoneBefore(es, i, d) {
      Streams.FirstSomeAt(es, f, i);
    }
  }

  /**
    * `disconnect_device` with the corrected loop: the adapter must be
    * powered on before the disconnection is requested; then the loop's
    * verdict, `None` while it waits.
    */
  function DisconnectDevice(c: Central, p: Peripheral, es: seq<Event>): (r: Option<Result<(), Kind>>)
    ensures c.state != CbTypes.PoweredOn ==> r == Some(Err(AdapterUnavailable))
    ensures r.None? <==> c.state == CbTypes.PoweredOn && NoneBefore(es, |es|, (e: Event) => DisconnectDecisive(p, e))
    ensures r == Some(Ok(())) <==>
              c.state == CbTypes.PoweredOn
              && exists i :: 0 <= i < |es| && es[i] == Disconnect(p, None) && NoneBefore(es, i, (e: Event) => DisconnectDecisive(p, e))
  {
    DisconnectOutcomes(p, es);
    match RequirePoweredOn(c)
    case Err(k) => Some(Err(k))
    case Ok(_) => DisconnectDecide(p, es)
  }

  /** The events the as-written loop acts on: any state change other than `PoweredOff`, and this peripheral's disconnection. */
  predicate DisconnectDecisiveAsWritten(p: Peripheral, e: Event) {
    (e.StateChanged? && e.state != CbTypes.PoweredOff) || (e.Disconnect? && e.peripheral == p)
  }

  /** As written, the loop waits exactly while no state change other than `PoweredOff` and no disconnection of this peripheral has arrived. */
  lemma DisconnectAsWrittenWaits(p: Peripheral, es: seq<Event>)
    ensures DisconnectDecideAsWritten(p, es).None? <==> NoneBefore(es, |es|, (e: Event) => DisconnectDecisiveAsWritten(p, e))
  {
    var f := (e: Event) => DisconnectStepAsWritten(p, e);
    assert forall e :: f(e).Some? <==> DisconnectDecisiveAsWritten(p, e);
  }

  /** As written, the loop's verdict is `v` exactly when its first decisive event gives `v`. */
  lemma DisconnectAsWrittenVerdict(p: Peripheral, es: seq<Event>, v: Result<(), Kind>)
    ensures DisconnectDecideAsWritten(p, es) == Some(v)
            <==> exists i :: 0 <= i < |es| && DisconnectStepAsWritten(p, es[i]) == Some(v)
                             && NoneBefore(es, i, (e: Event) => DisconnectDecisiveAsWritten(p, e))
  {
    var f := (e: Event) => DisconnectStepAsWritten(p, e);
    var d := (e: Event) => DisconnectDecisiveAsWritten(p, e);
    assert forall e :: f(e).Some? <==> d(e);
    if i :| 0 <= i < |es| && DisconnectStepAsWritten(p, es[i]) == Some(v) && NoneBefore(es, i, d) {
      Streams.FirstSomeAt(es, f, i);
    }
  }

  /** The two loops differ only on state changes: without one among the events, they agree. */
  lemma DisconnectAgreesWithoutStateChanges(p: Peripheral, es: seq<Event>)
    requires forall i :: 0 <= i < |es| ==> !es[i].StateChanged?
    ensures DisconnectDecideAsWritten(p, es) == DisconnectDecide(p, es)
  {
    var f := (e: Event) => DisconnectStepAsWritten(p, e);
    var g := (e: Event) => DisconnectStep(p, e);
    assert forall i :: 0 <= i < |es| ==> f(es[i]) == g(es[i]);
    if DisconnectDecide(p, es).Some? {
      var i :| 0 <= i < |es| && g(es[i]) == DisconnectDecide(p, es) && forall j :: 0 <= j < i ==> g(es[j]).None?;
      Streams.FirstSomeAt(es, f, i);
    }
  }

  /** As written, a `PoweredOn` notification arriving before the disconnection turns success into failure. */
  lemma DisconnectAsWrittenAbortsOnPoweredOn(p: Peripheral)
    ensures DisconnectDecideAsWritten(p, [StateChanged(CbTypes.PoweredOn), Disconnect(p, None)]) == Some(Err(AdapterUnavailable))
    ensures DisconnectDecide(p, [StateChanged(CbTypes.PoweredOn), Disconnect(p, None)]) == Some(Ok(()))
  {
    var es := [StateChanged(CbTypes.PoweredOn), Disconnect(p, None)];
    Streams.FirstSomeAt(es, (e: Event) => DisconnectStepAsWritten(p, e), 0);
    Streams.FirstSomeAt(es, (e: Event) => DisconnectStep(p, e), 1);
  }

  /** As written, powering the adapter off leaves `disconnect_device` waiting. */
  lemma DisconnectAsWrittenIgnoresPowerOff(p: Peripheral)
    ensures DisconnectDecideAsWritten(p, [StateChanged(CbTypes.PoweredOff)]).None?
    ensures DisconnectDecide(p, [StateChanged(CbTypes.PoweredOff)]) == Some(Err(AdapterUnavailable))
  {
    Streams.FirstSomeAt([StateChanged(CbTypes.PoweredOff)], (e: Event) => DisconnectStep(p, e), 0);
  }

  // ------------------------------------------------ connection-event registry

  /**
    * The registration guards, counted per peripheral identifier (`K` stands
    * for the identifier's `Uuid`; only its equality matters here).
    */
  type Registry<K> = map<K, nat>

  /** Every registered identifier has at least one guard. */
  predicate ValidRegistry<K(!new)>(r: Registry<K>) {
    forall id :: id in r ==> r[id] >= 1
  }

  /** The registry counts exactly the guards in `live`. */
  ghost predicate Counts<K(!new)>(r: Registry<K>, live: multiset<K>) {
    ValidRegistry(r) && (forall id :: id in r <==> live[id] > 0) && (forall id :: id in r ==> r[id] == live[id])
  }

  /**
    * The registry after a change, and the identifier set handed to
    * `register_for_connection_events` when the change made that call.
    */
  datatype Registration<K> = Registration(registry: Registry<K>, registered: Option<set<K>>)

  /** `register_connection_events`: count one more guard for `id`. */
  function Register<K(!new)>(r: Registry<K>, id: K): (g: Registration<K>)
    requires ValidRegistry(r)
    ensures ValidRegistry(g.registry) && g.registry.Keys == r.Keys + {id}
    ensures g.registered.Some? <==> id !in r
    ensures g.registered.Some? ==> g.registered.value == g.registry.Keys
  {
    if id in r then
      var r' := r[id := r[id] + 1];
      assert r'.Keys == r.Keys;
      Registration(r', None)
    else
      var r' := r[id := 1];
      assert r'.Keys == r.Keys + {id};
      Registration(r', Some(r'.Keys))
  }

  /** Dropping a guard for `id`; a guard for an unregistered identifier cannot exist (`unreachable!`). */
  function Release<K(!new)>(r: Registry<K>, id: K): (g: Registration<K>)
    requires ValidRegistry(r) && id in r
    ensures ValidRegistry(g.registry)
    ensures g.registered.Some? <==> r[id] == 1
    ensures g.registry.Keys == if r[id] == 1 then r.Keys - {id} else r.Keys
    ensures g.registered.Some? ==> g.registered.value == g.registry.Keys
  {
    if r[id] == 1 then
      var r' := map k | k in r && k != id :: r[k];
      assert r'.Keys == r.Keys - {id};
      Registration(r', Some(r'.Keys))
    else
      var r' := r[id := r[id] - 1];
      assert r'.Keys == r.Keys;
      Registration(r', None)
  }

  /**
    * Registering keeps the count equal to the live guards, and calls the
    * native registration exactly when the identifier had no guard.
    */
  lemma RegisterCounts<K(!new)>(r: Registry<K>, live: multiset<K>, id: K)
    requires Counts(r, live)
    ensures Counts(Register(r, id).registry, live + multiset{id})
    ensures Register(r, id).registered.Some? <==> live[id] == 0
  {
    var r' := Register(r, id).registry;
    var live' := live + multiset{id};
    forall k
      ensures k in r' <==> live'[k] > 0
      ensures k in r' ==> r'[k] == live'[k]
    {
      if k == id {
        assert live'[k] == live[k] + 1;
      } else {
        assert live'[k] == live[k];
      }
    }
  }

  /**
    * Releasing keeps the count equal to the live guards, and calls the
    * native registration exactly when the last guard went away.
    */
  lemma ReleaseCounts<K(!new)>(r: Registry<K>, live: multiset<K>, id: K)
    requires Counts(r, live) && id in live
    ensures id in r
    ensures Counts(Release(r, id).registry, live - multiset{id})
    ensures Release(r, id).registered.Some? <==> live[id] == 1
  {
    assert live[id] > 0;
    var r' := Release(r, id).registry;
    var live' := live - multiset{id};
    forall k
      ensures k in r' <==> live'[k] > 0
      ensures k in r' ==> r'[k] == live'[k]
    {
      if k == id {
        assert live'[k] == live[k] - 1;
      } else {
        assert live'[k] == live[k];
      }
    }
  }

  // ----------------------------------------------- device_connection_events

  /** The item an event gives on iOS: connect, disconnect, or a native connection event, for this device. */
  function ConnectionItem(p: Peripheral, e: Event): Option<AdData.ConnectionEvent> {
    match e
    case Connect(q) => if q == p then Some(AdData.Connected) else None
    case Disconnect(q, _) => if q == p then Some(AdData.Disconnected) else None
    case ConnectionEvent(q, ev) => if q == p then Some(ev) else None
    case _ => None
  }

  /** On macOS there are no native connection events; only connect and disconnect count. */
  function MacConnectionItem(p: Peripheral, e: Event): Option<AdData.ConnectionEvent> {
    match e
    case Connect(q) => if q == p then Some(AdData.Connected) else None
    case Disconnect(q, _) => if q == p then Some(AdData.Disconnected) else None
    case _ => None
  }

  /** `device_connection_events`: the items for the events received so far, ending at a loss of power. */
  function DeviceConnectionEvents(p: Peripheral, es: seq<Event>, macos: bool): seq<AdData.ConnectionEvent> {
    Streams.FilterMap(Streams.TakeWhile(es, Powered),
                      if macos then (e: Event) => MacConnectionItem(p, e) else (e: Event) => ConnectionItem(p, e))
  }

  /** Without native connection events for the device, both platforms see the same stream. */
  lemma {:induction false} PlatformsAgree(p: Peripheral, es: seq<Event>)
    requires forall i :: 0 <= i < |es| ==> !(es[i].ConnectionEvent? && es[i].peripheral == p)
    ensures Streams.FilterMap(es, (e: Event) => MacConnectionItem(p, e)) == Streams.FilterMap(es, (e: Event) => ConnectionItem(p, e))
    decreases |es|
  {
    if es != [] {
      assert MacConnectionItem(p, es[0]) == ConnectionItem(p, es[0]);
      PlatformsAgree(p, es[1..]);
    }
  }

  /** Each item on either platform comes from an event about this device before any loss of power. */
  lemma ConnectionItemsAreThisDevice(p: Peripheral, es: seq<Event>, macos: bool, c: AdData.ConnectionEvent)
    requires c in DeviceConnectionEvents(p, es, macos)
    ensures exists i :: 0 <= i < |es| && !es[i].StateChanged? && !es[i].Discovered? && es[i].peripheral == p
                        && forall j :: 0 <= j <= i ==> !LostPower(es[j])
  {
    var t := Streams.TakeWhile(es, Powered);
    var f := if macos then (e: Event) => MacConnectionItem(p, e) else (e: Event) => ConnectionItem(p, e);
    Streams.FilterMapMembers(t, f);
    var i :| 0 <= i < |t| && f(t[i]) == Some(c);
    assert t[i] == es[i];
    assert forall j :: 0 <= j <= i ==> t[j] == es[j];
  }

  /** Every item of the stream comes from an event about this device before any loss of power. */
  lemma ConnectionItemsFromDevice(p: Peripheral, es: seq<Event>, macos: bool)
    ensures forall c :: c in DeviceConnectionEvents(p, es, macos) ==>
              exists i :: 0 <= i < |es| && !es[i].StateChanged? && !es[i].Discovered? && es[i].peripheral == p
                          && forall j :: 0 <= j <= i ==> !LostPower(es[j])
  {
    forall c | c in DeviceConnectionEvents(p, es, macos) {
      ConnectionItemsAreThisDevice(p, es, macos, c);
    }
  }

  /**
    * `device_connection_events` on either platform: `AdapterUnavailable`
    * unless the adapter is powered on, otherwise the stream, whose items all
    * come from this device's events before any loss of power.
    */
  function ConnectionEvents(c: Central, p: Peripheral, es: seq<Event>, macos: bool): (r: Result<seq<AdData.ConnectionEvent>, Kind>)
    ensures r.Err? <==> c.state != CbTypes.PoweredOn
    ensures r.Err? ==> r.error == AdapterUnavailable
    ensures r.Ok? ==> r.value == DeviceConnectionEvents(p, es, macos)
    ensures r.Ok? ==> forall x :: x in r.value ==>
              exists i :: 0 <= i < |es| && !es[i].StateChanged? && !es[i].Discovered? && es[i].peripheral == p
                          && forall j :: 0 <= j <= i ==> !LostPower(es[j])
  {
    ConnectionItemsFromDevice(p, es, macos);
    match RequirePoweredOn(c)
    case Err(k) => Err(k)
    case Ok(_) => Ok(DeviceConnectionEvents(p, es, macos))
  }
}

=== FILE: cb_advertisement.dfy ===
/**
  * `src/corebluetooth/advertisement.rs`: the advertiser's peripheral
  * manager lifecycle and the manufacturer payload it advertises. The
  * native calls an operation makes are returned as a list of `Call`s.
  */
module CbAdvertisement {
  import opened Wrappers
  import opened Ints
  import AdData

  /** Identity of a native `CBPeripheralManager`. */
  type Manager = nat

  /** What the advertiser holds: a peripheral manager, once one has been created. */
  datatype Advertiser = Advertiser(manager: Option<Manager>)

  /** A native call: start advertising a dictionary (its manufacturer data entry, if any), or stop. */
  datatype Call = StartAdvertising(on: Manager, manufacturerData: Option<seq<bv8>>) | StopAdvertising(on: Manager)

  /** `AdvertisementImpl::new`: no manager yet. */
  const New := Advertiser(None)

  /**
    * The `kCBAdvDataManufacturerData` payload: the company identifier's
    * high octet, then its low octet, then the data.
    */
  function Payload(m: AdData.ManufacturerData): (p: seq<bv8>)
    ensures |p| == 2 + |m.data|
    ensures p[2..] == m.data
  {
    [(m.companyId >> 8) as bv8, (m.companyId & 0xFF) as bv8] + m.data
  }

  /** Reading a payload back: a big-endian company identifier, then the data. */
  function ParsePayload(p: seq<bv8>): (r: Option<AdData.ManufacturerData>)
    ensures r.Some? <==> |p| >= 2
  {
    if |p| < 2 then None
    else Some(AdData.ManufacturerData(((p[0] as bv16) << 8) | (p[1] as bv16), p[2..]))
  }

  /** The payload keeps the company identifier and the data: reading it back gives the record. */
  lemma PayloadRoundTrip(m: AdData.ManufacturerData)
    ensures ParsePayload(Payload(m)) == Some(m)
  {
    var p := Payload(m);
    OctetsRoundTrip(m.companyId);
    assert p[2..] == m.data;
  }

  /** A 16-bit value is its high octet shifted up, joined with its low octet. */
  lemma OctetsRoundTrip(x: bv16)
    ensures (((x >> 8) as bv8 as bv16) << 8) | ((x & 0xFF) as bv8 as bv16) == x
  {
  }

  /** The manufacturer entry of the advertised dictionary: present exactly when the record has manufacturer data. */
  function ManufacturerEntry(data: AdData.AdvertisementData): (e: Option<seq<bv8>>)
    ensures e.None? <==> data.manufacturerData.None?
    ensures e.Some? ==> ParsePayload(e.value) == data.manufacturerData
  {
    match data.manufacturerData
    case None => None
    case Some(m) => PayloadRoundTrip(m); Some(Payload(m))
  }

  /** The manager to use: the one held, or `created` when none is held yet. */
  function EnsureManager(a: Advertiser, created: Manager): (m: Manager)
    ensures a.manager.Some? ==> m == a.manager.value
    ensures a.manager.None? ==> m == created
  {
    a.manager.GetOr(created)
  }

  /**
    * `start_advertising`: creates a manager (`created`) only when none is
    * held, starts advertising the record's manufacturer entry on it, and
    * returns the advertiser and the guard, which shares the manager.
    */
  function StartAdvertisingWith(a: Advertiser, data: AdData.AdvertisementData, created: Manager)
    : (r: (Advertiser, Advertiser, seq<Call>))
    ensures r.0.manager.Some? && r.1 == r.0
    ensures a.manager.Some? ==> r.0 == a
    ensures r.2 == [StartAdvertising(r.0.manager.value, ManufacturerEntry(data))]
  {
    var m := EnsureManager(a, created);
    (Advertiser(Some(m)), Advertiser(Some(m)), [StartAdvertising(m, ManufacturerEntry(data))])
  }

  /** `stop_advertising`: stops the held manager, if any, and lets go of it. */
  function Stop(a: Advertiser): (r: (Advertiser, seq<Call>))
    ensures r.0.manager.None?
    ensures |r.1| <= 1 && (r.1 != [] <==> a.manager.Some?)
    ensures a.manager.Some? ==> r.1 == [StopAdvertising(a.manager.value)]
  {
    match a.manager
    case Some(m) => (New, [StopAdvertising(m)])
    case None => (New, [])
  }

  /**
    * `advertise`: like `start_advertising` but with the raw data as the
    * manufacturer entry; with a duration, it stops (and lets go of the
    * manager) once the duration has passed.
    */
  function Advertise(a: Advertiser, data: seq<bv8>, duration: Option<nat>, created: Manager)
    : (r: (Advertiser, seq<Call>))
    ensures |r.1| >= 1 && r.1[0] == StartAdvertising(EnsureManager(a, created), Some(data))
    ensures duration.Some? ==> r.0 == New && r.1 == [r.1[0], StopAdvertising(EnsureManager(a, created))]
    ensures duration.None? ==> r.0.manager == Some(EnsureManager(a, created)) && |r.1| == 1
  {
    var m := EnsureManager(a, created);
    var started := Advertiser(Some(m));
    if duration.Some? then
      var (stopped, calls) := Stop(started);
      (stopped, [StartAdvertising(m, Some(data))] + calls)
    else (started, [StartAdvertising(m, Some(data))])
  }

  /**
    * Starting twice reuses the first manager; dropping the guard stops that
    * manager, while the advertiser itself still holds it.
    */
  lemma RestartReusesManager(a: Advertiser, d1: AdData.AdvertisementData, d2: AdData.AdvertisementData, c1: Manager, c2: Manager)
    ensures var (a1, g1, _) := StartAdvertisingWith(a, d1, c1);
            var (a2, _, calls) := StartAdvertisingWith(a1, d2, c2);
            a2 == a1 && calls == [StartAdvertising(EnsureManager(a, c1), ManufacturerEntry(d2))]
            && Stop(g1).1 == [StopAdvertising(EnsureManager(a, c1))]
  {
  }
}

=== FILE: cb_characteristic.dfy ===
/**
  * `src/corebluetooth/characteristic.rs`: a CoreBluetooth characteristic's
  * properties, cached value, read, write, write without response,
  * notifications and descriptor discovery.
  */
module CbCharacteristic {
  import opened Wrappers
  import opened Kinds
  import opened CbGatt
  import CbTypes
  import CbErrorMap
  import Properties
  import Streams

  /**
    * `properties`: the eight `CBCharacteristicProperties` flags CoreBluetooth
    * shares with the GATT property octet (Broadcast 0x01 through
    * ExtendedProperties 0x80) are copied; reliable write and writable
    * auxiliaries are never reported.
    */
  function FromCb(bits: bv32): (p: Properties.CharacteristicProperties)
    ensures !p.reliableWrite && !p.writableAuxiliaries
  {
    Properties.CharacteristicProperties(
      bits & 0x01 != 0, bits & 0x02 != 0, bits & 0x04 != 0, bits & 0x08 != 0,
      bits & 0x10 != 0, bits & 0x20 != 0, bits & 0x40 != 0, bits & 0x80 != 0,
      false, false)
  }

  /**
    * The copy agrees with the library's own bit layout on the low octet,
    * and CoreBluetooth's higher flags (such as NotifyEncryptionRequired,
    * 0x100) are dropped rather than read as extended properties.
    */
  lemma FromCbIsLowOctet(bits: bv32)
    ensures FromCb(bits) == Properties.FromBits(bits & 0xFF)
    ensures Properties.ToBits(FromCb(bits)) == bits & 0xFF
  {
    Properties.ToBitsFromBits(bits & 0xFF);
  }

  /** `value`: the cached value, `NotReady` until one has been read. */
  function Value(cache: Option<seq<bv8>>): (r: Result<seq<bv8>, Kind>)
    ensures r.Ok? <==> cache.Some?
    ensures r.Ok? ==> r.value == cache.value
    ensures r.Err? ==> r.error == NotReady
  {
    Cached(cache)
  }

  /** The completion `read` waits for: a value update for this characteristic. */
  function ReadOwn(ch: Handle): PeripheralEvent -> Option<Result<(), Kind>> {
    (e: PeripheralEvent) =>
      if e.CharacteristicValueUpdate? && e.characteristic == ch
      then Some(if e.update.Ok? then Ok(()) else Err(CbErrorMap.KindOf(e.update.error)))
      else None
  }

  /**
    * `read`: `NotFound` without service or peripheral, `NotConnected`
    * unless connected, with no native call; then the first value update
    * for this characteristic, disconnection, or services-changed event
    * naming its service decides; success answers with the cached value.
    */
  function Read(ch: Handle, service: Option<Handle>, peripheral: Option<CbTypes.PeripheralState>,
                es: seq<PeripheralEvent>, cache: Option<seq<bv8>>): (r: Option<Result<seq<bv8>, Kind>>)
    ensures Reach(service, peripheral).Err? ==> r == Some(Err(Reach(service, peripheral).error))
    ensures r.Some? && r.value.Ok? ==>
              peripheral == Some(CbTypes.Connected) && cache == Some(r.value.value)
              && exists i :: 0 <= i < |es| && es[i].CharacteristicValueUpdate? && es[i].characteristic == ch && es[i].update.Ok?
                             && Undecided(service, ReadOwn(ch), es, i)
    ensures Reach(service, peripheral).Ok? ==> (r.None? <==> Undecided(service, ReadOwn(ch), es, |es|))
    ensures Reach(service, peripheral).Ok? ==>
              forall i :: 0 <= i < |es| && es[i].CharacteristicValueUpdate? && es[i].characteristic == ch && es[i].update.Err? && Undecided(service, ReadOwn(ch), es, i) ==>
                r == Some(Err(CbErrorMap.KindOf(es[i].update.error)))
  {
    Run(Reach(service, peripheral), service, ReadOwn(ch), es, Value(cache))
  }

  /** The completion `write` waits for: the write completion for this characteristic. */
  function WriteOwn(ch: Handle): PeripheralEvent -> Option<Result<(), Kind>> {
    (e: PeripheralEvent) =>
      if e.CharacteristicValueWrite? && e.characteristic == ch then Some(Completion(e.result)) else None
  }

  /** `write` (with response): the result of this characteristic's first write completion, unless interrupted first. */
  function Write(ch: Handle, service: Option<Handle>, peripheral: Option<CbTypes.PeripheralState>,
                 es: seq<PeripheralEvent>): (r: Option<Result<(), Kind>>)
    ensures Reach(service, peripheral).Err? ==> r == Some(Err(Reach(service, peripheral).error))
    ensures r.Some? && r.value.Ok? ==>
              exists i :: 0 <= i < |es| && es[i].CharacteristicValueWrite? && es[i].characteristic == ch && es[i].result.Ok?
                          && Undecided(service, WriteOwn(ch), es, i)
    ensures Reach(service, peripheral).Ok? ==> (r.None? <==> Undecided(service, WriteOwn(ch), es, |es|))
    ensures Reach(service, peripheral).Ok? ==>
              forall i :: 0 <= i < |es| && es[i].CharacteristicValueWrite? && es[i].characteristic == ch && es[i].result.Err? && Undecided(service, WriteOwn(ch), es, i) ==>
                r == Some(Err(CbErrorMap.KindOf(es[i].result.error)))
  {
    Run(Reach(service, peripheral), service, WriteOwn(ch), es, Ok(()))
  }

  /** A failed write completion, arriving first, is the write's error. */
  lemma WriteFails(ch: Handle, service: Handle, es: seq<PeripheralEvent>, i: nat)
    requires i < |es| && es[i].CharacteristicValueWrite? && es[i].characteristic == ch && es[i].result.Err?
    requires Undecided(Some(service), WriteOwn(ch), es, i)
    ensures Write(ch, Some(service), Some(CbTypes.Connected), es) == Some(Err(CbErrorMap.KindOf(es[i].result.error)))
  {
    AwaitAt(Some(service), WriteOwn(ch), es, i);
  }

  /**
    * One pass of `write_without_response`'s loop: what the lookup finds,
    * whether the peripheral can take a write now, and the events received
    * while it waits to be ready.
    */
  datatype Attempt = Attempt(service: Option<Handle>, peripheral: Option<CbTypes.PeripheralState>,
                             canSend: bool, events: seq<PeripheralEvent>)

  /** How waiting for readiness ends: retry, or fail. */
  datatype Wait = Retry | Fail(kind: Kind)

  /**
    * The inner wait: `ReadyToWrite` (or the receiver failing, which ends
    * the `while let`) means retry; a disconnection or a services-changed
    * event naming the service fails.
    */
  function WaitStep(service: Handle, e: PeripheralEvent): Option<Wait> {
    match e
    case ReadyToWrite => Some(Retry)
    case ReceiveFailed => Some(Retry)
    case Disconnected(err) => Some(Fail(CbErrorMap.KindOf(err)))
    case ServicesChanged(inv) => if service in inv then Some(Fail(ServiceChanged)) else None
    case _ => None
  }

  /**
    * `write_without_response`: each pass re-checks the service, peripheral
    * and connection; it writes and succeeds as soon as the peripheral can
    * send, and otherwise waits for readiness and tries again.
    */
  function WriteWithoutResponse(attempts: seq<Attempt>): (r: Option<Result<(), Kind>>)
    ensures r == Some(Ok(())) ==>
              exists i :: 0 <= i < |attempts| && attempts[i].canSend
                          && Reach(attempts[i].service, attempts[i].peripheral).Ok?
                          && forall j :: 0 <= j < i ==> !attempts[j].canSend
    decreases |attempts|
  {
    if attempts == [] then None
    else
      var a := attempts[0];
      match Reach(a.service, a.peripheral)
      case Err(k) => Some(Err(k))
      case Ok(_) =>
        if a.canSend then Some(Ok(()))
        else
          var w: Option<Wait> := Streams.FirstSome(a.events, (e: PeripheralEvent) => WaitStep(a.service.value, e));
          match w
          case None => None
          case Some(Fail(k)) => Some(Err(k))
          case Some(Retry) =>
            var r := WriteWithoutResponse(attempts[1..]);
            if r == Some(Ok(())) then
              var i :| 0 <= i < |attempts[1..]| && attempts[1..][i].canSend
                       && Reach(attempts[1..][i].service, attempts[1..][i].peripheral).Ok?
                       && forall j :: 0 <= j < i ==> !attempts[1..][j].canSend;
              assert attempts[i + 1] == attempts[1..][i];
              assert forall j :: 1 <= j < i + 1 ==> attempts[j] == attempts[1..][j - 1];
              r
            else r
  }

  /** A connected peripheral that can send takes the write at once. */
  lemma WritesAtOnce(a: Attempt, rest: seq<Attempt>)
    requires a.canSend && Reach(a.service, a.peripheral).Ok?
    ensures WriteWithoutResponse([a] + rest) == Some(Ok(()))
  {
  }

  /** A pass that is told the peripheral is ready again retries with the next pass. */
  lemma RetriesWhenReady(a: Attempt, rest: seq<Attempt>, i: nat)
    requires !a.canSend && Reach(a.service, a.peripheral).Ok?
    requires i < |a.events| && a.events[i] == ReadyToWrite
    requires forall j :: 0 <= j < i ==> WaitStep(a.service.value, a.events[j]).None?
    ensures WriteWithoutResponse([a] + rest) == WriteWithoutResponse(rest)
  {
    Streams.FirstSomeAt(a.events, (e: PeripheralEvent) => WaitStep(a.service.value, e), i);
    assert ([a] + rest)[1..] == rest;
  }

  /** A pass whose service, peripheral or connection check fails ends the write with that error. */
  lemma CheckFails(a: Attempt, rest: seq<Attempt>)
    requires Reach(a.service, a.peripheral).Err?
    ensures WriteWithoutResponse([a] + rest) == Some(Err(Reach(a.service, a.peripheral).error))
  {
  }

  /**
    * A pass that waits for readiness fails when the first event that ends
    * its wait is a disconnection (with its error) or a services-changed
    * event naming the service (with `ServiceChanged`).
    */
  lemma WaitFails(a: Attempt, rest: seq<Attempt>, i: nat, k: Kind)
    requires !a.canSend && Reach(a.service, a.peripheral).Ok?
    requires i < |a.events| && WaitStep(a.service.value, a.events[i]) == Some(Fail(k))
    requires forall j :: 0 <= j < i ==> WaitStep(a.service.value, a.events[j]).None?
    ensures WriteWithoutResponse([a] + rest) == Some(Err(k))
    ensures a.events[i].Disconnected? ==> k == CbErrorMap.KindOf(a.events[i].error)
    ensures a.events[i].ServicesChanged? ==> k == ServiceChanged && a.service.value in a.events[i].invalidatedServices
  {
    Streams.FirstSomeAt(a.events, (e: PeripheralEvent) => WaitStep(a.service.value, e), i);
  }

  /** A pass whose events never end its wait leaves the write waiting. */
  lemma WaitsWhileUndecided(a: Attempt, rest: seq<Attempt>)
    requires !a.canSend && Reach(a.service, a.peripheral).Ok?
    requires forall j :: 0 <= j < |a.events| ==> WaitStep(a.service.value, a.events[j]).None?
    ensures WriteWithoutResponse([a] + rest).None?
  {
    var w := Streams.FirstSome(a.events, (e: PeripheralEvent) => WaitStep(a.service.value, e));
  }

  /** The completion `notify` waits for: this characteristic's notification-state update. */
  function NotifyOwn(ch: Handle): PeripheralEvent -> Option<Result<(), Kind>> {
    (e: PeripheralEvent) =>
      if e.NotificationStateUpdate? && e.characteristic == ch then Some(Completion(e.result)) else None
  }

  /**
    * `notify`'s set-up: `NotSupported`, before any native call, when the
    * characteristic neither notifies nor indicates; then the checks and the
    * wait for this characteristic's notification-state update.
    */
  function Notify(bits: bv32, ch: Handle, service: Option<Handle>, peripheral: Option<CbTypes.PeripheralState>,
                  es: seq<PeripheralEvent>): (r: Option<Result<(), Kind>>)
    ensures !(FromCb(bits).notify || FromCb(bits).indicate) ==> r == Some(Err(NotSupported))
    ensures (FromCb(bits).notify || FromCb(bits).indicate) && Reach(service, peripheral).Err? ==>
              r == Some(Err(Reach(service, peripheral).error))
    ensures r.Some? && r.value.Ok? ==>
              bits & 0x30 != 0 && peripheral == Some(CbTypes.Connected)
              && exists i :: 0 <= i < |es| && es[i].NotificationStateUpdate? && es[i].characteristic == ch && es[i].result.Ok?
                             && Undecided(service, NotifyOwn(ch), es, i)
    ensures (FromCb(bits).notify || FromCb(bits).indicate) && Reach(service, peripheral).Ok? ==>
              forall i :: 0 <= i < |es| && es[i].NotificationStateUpdate? && es[i].characteristic == ch && es[i].result.Err? && Undecided(service, NotifyOwn(ch), es, i) ==>
                r == Some(Err(CbErrorMap.KindOf(es[i].result.error)))
  {
    var props := FromCb(bits);
    if !(props.notify || props.indicate) then Some(Err(NotSupported))
    else Run(Reach(service, peripheral), service, NotifyOwn(ch), es, Ok(()))
  }

  /** A notification stream item: this characteristic's value updates, a disconnection, or its service changing. */
  function NotifyItem(ch: Handle, service: Handle): PeripheralEvent -> Option<Result<seq<bv8>, Kind>> {
    (e: PeripheralEvent) =>
      match e
      case CharacteristicValueUpdate(c, u) => if c == ch then Some(Completion(u)) else None
      case Disconnected(err) => Some(Err(CbErrorMap.KindOf(err)))
      case ServicesChanged(inv) => if service in inv then Some(Err(ServiceChanged)) else None
      case _ => None
  }

  /** The notification stream for the events received after set-up. */
  function NotifyStream(ch: Handle, service: Handle, es: seq<PeripheralEvent>): seq<Result<seq<bv8>, Kind>> {
    Streams.FilterMap(es, NotifyItem(ch, service))
  }

  /** Whether event `e` puts the error `k` into the notification stream. */
  predicate ErrorFrom(ch: Handle, service: Handle, e: PeripheralEvent, k: Kind) {
    match e
    case CharacteristicValueUpdate(c, u) => c == ch && u.Err? && k == CbErrorMap.KindOf(u.error)
    case Disconnected(err) => k == CbErrorMap.KindOf(err)
    case ServicesChanged(inv) => service in inv && k == ServiceChanged
    case _ => false
  }

  /** The events `NotifyItem` maps to an error are exactly those `ErrorFrom` names. */
  lemma NotifyItemErrors(ch: Handle, service: Handle, e: PeripheralEvent, k: Kind)
    ensures NotifyItem(ch, service)(e) == Some(Err(k)) <==> ErrorFrom(ch, service, e, k)
  {
  }

  /** The stream's errors are exactly those its events put into it. */
  lemma NotifyStreamErrors(ch: Handle, service: Handle, es: seq<PeripheralEvent>)
    ensures forall k :: Err(k) in NotifyStream(ch, service, es) <==>
                          exists i :: 0 <= i < |es| && ErrorFrom(ch, service, es[i], k)
  {
    Streams.FilterMapMembers(es, NotifyItem(ch, service));
    forall k, e: PeripheralEvent {
      NotifyItemErrors(ch, service, e, k);
    }
  }

  /**
    * The stream's values are exactly this characteristic's successful value
    * updates; its errors are exactly those of this characteristic's failed
    * updates, of disconnections, and `ServiceChanged` when its service was
    * named as changed.
    */
  lemma NotifyStreamItems(ch: Handle, service: Handle, es: seq<PeripheralEvent>)
    ensures forall v :: Ok(v) in NotifyStream(ch, service, es) <==>
                          exists i :: 0 <= i < |es| && es[i] == CharacteristicValueUpdate(ch, Ok(v))
    ensures forall k :: Err(k) in NotifyStream(ch, service, es) <==>
                          exists i :: 0 <= i < |es| && ErrorFrom(ch, service, es[i], k)
    ensures forall err :: Disconnected(err) in es ==> Err(CbErrorMap.KindOf(err)) in NotifyStream(ch, service, es)
    ensures forall err :: CharacteristicValueUpdate(ch, Err(err)) in es ==> Err(CbErrorMap.KindOf(err)) in NotifyStream(ch, service, es)
    ensures Err(ServiceChanged) in NotifyStream(ch, service, es) <==>
              exists i :: 0 <= i < |es| && es[i].ServicesChanged? && service in es[i].invalidatedServices
  {
    NotifyStreamValues(ch, service, es);
    NotifyStreamErrors(ch, service, es);
    forall err | Disconnected(err) in es
      ensures Err(CbErrorMap.KindOf(err)) in NotifyStream(ch, service, es)
    {
      var i :| 0 <= i < |es| && es[i] == Disconnected(err);
      assert ErrorFrom(ch, service, es[i], CbErrorMap.KindOf(err));
    }
    forall err | CharacteristicValueUpdate(ch, Err(err)) in es
      ensures Err(CbErrorMap.KindOf(err)) in NotifyStream(ch, service, es)
    {
      var i :| 0 <= i < |es| && es[i] == CharacteristicValueUpdate(ch, Err(err));
      assert ErrorFrom(ch, service, es[i], CbErrorMap.KindOf(err));
    }
    forall e: PeripheralEvent | ErrorFrom(ch, service, e, ServiceChanged)
      ensures e.ServicesChanged? && service in e.invalidatedServices
    {
      if e.Disconnected? {
        CbErrorMap.KindRange(e.error);
      } else if e.CharacteristicValueUpdate? {
        CbErrorMap.KindRange(e.update.error);
      }
    }
  }

  /** The stream's values are exactly this characteristic's successful value updates. */
  lemma NotifyStreamValues(ch: Handle, service: Handle, es: seq<PeripheralEvent>)
    ensures forall v :: Ok(v) in NotifyStream(ch, service, es) <==>
                          exists i :: 0 <= i < |es| && es[i] == CharacteristicValueUpdate(ch, Ok(v))
  {
    Streams.FilterMapMembers(es, NotifyItem(ch, service));
  }

  /** The completion `discover_descriptors` waits for. */
  function DescriptorsOwn(ch: Handle): PeripheralEvent -> Option<Result<(), Kind>> {
    (e: PeripheralEvent) =>
      if e.DiscoveredDescriptors? && e.characteristic == ch then Some(Completion(e.result)) else None
  }

  /** `discover_descriptors`: the checks, the wait for this characteristic's discovery, then the cache. */
  function DiscoverDescriptors(ch: Handle, service: Option<Handle>, peripheral: Option<CbTypes.PeripheralState>,
                               es: seq<PeripheralEvent>, cache: Option<seq<Attribute>>): (r: Option<Result<seq<Attribute>, Kind>>)
    ensures Reach(service, peripheral).Err? ==> r == Some(Err(Reach(service, peripheral).error))
    ensures r.Some? && r.value.Ok? ==>
              cache == Some(r.value.value)
              && exists i :: 0 <= i < |es| && es[i].DiscoveredDescriptors? && es[i].characteristic == ch && es[i].result.Ok?
                             && Undecided(service, DescriptorsOwn(ch), es, i)
    ensures Reach(service, peripheral).Ok? ==> (r.None? <==> Undecided(service, DescriptorsOwn(ch), es, |es|))
    ensures Reach(service, peripheral).Ok? ==>
              forall i :: 0 <= i < |es| && es[i].DiscoveredDescriptors? && es[i].characteristic == ch && es[i].result.Err? && Undecided(service, DescriptorsOwn(ch), es, i) ==>
                r == Some(Err(CbErrorMap.KindOf(es[i].result.error)))
  {
    Run(Reach(service, peripheral), service, DescriptorsOwn(ch), es, Cached(cache))
  }
}

=== FILE: cb_descriptor.dfy ===
/**
  * `src/corebluetooth/descriptor.rs`: a CoreBluetooth descriptor's cached
  * value, read and write. The descriptor's service is its characteristic's
  * service.
  */
module CbDescriptor {
  import opened Wrappers
  import opened Kinds
  import opened CbGatt
  import CbTypes
  import CbErrorMap

  /** `value`: the cached value, `NotReady` until one has been read. */
  function Value(cache: Option<seq<bv8>>): (r: Result<seq<bv8>, Kind>)
    ensures r.Ok? <==> cache.Some?
    ensures r.Ok? ==> r.value == cache.value
    ensures r.Err? ==> r.error == NotReady
  {
    Cached(cache)
  }

  /** The completion `read` waits for: a value update for this descriptor. */
  function ReadOwn(d: Handle): PeripheralEvent -> Option<Result<(), Kind>> {
    (e: PeripheralEvent) =>
      if e.DescriptorValueUpdate? && e.descriptor == d
      then Some(if e.update.Ok? then Ok(()) else Err(CbErrorMap.KindOf(e.update.error)))
      else None
  }

  /**
    * `read`: `NotFound` without characteristic, service or peripheral,
    * `NotConnected` unless connected; then this descriptor's first value
    * update, unless interrupted first, and the cached value.
    */
  function Read(d: Handle, service: Option<Handle>, peripheral: Option<CbTypes.PeripheralState>,
                es: seq<PeripheralEvent>, cache: Option<seq<bv8>>): (r: Option<Result<seq<bv8>, Kind>>)
    ensures Reach(service, peripheral).Err? ==> r == Some(Err(Reach(service, peripheral).error))
    ensures r.Some? && r.value.Ok? ==>
              peripheral == Some(CbTypes.Connected) && cache == Some(r.value.value)
              && exists i :: 0 <= i < |es| && es[i].DescriptorValueUpdate? && es[i].descriptor == d && es[i].update.Ok?
                             && Undecided(service, ReadOwn(d), es, i)
    ensures Reach(service, peripheral).Ok? ==> (r.None? <==> Undecided(service, ReadOwn(d), es, |es|))
    ensures Reach(service, peripheral).Ok? ==>
              forall i :: 0 <= i < |es| && es[i].DescriptorValueUpdate? && es[i].descriptor == d && es[i].update.Err? && Undecided(service, ReadOwn(d), es, i) ==>
                r == Some(Err(CbErrorMap.KindOf(es[i].update.error)))
  {
    Run(Reach(service, peripheral), service, ReadOwn(d), es, Value(cache))
  }

  /** A value read before the update arrived is `NotReady` even after a successful read. */
  lemma ReadWithoutValue(d: Handle, service: Handle, es: seq<PeripheralEvent>, i: nat)
    requires i < |es| && es[i].DescriptorValueUpdate? && es[i].descriptor == d && es[i].update.Ok?
    requires Undecided(Some(service), ReadOwn(d), es, i)
    ensures Read(d, Some(service), Some(CbTypes.Connected), es, None) == Some(Err(NotReady))
  {
  }

  /** The completion `write` waits for: the write completion for this descriptor. */
  function WriteOwn(d: Handle): PeripheralEvent -> Option<Result<(), Kind>> {
    (e: PeripheralEvent) =>
      if e.DescriptorValueWrite? && e.descriptor == d then Some(Completion(e.result)) else None
  }

  /** `write`: the result of this descriptor's first write completion, unless interrupted first. */
  function Write(d: Handle, service: Option<Handle>, peripheral: Option<CbTypes.PeripheralState>,
                 es: seq<PeripheralEvent>): (r: Option<Result<(), Kind>>)
    ensures Reach(service, peripheral).Err? ==> r == Some(Err(Reach(service, peripheral).error))
    ensures r.Some? && r.value.Ok? ==>
              exists i :: 0 <= i < |es| && es[i].DescriptorValueWrite? && es[i].descriptor == d && es[i].result.Ok?
                          && Undecided(service, WriteOwn(d), es, i)
    ensures Reach(service, peripheral).Ok? ==> (r.None? <==> Undecided(service, WriteOwn(d), es, |es|))
    ensures Reach(service, peripheral).Ok? ==>
              forall i :: 0 <= i < |es| && es[i].DescriptorValueWrite? && es[i].descriptor == d && es[i].result.Err? && Undecided(service, WriteOwn(d), es, i) ==>
                r == Some(Err(CbErrorMap.KindOf(es[i].result.error)))
  {
    Run(Reach(service, peripheral), service, WriteOwn(d), es, Ok(()))
  }

  /** A disconnection before the write completes fails the write with the disconnection's error. */
  lemma WriteDisconnected(d: Handle, service: Handle, es: seq<PeripheralEvent>, i: nat)
    requires i < |es| && es[i].Disconnected? && Undecided(Some(service), WriteOwn(d), es, i)
    ensures Write(d, Some(service), Some(CbTypes.Connected), es) == Some(Err(CbErrorMap.KindOf(es[i].error)))
  {
    Interrupted(Ok(()), Some(service), WriteOwn(d), es, Ok(()), i);
  }
}

=== FILE: cb_device.dfy ===
/**
  * `src/corebluetooth/device.rs`: service discovery on a CoreBluetooth
  * peripheral, the cached service list, signal strength, the pairing stubs
  * and services-changed membership.
  */
module CbDevice {
  import opened Wrappers
  import opened Ints
  import opened Kinds
  import opened CbGatt
  import CbTypes
  import CbErrorMap
  import Uuids
  import Streams

  /** The completion `discover_services` waits for. */
  function DiscoverOwn(e: PeripheralEvent): Option<Result<(), Kind>> {
    match e
    case DiscoveredServices(r) => Some(Completion(r))
    case _ => None
  }

  /**
    * `discover_services_inner`: `NotConnected`, without a native call,
    * unless the peripheral is connected; then the first `DiscoveredServices`
    * (its error, or the now cached services) or `Disconnected` (its error)
    * decides. A device-wide discovery has no service, so a services-changed
    * event never ends it.
    */
  function DiscoverServices(state: CbTypes.PeripheralState, es: seq<PeripheralEvent>, cache: Option<seq<Attribute>>)
    : (r: Option<Result<seq<Attribute>, Kind>>)
    ensures state != CbTypes.Connected ==> r == Some(Err(NotConnected))
    ensures r.Some? && r.value.Ok? ==>
              state == CbTypes.Connected && cache == Some(r.value.value)
              && exists i :: 0 <= i < |es| && es[i].DiscoveredServices? && es[i].result.Ok? && Undecided(None, DiscoverOwn, es, i)
    ensures state == CbTypes.Connected ==> (r.None? <==> Undecided(None, DiscoverOwn, es, |es|))
    ensures state == CbTypes.Connected ==>
              forall i :: 0 <= i < |es| && es[i].DiscoveredServices? && es[i].result.Err? && Undecided(None, DiscoverOwn, es, i) ==>
                r == Some(Err(CbErrorMap.KindOf(es[i].result.error)))
  {
    var start := if state == CbTypes.Connected then Ok(()) else Err(NotConnected);
    Run(start, None, DiscoverOwn, es, Cached(cache))
  }

  /** A services-changed event never ends a device-wide discovery. */
  lemma DiscoverIgnoresServicesChanged(state: CbTypes.PeripheralState, a: seq<PeripheralEvent>, invalidated: seq<Handle>,
                                       b: seq<PeripheralEvent>, cache: Option<seq<Attribute>>)
    ensures DiscoverServices(state, a + [ServicesChanged(invalidated)] + b, cache) == DiscoverServices(state, a + b, cache)
  {
    AwaitSkips(None, DiscoverOwn, a, ServicesChanged(invalidated), b);
  }

  /** `discover_services_with_uuid`: the discovered services whose UUID is `uuid`. */
  function DiscoverServicesWithUuid(uuid: Uuids.Uuid, state: CbTypes.PeripheralState, es: seq<PeripheralEvent>,
                                    cache: Option<seq<Attribute>>): (r: Option<Result<seq<Attribute>, Kind>>)
    ensures r.None? <==> DiscoverServices(state, es, cache).None?
    ensures r.Some? && r.value.Err? ==> r == DiscoverServices(state, es, cache)
    ensures r.Some? && r.value.Ok? ==>
              DiscoverServices(state, es, cache).Some? && DiscoverServices(state, es, cache).value.Ok?
              && forall s :: s in r.value.value <==> s in DiscoverServices(state, es, cache).value.value && s.uuid == uuid
  {
    WithUuid(uuid, DiscoverServices(state, es, cache))
  }

  /** `services`: the cached list when there is one, with no discovery; otherwise a discovery. */
  function Services(cached: Option<seq<Attribute>>, state: CbTypes.PeripheralState, es: seq<PeripheralEvent>,
                    cacheAfter: Option<seq<Attribute>>): (r: Option<Result<seq<Attribute>, Kind>>)
    ensures cached.Some? ==> r == Some(Ok(cached.value))
    ensures cached.None? ==> r == DiscoverServices(state, es, cacheAfter)
  {
    CachedOrDiscover(cached, DiscoverServices(state, es, cacheAfter))
  }

  /** `rssi`'s loop: a `ReadRssi` event or a receive failure decides; a disconnection does not. */
  function RssiStep(e: PeripheralEvent): Option<Result<I16, Kind>> {
    match e
    case ReadRssi(r) => Some(Completion(r))
    case ReceiveFailed => Some(Err(CbErrorMap.RecvErrorKind))
    case _ => None
  }

  /** The events `rssi`'s loop acts on. */
  predicate RssiDecisive(e: PeripheralEvent) {
    e.ReadRssi? || e.ReceiveFailed?
  }

  /**
    * `rssi`: no connection check; the first `ReadRssi` gives its reading or
    * its error, and a receive failure that comes first is the receive error.
    */
  function Rssi(es: seq<PeripheralEvent>): (r: Option<Result<I16, Kind>>)
    ensures r.None? <==> forall i :: 0 <= i < |es| ==> !RssiDecisive(es[i])
    ensures r.Some? && r.value.Ok? ==> exists i :: 0 <= i < |es| && es[i] == ReadRssi(Ok(r.value.value))
    ensures forall i :: 0 <= i < |es| && RssiDecisive(es[i]) && (forall j :: 0 <= j < i ==> !RssiDecisive(es[j])) ==>
              r == if es[i].ReadRssi? then Some(Completion(es[i].rssi)) else Some(Err(CbErrorMap.RecvErrorKind))
  {
    assert forall e :: RssiStep(e).None? <==> !RssiDecisive(e);
    RssiFirst(es);
    Streams.FirstSome(es, RssiStep)
  }

  /** The first decisive event's step is the loop's verdict. */
  lemma RssiFirst(es: seq<PeripheralEvent>)
    ensures forall i :: 0 <= i < |es| && RssiDecisive(es[i]) && (forall j :: 0 <= j < i ==> !RssiDecisive(es[j])) ==>
              Streams.FirstSome(es, RssiStep) == RssiStep(es[i])
  {
    forall i | 0 <= i < |es| && RssiDecisive(es[i]) && (forall j :: 0 <= j < i ==> !RssiDecisive(es[j]))
      ensures Streams.FirstSome(es, RssiStep) == RssiStep(es[i])
    {
      Streams.FirstSomeAt(es, RssiStep, i);
    }
  }

  /** A disconnection or any other event does not end `rssi`'s wait. */
  lemma RssiIgnores(a: seq<PeripheralEvent>, e: PeripheralEvent, b: seq<PeripheralEvent>)
    requires !RssiDecisive(e)
    ensures Rssi(a + [e] + b) == Rssi(a + b)
  {
    Streams.FirstSomeAppend(a + [e], b, RssiStep);
    Streams.FirstSomeAppend(a, [e], RssiStep);
    Streams.FirstSomeAppend(a, b, RssiStep);
    assert Streams.FirstSome([e], RssiStep) == None by {
      assert [e][1..] == [];
    }
  }

  /** `is_paired`: not supported by CoreBluetooth. */
  function IsPaired(): (r: Result<bool, Kind>)
    ensures r.Err? && r.error == NotSupported
  {
    Err(NotSupported)
  }

  /** `unpair`: not supported by CoreBluetooth. */
  function Unpair(): (r: Result<(), Kind>)
    ensures r.Err? && r.error == NotSupported
  {
    Err(NotSupported)
  }

  /** `pair` and `pair_with_agent`: the system pairs on demand, so these succeed without doing anything. */
  function Pair(): (r: Result<(), Kind>)
    ensures r.Ok?
  {
    Ok(())
  }

  /** `ServicesChangedImpl::was_invalidated`: whether the service's handle is among the invalidated ones. */
  function WasInvalidated(invalidated: seq<Handle>, s: Attribute): (b: bool)
    ensures b <==> exists i :: 0 <= i < |invalidated| && invalidated[i] == s.handle
  {
    s.handle in invalidated
  }
}

=== FILE: cb_error.dfy ===
/**
  * `src/corebluetooth/error.rs`: how errors of the CoreBluetooth binding
  * become the library's error kinds.
  */
module CbErrorMap {
  import opened Ints
  import opened Kinds
  import CbTypes

  /**
    * The binding's Bluetooth error code: one of the codes `CbTypes.CbError`
    * lists, or a later code the binding knows but this library does not name.
    */
  datatype BluetoothCode = Listed(e: CbTypes.CbError) | Unlisted(raw: int)

  /** The binding's error kind: a Bluetooth code, an ATT code (a signed native integer), or anything else. */
  datatype NativeKind = Bluetooth(code: BluetoothCode) | Att(attCode: int) | NativeOther

  /** The `From` conversion to the library's error kind. */
  function KindOf(n: NativeKind): Kind {
    match n
    case Bluetooth(Listed(e)) =>
      (match e
       case OperationNotSupported => NotSupported
       case NotConnected | PeripheralDisconnected => NotConnected
       case ConnectionTimeout | EncryptionTimedOut => Timeout
       case InvalidParameters | InvalidHandle | UuidNotAllowed | UnkownDevice => InvalidParameter
       case ConnectionFailed | PeerRemovedPairingInformation | ConnectionLimitReached | TooManyLEPairedDevices => ConnectionFailed
       case Unknown | OutOfSpace | OperationCancelled | AlreadyAdvertising => Other)
    case Bluetooth(Unlisted(_)) => Other
    case Att(code) => if FitsU8(code) then Protocol(code) else Other
    case NativeOther => Other
  }

  /** A failure to receive a delegate event (`async_broadcast::RecvError`). */
  const RecvErrorKind: Kind := Internal

  /** Which Bluetooth codes end up as which kind, in both directions. */
  lemma BluetoothCodeClasses(e: CbTypes.CbError)
    ensures KindOf(Bluetooth(Listed(e))) == NotSupported <==> e.OperationNotSupported?
    ensures KindOf(Bluetooth(Listed(e))) == NotConnected <==> e.NotConnected? || e.PeripheralDisconnected?
    ensures KindOf(Bluetooth(Listed(e))) == Timeout <==> e.ConnectionTimeout? || e.EncryptionTimedOut?
    ensures KindOf(Bluetooth(Listed(e))) == InvalidParameter
      <==> e.InvalidParameters? || e.InvalidHandle? || e.UuidNotAllowed? || e.UnkownDevice?
    ensures KindOf(Bluetooth(Listed(e))) == ConnectionFailed
      <==> e.ConnectionFailed? || e.PeerRemovedPairingInformation? || e.ConnectionLimitReached? || e.TooManyLEPairedDevices?
    ensures KindOf(Bluetooth(Listed(e))) == Other
      <==> e.Unknown? || e.OutOfSpace? || e.OperationCancelled? || e.AlreadyAdvertising?
  {
  }

  /**
    * An ATT code keeps its value exactly when it fits in an octet; only ATT
    * codes become `Protocol`; unlisted Bluetooth codes and other native kinds
    * become `Other`.
    */
  lemma AttCodes(n: NativeKind)
    ensures KindOf(n).Protocol? <==> n.Att? && FitsU8(n.attCode)
    ensures KindOf(n).Protocol? ==> KindOf(n).att == n.attCode
    ensures n.Att? && !FitsU8(n.attCode) ==> KindOf(n) == Other
    ensures n.NativeOther? || (n.Bluetooth? && n.code.Unlisted?) ==> KindOf(n) == Other
  {
  }

  /** The conversion only ever yields these six kinds (plus `Internal` for receive errors). */
  lemma KindRange(n: NativeKind)
    ensures KindOf(n) in {NotSupported, NotConnected, Timeout, InvalidParameter, ConnectionFailed, Other} || KindOf(n).Protocol?
  {
  }
}

=== FILE: cb_gatt.dfy ===
/**
  * The peripheral-delegate events as the GATT operation files of
  * `src/corebluetooth` match them (a `result` per completion, a
  * `Disconnected` event), and the loop they all share: issue one native
  * call, then wait for the first event the operation decides on.
  */
module CbGatt {
  import opened Wrappers
  import opened Ints
  import opened Kinds
  import CbTypes
  import CbErrorMap
  import Streams
  import Uuids

  /** Identity of a native GATT object (service, characteristic or descriptor). */
  type Handle = nat

  /** A discovered service, characteristic or descriptor: its native handle and its UUID. */
  datatype Attribute = Attribute(handle: Handle, uuid: Uuids.Uuid)

  datatype PeripheralEvent =
    | DiscoveredServices(result: Result<(), CbErrorMap.NativeKind>)
    | DiscoveredIncludedServices(service: Handle, result: Result<(), CbErrorMap.NativeKind>)
    | DiscoveredCharacteristics(service: Handle, result: Result<(), CbErrorMap.NativeKind>)
    | DiscoveredDescriptors(characteristic: Handle, result: Result<(), CbErrorMap.NativeKind>)
    | CharacteristicValueUpdate(characteristic: Handle, update: Result<seq<bv8>, CbErrorMap.NativeKind>)
    | DescriptorValueUpdate(descriptor: Handle, update: Result<seq<bv8>, CbErrorMap.NativeKind>)
    | CharacteristicValueWrite(characteristic: Handle, result: Result<(), CbErrorMap.NativeKind>)
    | DescriptorValueWrite(descriptor: Handle, result: Result<(), CbErrorMap.NativeKind>)
    | ReadyToWrite
    | NotificationStateUpdate(characteristic: Handle, result: Result<(), CbErrorMap.NativeKind>)
    | ReadRssi(rssi: Result<I16, CbErrorMap.NativeKind>)
    | NameUpdate
    | ServicesChanged(invalidatedServices: seq<Handle>)
    | Disconnected(error: CbErrorMap.NativeKind)
      /** `recv()` failed: the broadcast receiver lagged or its channel closed. */
    | ReceiveFailed

  /**
    * The checks before a GATT operation's native call: the owning service
    * and its peripheral must exist (`NotFound`), and the peripheral must be
    * connected (`NotConnected`). `Ok` means the call is made.
    */
  function Reach(service: Option<Handle>, peripheral: Option<CbTypes.PeripheralState>): (r: Result<(), Kind>)
    ensures r.Ok? <==> service.Some? && peripheral == Some(CbTypes.Connected)
    ensures r.Err? ==> r.error == if service.None? || peripheral.None? then NotFound else NotConnected
  {
    if service.None? || peripheral.None? then Err(NotFound)
    else if peripheral.value != CbTypes.Connected then Err(NotConnected)
    else Ok(())
  }

  /** A native completion converted with `?`: the error keeps its kind. */
  function Completion<T>(r: Result<T, CbErrorMap.NativeKind>): (k: Result<T, Kind>)
    ensures k.Ok? <==> r.Ok?
    ensures k.Ok? ==> k.value == r.value
    ensures k.Err? ==> k.error == CbErrorMap.KindOf(r.error)
  {
    match r
    case Ok(v) => Ok(v)
    case Err(e) => Err(CbErrorMap.KindOf(e))
  }

  /**
    * The events that end every loop whatever it waits for: a disconnection
    * (its error), a services-changed event naming the operation's service
    * (`ServiceChanged`) and a receive failure (`recv()?`).
    */
  function Interrupt(service: Option<Handle>, e: PeripheralEvent): Option<Kind> {
    match e
    case Disconnected(err) => Some(CbErrorMap.KindOf(err))
    case ServicesChanged(inv) => if service.Some? && service.value in inv then Some(ServiceChanged) else None
    case ReceiveFailed => Some(CbErrorMap.RecvErrorKind)
    case _ => None
  }

  /** One event's verdict: the operation's own completion first, then the interruptions. */
  function Step<T>(service: Option<Handle>, own: PeripheralEvent -> Option<Result<T, Kind>>, e: PeripheralEvent)
    : Option<Result<T, Kind>>
  {
    if own(e).Some? then own(e)
    else match Interrupt(service, e)
      case Some(k) => Some(Err(k))
      case None => None
  }

  /** Interruptions only ever fail, so a successful step is an own completion. */
  lemma StepSucceeds<T>(service: Option<Handle>, own: PeripheralEvent -> Option<Result<T, Kind>>, e: PeripheralEvent)
    requires Step(service, own, e).Some? && Step(service, own, e).value.Ok?
    ensures own(e) == Step(service, own, e)
  {
  }

  predicate Decisive<T>(service: Option<Handle>, own: PeripheralEvent -> Option<Result<T, Kind>>, e: PeripheralEvent) {
    own(e).Some? || Interrupt(service, e).Some?
  }

  /** Whether no event before index `i` is decisive for the loop. */
  predicate Undecided<T>(service: Option<Handle>, own: PeripheralEvent -> Option<Result<T, Kind>>, es: seq<PeripheralEvent>, i: nat)
    requires i <= |es|
  {
    forall j :: 0 <= j < i ==> !Decisive(service, own, es[j])
  }

  /** The loop's verdict on the events received so far; `None` while it is still waiting. */
  function Await<T(==)>(service: Option<Handle>, own: PeripheralEvent -> Option<Result<T, Kind>>, es: seq<PeripheralEvent>)
    : Option<Result<T, Kind>>
  {
    Streams.FirstSome(es, (e: PeripheralEvent) => Step(service, own, e))
  }

  /**
    * The loop keeps waiting exactly while no decisive event has arrived, and
    * its verdict is the one of the first decisive event.
    */
  lemma AwaitFirst<T>(service: Option<Handle>, own: PeripheralEvent -> Option<Result<T, Kind>>, es: seq<PeripheralEvent>)
    ensures Await(service, own, es).None? <==> Undecided(service, own, es, |es|)
    ensures Await(service, own, es).Some? ==>
              exists i :: 0 <= i < |es| && Decisive(service, own, es[i]) && Undecided(service, own, es, i)
                          && Await(service, own, es) == Step(service, own, es[i])
  {
    var f := (e: PeripheralEvent) => Step(service, own, e);
    assert forall e :: f(e).Some? <==> Decisive(service, own, e);
  }

  /** The first decisive event fixes the verdict. */
  lemma AwaitAt<T>(service: Option<Handle>, own: PeripheralEvent -> Option<Result<T, Kind>>, es: seq<PeripheralEvent>, i: nat)
    requires i < |es| && Decisive(service, own, es[i]) && Undecided(service, own, es, i)
    ensures Await(service, own, es) == Step(service, own, es[i])
  {
    Streams.FirstSomeAt(es, (e: PeripheralEvent) => Step(service, own, e), i);
  }

  /** A skipped event can be removed from anywhere without changing the verdict. */
  lemma AwaitSkips<T>(service: Option<Handle>, own: PeripheralEvent -> Option<Result<T, Kind>>,
                          a: seq<PeripheralEvent>, e: PeripheralEvent, b: seq<PeripheralEvent>)
    requires !Decisive(service, own, e)
    ensures Await(service, own, a + [e] + b) == Await(service, own, a + b)
  {
    var f := (e: PeripheralEvent) => Step(service, own, e);
    Streams.FirstSomeAppend(a + [e], b, f);
    Streams.FirstSomeAppend(a, [e], f);
    Streams.FirstSomeAppend(a, b, f);
    assert Streams.FirstSome([e], f) == None by {
      assert [e][1..] == [];
    }
  }

  /**
    * The loop succeeds with `v` exactly when its first decisive event is an
    * own completion carrying `v`.
    */
  lemma AwaitSucceeds<T>(service: Option<Handle>, own: PeripheralEvent -> Option<Result<T, Kind>>, es: seq<PeripheralEvent>, v: T)
    ensures Await(service, own, es) == Some(Ok(v))
            <==> exists i :: 0 <= i < |es| && own(es[i]) == Some(Ok(v)) && Undecided(service, own, es, i)
  {
    AwaitFirst(service, own, es);
    if i :| 0 <= i < |es| && own(es[i]) == Some(Ok(v)) && Undecided(service, own, es, i) {
      AwaitAt(service, own, es, i);
    }
  }

  /** The loop fails with the error of its own failed completion when that completion is the first decisive event. */
  lemma AwaitFails<T>(service: Option<Handle>, own: PeripheralEvent -> Option<Result<T, Kind>>, es: seq<PeripheralEvent>)
    ensures forall i :: 0 <= i < |es| && own(es[i]).Some? && own(es[i]).value.Err? && Undecided(service, own, es, i) ==>
              Await(service, own, es) == Some(Err(own(es[i]).value.error))
  {
    forall i | 0 <= i < |es| && own(es[i]).Some? && own(es[i]).value.Err? && Undecided(service, own, es, i)
      ensures Await(service, own, es) == Some(Err(own(es[i]).value.error))
    {
      AwaitAt(service, own, es, i);
    }
  }

  /** A cached list or value, `NotReady` until something has been discovered or read. */
  function Cached<T>(cache: Option<T>): (r: Result<T, Kind>)
    ensures r.Ok? <==> cache.Some?
    ensures r.Ok? ==> r.value == cache.value
    ensures r.Err? ==> r.error == NotReady
  {
    match cache
    case Some(v) => Ok(v)
    case None => Err(NotReady)
  }

  /**
    * A whole operation: the checks (`start`), the loop, and on success the
    * operation's `answer` (often a cache read after the completion).
    * `None` while the loop is still waiting.
    */
  function Run<T(==)>(start: Result<(), Kind>, service: Option<Handle>, own: PeripheralEvent -> Option<Result<(), Kind>>,
                      es: seq<PeripheralEvent>, answer: Result<T, Kind>): (r: Option<Result<T, Kind>>)
    ensures start.Err? ==> r == Some(Err(start.error))
    ensures start.Ok? ==> (r.None? <==> Undecided(service, own, es, |es|))
    ensures start.Ok? && (exists i :: 0 <= i < |es| && own(es[i]) == Some(Ok(())) && Undecided(service, own, es, i))
            ==> r == Some(answer)
    ensures r.Some? && r.value.Ok? ==>
              start.Ok? && r == Some(answer)
              && exists i :: 0 <= i < |es| && own(es[i]) == Some(Ok(())) && Undecided(service, own, es, i)
    ensures start.Ok? ==>
              forall i :: 0 <= i < |es| && own(es[i]).Some? && own(es[i]).value.Err? && Undecided(service, own, es, i) ==>
                r == Some(Err(own(es[i]).value.error))
  {
    match start
    case Err(k) => Some(Err(k))
    case Ok(_) =>
      AwaitFirst(service, own, es);
      AwaitSucceeds(service, own, es, ());
      AwaitFails(service, own, es);
      match Await(service, own, es)
      case None => None
      case Some(Err(k)) => Some(Err(k))
      case Some(Ok(u)) =>
        assert u == ();
        var i :| 0 <= i < |es| && Decisive(service, own, es[i]) && Undecided(service, own, es, i)
                 && Await(service, own, es) == Step(service, own, es[i]);
        StepSucceeds(service, own, es[i]);
        Some(answer)
  }

  /** Which interruption ends a loop, given that it is the first decisive event. */
  lemma Interrupted<T>(start: Result<(), Kind>, service: Option<Handle>, own: PeripheralEvent -> Option<Result<(), Kind>>,
                           es: seq<PeripheralEvent>, answer: Result<T, Kind>, i: nat)
    requires start.Ok? && i < |es| && own(es[i]).None? && Interrupt(service, es[i]).Some? && Undecided(service, own, es, i)
    ensures Run(start, service, own, es, answer) == Some(Err(Interrupt(service, es[i]).value))
  {
    AwaitAt(service, own, es, i);
  }

  /** The `services`/`characteristics`/`descriptors` accessors: the cache when present, without discovery; otherwise `discovery`. */
  function CachedOrDiscover(cached: Option<seq<Attribute>>, discovery: Option<Result<seq<Attribute>, Kind>>)
    : (r: Option<Result<seq<Attribute>, Kind>>)
    ensures cached.Some? ==> r == Some(Ok(cached.value))
    ensures cached.None? ==> r == discovery
  {
    match Cached(cached)
    case Ok(attributes) => Some(Ok(attributes))
    case Err(_) => discovery
  }

  /** The `_with_uuid` variants: the discovered attributes whose UUID is `uuid`, errors and waiting unchanged. */
  function WithUuid(uuid: Uuids.Uuid, r: Option<Result<seq<Attribute>, Kind>>): (r': Option<Result<seq<Attribute>, Kind>>)
    ensures r'.None? <==> r.None?
    ensures r.Some? && r.value.Err? ==> r' == r
    ensures r.Some? && r.value.Ok? ==>
              r'.Some? && r'.value.Ok? && forall a :: a in r'.value.value <==> a in r.value.value && a.uuid == uuid
  {
    match r
    case Some(Ok(attributes)) => Some(Ok(Streams.Filter(attributes, (a: Attribute) => a.uuid == uuid)))
    case _ => r
  }
}

=== FILE: cb_service.dfy ===
/**
  * `src/corebluetooth/service.rs`: characteristic and included-service
  * discovery on a CoreBluetooth service, the `_with_uuid` filters and the
  * cache-or-discover accessors.
  */
module CbService {
  import opened Wrappers
  import opened Kinds
  import opened CbGatt
  import CbTypes
  import CbErrorMap

  /** The completion `discover_characteristics` waits for: the one for this service. */
  function CharacteristicsOwn(service: Handle): PeripheralEvent -> Option<Result<(), Kind>> {
    (e: PeripheralEvent) =>
      if e.DiscoveredCharacteristics? && e.service == service then Some(Completion(e.result)) else None
  }

  /** The completion `discover_included_services` waits for: the one for this service. */
  function IncludedOwn(service: Handle): PeripheralEvent -> Option<Result<(), Kind>> {
    (e: PeripheralEvent) =>
      if e.DiscoveredIncludedServices? && e.service == service then Some(Completion(e.result)) else None
  }

  /**
    * `discover_characteristics_inner`: `NotFound` without a peripheral,
    * `NotConnected` unless connected (no native call in either case); then
    * the first of this service's `DiscoveredCharacteristics`, a
    * disconnection, or a services-changed event naming this service
    * (`ServiceChanged`) decides; success answers with the cache.
    */
  function DiscoverCharacteristics(service: Handle, peripheral: Option<CbTypes.PeripheralState>,
                                   es: seq<PeripheralEvent>, cache: Option<seq<Attribute>>)
    : (r: Option<Result<seq<Attribute>, Kind>>)
    ensures peripheral != Some(CbTypes.Connected) ==>
              r == Some(Err(if peripheral.None? then NotFound else NotConnected))
    ensures r.Some? && r.value.Ok? ==>
              peripheral == Some(CbTypes.Connected) && cache == Some(r.value.value)
              && exists i :: 0 <= i < |es| && es[i].DiscoveredCharacteristics? && es[i].service == service && es[i].result.Ok?
                             && Undecided(Some(service), CharacteristicsOwn(service), es, i)
    ensures peripheral == Some(CbTypes.Connected) ==>
              (r.None? <==> Undecided(Some(service), CharacteristicsOwn(service), es, |es|))
    ensures peripheral == Some(CbTypes.Connected) ==>
              forall i :: 0 <= i < |es| && es[i].DiscoveredCharacteristics? && es[i].service == service && es[i].result.Err? && Undecided(Some(service), CharacteristicsOwn(service), es, i) ==>
                r == Some(Err(CbErrorMap.KindOf(es[i].result.error)))
  {
    Run(Reach(Some(service), peripheral), Some(service), CharacteristicsOwn(service), es, Cached(cache))
  }

  /** A services-changed event naming this service, arriving first, fails the discovery with `ServiceChanged`. */
  lemma CharacteristicsServiceChanged(service: Handle, es: seq<PeripheralEvent>, cache: Option<seq<Attribute>>, i: nat)
    requires i < |es| && es[i].ServicesChanged? && service in es[i].invalidatedServices
    requires Undecided(Some(service), CharacteristicsOwn(service), es, i)
    ensures DiscoverCharacteristics(service, Some(CbTypes.Connected), es, cache) == Some(Err(ServiceChanged))
  {
    Interrupted(Reach(Some(service), Some(CbTypes.Connected)), Some(service), CharacteristicsOwn(service), es, Cached(cache), i);
  }

  /** Discovery completions for other services are not this loop's business. */
  lemma CharacteristicsIgnoreOthers(service: Handle, other: Handle, result: Result<(), CbErrorMap.NativeKind>,
                                    a: seq<PeripheralEvent>, b: seq<PeripheralEvent>, peripheral: Option<CbTypes.PeripheralState>,
                                    cache: Option<seq<Attribute>>)
    requires other != service
    ensures DiscoverCharacteristics(service, peripheral, a + [DiscoveredCharacteristics(other, result)] + b, cache)
            == DiscoverCharacteristics(service, peripheral, a + b, cache)
  {
    AwaitSkips(Some(service), CharacteristicsOwn(service), a, DiscoveredCharacteristics(other, result), b);
  }

  /** `discover_included_services_inner`: the same shape, waiting for this service's `DiscoveredIncludedServices`. */
  function DiscoverIncludedServices(service: Handle, peripheral: Option<CbTypes.PeripheralState>,
                                    es: seq<PeripheralEvent>, cache: Option<seq<Attribute>>)
    : (r: Option<Result<seq<Attribute>, Kind>>)
    ensures peripheral != Some(CbTypes.Connected) ==>
              r == Some(Err(if peripheral.None? then NotFound else NotConnected))
    ensures r.Some? && r.value.Ok? ==>
              peripheral == Some(CbTypes.Connected) && cache == Some(r.value.value)
              && exists i :: 0 <= i < |es| && es[i].DiscoveredIncludedServices? && es[i].service == service && es[i].result.Ok?
                             && Undecided(Some(service), IncludedOwn(service), es, i)
    ensures peripheral == Some(CbTypes.Connected) ==>
              (r.None? <==> Undecided(Some(service), IncludedOwn(service), es, |es|))
    ensures peripheral == Some(CbTypes.Connected) ==>
              forall i :: 0 <= i < |es| && es[i].DiscoveredIncludedServices? && es[i].service == service && es[i].result.Err? && Undecided(Some(service), IncludedOwn(service), es, i) ==>
                r == Some(Err(CbErrorMap.KindOf(es[i].result.error)))
  {
    Run(Reach(Some(service), peripheral), Some(service), IncludedOwn(service), es, Cached(cache))
  }
}

=== FILE: cb_types.dfy ===
/**
  * `src/corebluetooth/types.rs`: decoding of the integers CoreBluetooth
  * reports for manager and peripheral state and for `CBError`, the
  * conversion of an `NSError` into the library's `Error`, and the bridging
  * of UUIDs through `CBUUID`'s data.
  */
module CbTypes {
  import Wrappers
  import Errors
  import Uuids
  import BtUuid

  datatype ManagerState = Unknown | Resetting | Unsupported | Unauthorized | PoweredOff | PoweredOn

  /** The raw value of each manager state. */
  function ManagerStateCode(s: ManagerState): int {
    match s
    case Unknown => 0
    case Resetting => 1
    case Unsupported => 2
    case Unauthorized => 3
    case PoweredOff => 4
    case PoweredOn => 5
  }

  /** `CBCentralManager::state`: 0..5 in order, anything else `Unknown`. */
  function DecodeManagerState(n: int): ManagerState {
    match n
    case 1 => Resetting
    case 2 => Unsupported
    case 3 => Unauthorized
    case 4 => PoweredOff
    case 5 => PoweredOn
    case _ => ManagerState.Unknown
  }

  /** Decoding inverts the raw values, and every value outside 0..5 reads as `Unknown`. */
  lemma ManagerStateDecoding(s: ManagerState, n: int)
    ensures DecodeManagerState(ManagerStateCode(s)) == s
    ensures !(0 <= n <= 5) ==> DecodeManagerState(n) == ManagerState.Unknown
    ensures DecodeManagerState(n) != ManagerState.Unknown ==> ManagerStateCode(DecodeManagerState(n)) == n
  {
  }

  datatype PeripheralState = Disconnected | Connecting | Connected | Disconnecting

  /** The raw value of each peripheral state. */
  function PeripheralStateCode(s: PeripheralState): int {
    match s
    case Disconnected => 0
    case Connecting => 1
    case Connected => 2
    case Disconnecting => 3
  }

  /** `CBPeripheral::state`: 0..3 in order; any other value panics. */
  function DecodePeripheralState(n: int): (s: PeripheralState)
    requires 0 <= n <= 3
    ensures PeripheralStateCode(s) == n
  {
    if n == 0 then Disconnected else if n == 1 then Connecting else if n == 2 then Connected else Disconnecting
  }

  /** Every peripheral state decodes from its raw value. */
  lemma PeripheralStateDecoding(s: PeripheralState)
    ensures DecodePeripheralState(PeripheralStateCode(s)) == s
  {
  }

  datatype CbError =
    | Unknown
    | InvalidParameters
    | InvalidHandle
    | NotConnected
    | OutOfSpace
    | OperationCancelled
    | ConnectionTimeout
    | PeripheralDisconnected
    | UuidNotAllowed
    | AlreadyAdvertising
    | ConnectionFailed
    | ConnectionLimitReached
    | UnkownDevice
    | OperationNotSupported
    | PeerRemovedPairingInformation
    | EncryptionTimedOut
    | TooManyLEPairedDevices

  /** The codes 0..16 of `CBError`, in order. */
  const CbErrors: seq<CbError> := [
    CbError.Unknown, CbError.InvalidParameters, CbError.InvalidHandle, CbError.NotConnected,
    CbError.OutOfSpace, CbError.OperationCancelled, CbError.ConnectionTimeout,
    CbError.PeripheralDisconnected, CbError.UuidNotAllowed, CbError.AlreadyAdvertising,
    CbError.ConnectionFailed, CbError.ConnectionLimitReached, CbError.UnkownDevice,
    CbError.OperationNotSupported, CbError.PeerRemovedPairingInformation,
    CbError.EncryptionTimedOut, CbError.TooManyLEPairedDevices]

  /** The raw code of each `CBError`. */
  function CbErrorCode(e: CbError): int {
    match e
    case Unknown => 0
    case InvalidParameters => 1
    case InvalidHandle => 2
    case NotConnected => 3
    case OutOfSpace => 4
    case OperationCancelled => 5
    case ConnectionTimeout => 6
    case PeripheralDisconnected => 7
    case UuidNotAllowed => 8
    case AlreadyAdvertising => 9
    case ConnectionFailed => 10
    case ConnectionLimitReached => 11
    case UnkownDevice => 12
    case OperationNotSupported => 13
    case PeerRemovedPairingInformation => 14
    case EncryptionTimedOut => 15
    case TooManyLEPairedDevices => 16
  }

  /** `CBError::from(code)`: the primitive conversion with `Unknown` as the default. */
  function CbErrorFromCode(code: int): CbError {
    if 0 <= code < |CbErrors| then CbErrors[code] else CbError.Unknown
  }

  /** Codes 0..16 decode to the variant with that code; any other code decodes to `Unknown`. */
  lemma CbErrorDecoding(e: CbError, code: int)
    ensures CbErrorFromCode(CbErrorCode(e)) == e
    ensures 0 <= code <= 16 ==> CbErrorCode(CbErrorFromCode(code)) == code
    ensures !(0 <= code <= 16) ==> CbErrorFromCode(code) == CbError.Unknown
  {
  }

  /** `From<CBError> for ErrorKind`: each code to the kind of the same name. */
  function KindOf(e: CbError): Errors.ErrorKind {
    match e
    case Unknown => Errors.Unknown
    case InvalidParameters => Errors.InvalidParameters
    case InvalidHandle => Errors.InvalidHandle
    case NotConnected => Errors.NotConnected
    case OutOfSpace => Errors.OutOfSpace
    case OperationCancelled => Errors.OperationCancelled
    case ConnectionTimeout => Errors.ConnectionTimeout
    case PeripheralDisconnected => Errors.PeripheralDisconnected
    case UuidNotAllowed => Errors.UuidNotAllowed
    case AlreadyAdvertising => Errors.AlreadyAdvertising
    case ConnectionFailed => Errors.ConnectionFailed
    case ConnectionLimitReached => Errors.ConnectionLimitReached
    case UnkownDevice => Errors.UnkownDevice
    case OperationNotSupported => Errors.OperationNotSupported
    case PeerRemovedPairingInformation => Errors.PeerRemovedPairingInformation
    case EncryptionTimedOut => Errors.EncryptionTimedOut
    case TooManyLEPairedDevices => Errors.TooManyLEPairedDevices
  }

  /** The error whose kind is `k`, if any: the inverse of `KindOf`. */
  function ErrorOfKind(k: Errors.ErrorKind): Wrappers.Option<CbError> {
    match k
    case Unknown => Wrappers.Some(CbError.Unknown)
    case InvalidParameters => Wrappers.Some(CbError.InvalidParameters)
    case InvalidHandle => Wrappers.Some(CbError.InvalidHandle)
    case NotConnected => Wrappers.Some(CbError.NotConnected)
    case OutOfSpace => Wrappers.Some(CbError.OutOfSpace)
    case OperationCancelled => Wrappers.Some(CbError.OperationCancelled)
    case ConnectionTimeout => Wrappers.Some(CbError.ConnectionTimeout)
    case PeripheralDisconnected => Wrappers.Some(CbError.PeripheralDisconnected)
    case UuidNotAllowed => Wrappers.Some(CbError.UuidNotAllowed)
    case AlreadyAdvertising => Wrappers.Some(CbError.AlreadyAdvertising)
    case ConnectionFailed => Wrappers.Some(CbError.ConnectionFailed)
    case ConnectionLimitReached => Wrappers.Some(CbError.ConnectionLimitReached)
    case UnkownDevice => Wrappers.Some(CbError.UnkownDevice)
    case OperationNotSupported => Wrappers.Some(CbError.OperationNotSupported)
    case PeerRemovedPairingInformation => Wrappers.Some(CbError.PeerRemovedPairingInformation)
    case EncryptionTimedOut => Wrappers.Some(CbError.EncryptionTimedOut)
    case TooManyLEPairedDevices => Wrappers.Some(CbError.TooManyLEPairedDevices)
    case _ => Wrappers.None
  }

  /** `ErrorOfKind` undoes `KindOf`, so no two errors share a kind. */
  lemma KindOfInjective(a: CbError, b: CbError)
    ensures ErrorOfKind(KindOf(a)) == Wrappers.Some(a)
    ensures KindOf(a) == KindOf(b) ==> a == b
  {
    assert ErrorOfKind(KindOf(b)) == Wrappers.Some(b);
  }

  /** Every kind but the three adapter-level ones is produced, by the error `ErrorOfKind` names. */
  lemma KindOfRange(k: Errors.ErrorKind)
    ensures (exists e :: KindOf(e) == k) <==> !(k.AdapterUnavailable? || k.AlreadyScanning? || k.InternalError?)
    ensures ErrorOfKind(k).Some? ==> KindOf(ErrorOfKind(k).value) == k
  {
    if ErrorOfKind(k).Some? {
      assert KindOf(ErrorOfKind(k).value) == k;
    }
  }

  /** The fields of an `NSError` the conversion reads. */
  datatype NsError = NsError(code: int, domain: string, localizedDescription: string)

  const CbErrorDomain: string := "CBErrorDomain"

  /**
    * `From<&NSError> for Error`: a CoreBluetooth-domain code is decoded, any
    * other domain gives `Unknown`; the message is the localized description.
    */
  function FromNsError(err: NsError): (e: Errors.Error)
    ensures e.message == err.localizedDescription
    ensures err.domain != CbErrorDomain ==> e.kind == Errors.Unknown
    ensures err.domain == CbErrorDomain && 0 <= err.code <= 16 ==> e.kind == KindOf(CbErrors[err.code])
  {
    var code := if err.domain == CbErrorDomain then CbErrorFromCode(err.code) else CbError.Unknown;
    Errors.Error(KindOf(code), err.localizedDescription)
  }

  /** `CBUUID::from_uuid`: the data of the created object is the UUID's wire form. */
  function CbUuidData(u: Uuids.Uuid): (data: seq<bv8>)
    ensures Uuids.IsWireLength(|data|)
  {
    BtUuid.AsBluetoothBytes(u)
  }

  /** `CBUUID::to_uuid`: the UUID whose wire form is the object's data. */
  function CbUuidToUuid(data: seq<bv8>): Uuids.Uuid
    requires Uuids.IsWireLength(|data|)
  {
    Uuids.FromBluetoothBytes(data)
  }

  /** A UUID handed to CoreBluetooth comes back unchanged, given the object keeps its data. */
  lemma CbUuidRoundTrip(u: Uuids.Uuid)
    ensures CbUuidToUuid(CbUuidData(u)) == u
  {
    BtUuid.WireRoundTrip(u);
  }
}

=== FILE: delegates.dfy ===
/**
  * `src/corebluetooth/delegates.rs`: the Objective-C delegate objects that
  * turn CoreBluetooth callbacks into events on a broadcast channel. Each
  * delegate keeps a `sender` slot; a callback forwards its event only while
  * the slot is non-null, and `dealloc` nulls it.
  */
module Delegates {
  import opened Wrappers
  import opened Ints
  import AdData
  import CbTypes

  /** `CBConnectionEvent`'s raw value: 0 for a disconnection, 1 for a connection. */
  function ConnectionEventCode(e: AdData.ConnectionEvent): int {
    match e
    case Disconnected => 0
    case Connected => 1
  }

  /** `CBConnectionEvent::try_from(NSInteger)`: an unknown value is returned as the error. */
  function ConnectionEventFrom(value: int): (r: Result<AdData.ConnectionEvent, int>)
    ensures r.Ok? ==> ConnectionEventCode(r.value) == value
    ensures r.Err? ==> r.error == value
  {
    if value == 0 then Ok(AdData.Disconnected)
    else if value == 1 then Ok(AdData.Connected)
    else Err(value)
  }

  /** Decoding inverts the raw values and accepts nothing else. */
  lemma ConnectionEventDecoding(e: AdData.ConnectionEvent, value: int)
    ensures ConnectionEventFrom(ConnectionEventCode(e)) == Ok(e)
    ensures ConnectionEventFrom(value).Ok? <==> value == 0 || value == 1
  {
  }

  /** Identity of a native `CBPeripheral` object. */
  type Peripheral = nat

  /** The central delegate's events, with the fields this file gives them. */
  datatype CentralEvent =
    | Connect(peripheral: Peripheral)
    | Disconnect(peripheral: Peripheral, error: Option<CbTypes.NsError>)
    | ConnectFailed(peripheral: Peripheral, error: Option<CbTypes.NsError>)
    | ConnectionEvent(peripheral: Peripheral, event: AdData.ConnectionEvent)
    | Discovered(peripheral: Peripheral, rssi: I16)
    | StateChanged

  /**
    * A delegate's `sender` slot: `live` while it points at the channel, and
    * the events the channel has carried so far.
    */
  datatype Delegate<E> = Delegate(live: bool, sent: seq<E>)

  /** A freshly initialised delegate (`initWithSender:`). */
  function New<E>(): (d: Delegate<E>)
    ensures d.live && d.sent == []
  {
    Delegate(true, [])
  }

  /** The guard every generated callback shares: send only through a non-null slot. */
  function Send<E>(d: Delegate<E>, e: E): (d': Delegate<E>)
    ensures d'.live == d.live
    ensures d.live ==> d'.sent == d.sent + [e]
    ensures !d.live ==> d' == d
  {
    if d.live then Delegate(true, d.sent + [e]) else d
  }

  /** A run of callbacks, in order. */
  function SendAll<E>(d: Delegate<E>, es: seq<E>): Delegate<E>
    decreases |es|
  {
    if es == [] then d else SendAll(Send(d, es[0]), es[1..])
  }

  /** `dealloc`: the slot becomes null; what was already sent stays sent. */
  function Dealloc<E>(d: Delegate<E>): (d': Delegate<E>)
    ensures !d'.live && d'.sent == d.sent
  {
    Delegate(false, d.sent)
  }

  /**
    * A live delegate forwards every callback in order; a null slot forwards
    * none of them.
    */
  lemma {:induction false} SendAllForwards<E>(d: Delegate<E>, es: seq<E>)
    ensures SendAll(d, es).live == d.live
    ensures SendAll(d, es).sent == d.sent + (if d.live then es else [])
    decreases |es|
  {
    if es != [] {
      SendAllForwards(Send(d, es[0]), es[1..]);
      if d.live {
        assert d.sent + [es[0]] + es[1..] == d.sent + es;
      }
    }
  }

  /** Once deallocated, no later callback reaches the channel. */
  lemma DeallocSilences<E>(d: Delegate<E>, es: seq<E>)
    ensures SendAll(Dealloc(d), es) == Dealloc(d)
  {
    SendAllForwards(Dealloc(d), es);
  }

  /**
    * `on_connection_event`: a valid code is forwarded as a `ConnectionEvent`
    * for the peripheral; an invalid one is only logged.
    */
  function OnConnectionEvent(d: Delegate<CentralEvent>, code: int, p: Peripheral): (d': Delegate<CentralEvent>)
    ensures d'.live == d.live
    ensures d'.sent != d.sent <==> d.live && (code == 0 || code == 1)
    ensures d'.sent != d.sent ==>
              exists e :: ConnectionEventCode(e) == code && d'.sent == d.sent + [ConnectionEvent(p, e)]
  {
    match ConnectionEventFrom(code)
    case Ok(e) =>
      var d' := Send(d, ConnectionEvent(p, e));
      assert d.live ==> d'.sent[|d.sent|] == ConnectionEvent(p, e);
      d'
    case Err(_) => d
  }
}

=== FILE: errors.dfy ===
/**
  * `src/error.rs`: the library's `Error` (a kind plus a message), its
  * twenty-variant `ErrorKind`, and `ATTError`, the classification of ATT
  * error codes of section 3.4.1.1 of the Bluetooth Core Specification,
  * Volume 3, Part F.
  */
module Errors {
  import opened Ints

  datatype ErrorKind =
    | Unknown
    | InvalidParameters
    | InvalidHandle
    | NotConnected
    | OutOfSpace
    | OperationCancelled
    | ConnectionTimeout
    | PeripheralDisconnected
    | UuidNotAllowed
    | AlreadyAdvertising
    | ConnectionFailed
    | ConnectionLimitReached
    | UnkownDevice
    | OperationNotSupported
    | PeerRemovedPairingInformation
    | EncryptionTimedOut
    | TooManyLEPairedDevices
    | AdapterUnavailable
    | AlreadyScanning
    | InternalError

  /** The `Display` text of each kind, taken from its doc comment. */
  function KindText(k: ErrorKind): string {
    match k
    case Unknown => "an unknown error occured"
    case InvalidParameters => "invalid parameters for Bluetooth operation"
    case InvalidHandle => "invalid handle for Bluetooth operation"
    case NotConnected => "the Bluetooth device isn't connected"
    case OutOfSpace => "Bluetooth out of space"
    case OperationCancelled => "Bluetooth operation was cancelled"
    case ConnectionTimeout => "Bluetooth connection timed out"
    case PeripheralDisconnected => "Bluetooth device disconnected"
    case UuidNotAllowed => "the provided UUID is not allowed"
    case AlreadyAdvertising => "the Bluetooth device is already advertising"
    case ConnectionFailed => "the Bluetooth connection failed"
    case ConnectionLimitReached => "the Bluetooth device has reached the maximum number of connections"
    case UnkownDevice => "the Bluetooth device is unknown"
    case OperationNotSupported => "the Bluetooth operation is unsupported"
    case PeerRemovedPairingInformation => "the Bluetooth device has removed pairing information"
    case EncryptionTimedOut => "Bluetooth encryption timed out"
    case TooManyLEPairedDevices => "too many Bluetooth LE devices have been paired"
    case AdapterUnavailable => "Bluetooth adapter not available"
    case AlreadyScanning => "the Bluetooth adapter is already scanning"
    case InternalError => "internal error"
  }

  datatype Error = Error(kind: ErrorKind, message: string)

  /** `From<ErrorKind> for Error`. */
  function FromKind(k: ErrorKind): (e: Error)
    ensures e.kind == k && e.message == ""
  {
    Error(k, "")
  }

  /** `Display for Error`: the kind alone, or "kind: message". */
  function Display(e: Error): string {
    if e.message == "" then KindText(e.kind) else KindText(e.kind) + ": " + e.message
  }

  /** Reads the message back out of a rendering, given the kind it was rendered with. */
  function MessageOf(k: ErrorKind, text: string): string {
    var n := |KindText(k)|;
    if |text| >= n + 2 && text[..n] == KindText(k) && text[n..n + 2] == ": " then text[n + 2..] else ""
  }

  /**
    * The rendering starts with the kind's text, is exactly that text when the
    * message is empty, and loses no part of a non-empty message.
    */
  lemma DisplayKeepsMessage(e: Error)
    ensures KindText(e.kind) <= Display(e)
    ensures Display(e) == KindText(e.kind) <==> e.message == ""
    ensures MessageOf(e.kind, Display(e)) == e.message
  {
    var n := |KindText(e.kind)|;
    if e.message != "" {
      var d := Display(e);
      assert d[..n] == KindText(e.kind);
      assert d[n..n + 2] == ": ";
      assert d[n + 2..] == e.message;
    }
  }

  /** A kind converted to an error renders as the kind's text alone. */
  lemma FromKindDisplay(k: ErrorKind)
    ensures Display(FromKind(k)) == KindText(k)
  {
  }
}

/** `ATTError` of `src/error.rs`: the ATT error codes of section 3.4.1.1 of Volume 3, Part F of the Core Specification. */
module AttErrors {
  import opened Ints

  datatype AttError =
    | Success
    | InvalidHandle
    | ReadNotPermitted
    | WriteNotPermitted
    | InvalidPdu
    | InsufficientAuthentication
    | RequestNotSupported
    | InvalidOffset
    | InsufficientAuthorization
    | PrepareQueueFull
    | AttributeNotFound
    | AttributeNotLong
    | InsufficientEncryptionKeySize
    | InvalidAttributeValueLength
    | UnlikelyError
    | InsufficientEncryption
    | UnsupportedGroupType
    | InsufficientResources
    | DatabaseOutOfSync
    | ValueNotAllowed
    | Application(code: U8)
    | Common(code: U8)
    | Reserved(code: U8)

  /** The twenty named codes 0x00..0x13, in table order. */
  const Named: seq<AttError> := [
    Success, AttError.InvalidHandle, ReadNotPermitted, WriteNotPermitted, InvalidPdu,
    InsufficientAuthentication, RequestNotSupported, InvalidOffset, InsufficientAuthorization,
    PrepareQueueFull, AttributeNotFound, AttributeNotLong, InsufficientEncryptionKeySize,
    InvalidAttributeValueLength, UnlikelyError, InsufficientEncryption, UnsupportedGroupType,
    InsufficientResources, DatabaseOutOfSync, ValueNotAllowed]

  /** Whether the variant is one of the named ones. */
  predicate IsNamed(e: AttError) {
    !(e.Application? || e.Common? || e.Reserved?)
  }

  /** `From<u8> for ATTError`. */
  function FromU8(n: U8): AttError {
    if n < 0x14 then Named[n]
    else if 0x80 <= n <= 0x9F then Application(n)
    else if 0xE0 <= n then Common(n)
    else Reserved(n)
  }

  /** The code a value stands for: its table position, or the carried number. */
  function Code(e: AttError): int {
    match e
    case Application(n) => n
    case Common(n) => n
    case Reserved(n) => n
    case Success => 0x00
    case InvalidHandle => 0x01
    case ReadNotPermitted => 0x02
    case WriteNotPermitted => 0x03
    case InvalidPdu => 0x04
    case InsufficientAuthentication => 0x05
    case RequestNotSupported => 0x06
    case InvalidOffset => 0x07
    case InsufficientAuthorization => 0x08
    case PrepareQueueFull => 0x09
    case AttributeNotFound => 0x0A
    case AttributeNotLong => 0x0B
    case InsufficientEncryptionKeySize => 0x0C
    case InvalidAttributeValueLength => 0x0D
    case UnlikelyError => 0x0E
    case InsufficientEncryption => 0x0F
    case UnsupportedGroupType => 0x10
    case InsufficientResources => 0x11
    case DatabaseOutOfSync => 0x12
    case ValueNotAllowed => 0x13
  }

  /** Every code is recovered from its classification, so the conversion is injective. */
  lemma FromU8KeepsCode(n: U8)
    ensures Code(FromU8(n)) == n
  {
  }

  /** Two codes with the same classification are the same code. */
  lemma FromU8Injective(a: U8, b: U8)
    requires FromU8(a) == FromU8(b)
    ensures a == b
  {
    FromU8KeepsCode(a);
    FromU8KeepsCode(b);
  }

  /** The ranges of section 3.4.1.1: named codes, application codes, common profile codes, and the rest reserved. */
  lemma FromU8Ranges(n: U8)
    ensures IsNamed(FromU8(n)) <==> n <= 0x13
    ensures FromU8(n).Application? <==> 0x80 <= n <= 0x9F
    ensures FromU8(n).Common? <==> 0xE0 <= n
    ensures FromU8(n).Reserved? <==> (0x14 <= n < 0x80 || 0xA0 <= n < 0xE0)
    ensures !IsNamed(FromU8(n)) ==> FromU8(n).code == n
  {
  }

  /** The named variants sit at their table positions. */
  lemma NamedInOrder(i: nat)
    requires i < |Named|
    ensures FromU8(i) == Named[i] && Code(Named[i]) == i
  {
  }
}

=== FILE: event_receiver.dfy ===
/**
  * `src/android/event_receiver.rs`: the broadcast receiver that turns the
  * system's Bluetooth intents into `GlobalEvent`s, and the rule that at
  * most one live receiver exists. The values of the Android constants used
  * are those of the Android SDK's `BluetoothAdapter` and `BluetoothDevice`.
  */
module EventReceiver {
  import opened Wrappers
  import opened Ints
  import opened Kinds
  import GattTree

  datatype GlobalEvent =
    | AdapterStateChanged(state: I32)
    | AclConnectionStateChanged(id: GattTree.DeviceId, connected: bool)
    | BondStateChanged(id: GattTree.DeviceId, previous: I32, state: I32)

  const ActionStateChanged: string := "android.bluetooth.adapter.action.STATE_CHANGED"
  const ActionAclConnected: string := "android.bluetooth.device.action.ACL_CONNECTED"
  const ActionAclDisconnected: string := "android.bluetooth.device.action.ACL_DISCONNECTED"
  const ActionBondStateChanged: string := "android.bluetooth.device.action.BOND_STATE_CHANGED"

  /** `BluetoothAdapter.STATE_OFF`. */
  const StateOff: I32 := 10
  /** `BluetoothDevice.TRANSPORT_LE`. */
  const TransportLe: I32 := 2

  /**
    * A received intent, as its getters answer: the action (`None` when it
    * cannot be read) and each extra the handler may read (`getIntExtra`
    * with default 0, the device's address), or the error of that Java call.
    */
  datatype Intent = Intent(
    action: Option<string>,
    state: Result<I32, Kind>,
    transport: Result<I32, Kind>,
    device: Result<GattTree.DeviceId, Kind>,
    previousBondState: Result<I32, Kind>,
    bondState: Result<I32, Kind>)

  /** Rust's `char::is_whitespace`: the Unicode `White_Space` characters. */
  predicate IsWhitespace(c: char) {
    var n := c as int;
    (0x09 <= n <= 0x0D) || n == 0x20 || n == 0x85 || n == 0xA0 || n == 0x1680
    || (0x2000 <= n <= 0x200A) || n == 0x2028 || n == 0x2029 || n == 0x202F || n == 0x205F || n == 0x3000
  }

  /** `str::trim`: the text without leading and trailing whitespace. */
  function Trim(s: string): (t: string)
    ensures exists i, j :: 0 <= i <= j <= |s| && t == s[i..j]
                           && (forall k :: 0 <= k < i ==> IsWhitespace(s[k]))
                           && (forall k :: j <= k < |s| ==> IsWhitespace(s[k]))
    ensures t == [] || (!IsWhitespace(t[0]) && !IsWhitespace(t[|t| - 1]))
  {
    var front := TrimStart(s);
    var t := TrimEnd(front);
    var i := |s| - |front|;
    assert t == s[i..i + |t|];
    t
  }

  /** `str::trim_start`. */
  function TrimStart(s: string): (t: string)
    ensures |t| <= |s| && t == s[|s| - |t|..]
    ensures forall k :: 0 <= k < |s| - |t| ==> IsWhitespace(s[k])
    ensures t == [] || !IsWhitespace(t[0])
    decreases |s|
  {
    if s != [] && IsWhitespace(s[0]) then
      var t := TrimStart(s[1..]);
      LeadingWhitespace(s, t);
      t
    else s
  }

  /** Whitespace in front of a whitespace-led tail is whitespace in front of the whole text. */
  lemma LeadingWhitespace(s: string, t: string)
    requires s != [] && IsWhitespace(s[0])
    requires |t| <= |s| - 1 && t == s[1..][|s| - 1 - |t|..]
    requires forall k :: 0 <= k < |s| - 1 - |t| ==> IsWhitespace(s[1..][k])
    ensures t == s[|s| - |t|..]
    ensures forall k :: 0 <= k < |s| - |t| ==> IsWhitespace(s[k])
  {
    forall k | 0 < k < |s| - |t|
      ensures IsWhitespace(s[k])
    {
      assert s[k] == s[1..][k - 1];
    }
  }

  /** `str::trim_end`. */
  function TrimEnd(s: string): (t: string)
    ensures |t| <= |s| && t == s[..|t|]
    ensures forall k :: |t| <= k < |s| ==> IsWhitespace(s[k])
    ensures t == [] || !IsWhitespace(t[|t| - 1])
    decreases |s|
  {
    if s != [] && IsWhitespace(s[|s| - 1]) then TrimEnd(s[..|s| - 1]) else s
  }

  /** Text with no surrounding whitespace is its own trim; the action names are such text. */
  lemma TrimKeepsClean(s: string)
    requires s == [] || (!IsWhitespace(s[0]) && !IsWhitespace(s[|s| - 1]))
    ensures Trim(s) == s
  {
  }

  /**
    * `onReceive`: the registry after the intent is handled and the event
    * forwarded to the subscribers, if any. A dropped receiver, a missing
    * intent, an unreadable action or extra, an unknown action, and an ACL
    * change on a transport other than LE forward nothing.
    */
  function OnReceive<S(==)>(reg: GattTree.Registry<S>, receiverAlive: bool, intent: Option<Intent>)
    : (r: (GattTree.Registry<S>, Option<GlobalEvent>))
  {
    if !receiverAlive || intent.None? || intent.value.action.None? then (reg, None)
    else
      var it := intent.value;
      var action := Trim(it.action.value);
      if action == ActionStateChanged then
        match it.state
        case Err(_) => (reg, None)
        case Ok(v) => (if v == StateOff then GattTree.Clear(reg).0 else reg, Some(AdapterStateChanged(v)))
      else if action == ActionAclConnected then
        if it.transport.Err? || it.transport.value != TransportLe || it.device.Err? then (reg, None)
        else (reg, Some(AclConnectionStateChanged(it.device.value, true)))
      else if action == ActionAclDisconnected then
        if it.transport.Err? || it.transport.value != TransportLe || it.device.Err? then (reg, None)
        else (GattTree.Deregister(reg, it.device.value).0, Some(AclConnectionStateChanged(it.device.value, false)))
      else if action == ActionBondStateChanged then
        if it.device.Err? || it.previousBondState.Err? || it.bondState.Err? then (reg, None)
        else (reg, Some(BondStateChanged(it.device.value, it.previousBondState.value, it.bondState.value)))
      else (reg, None)
  }

  /** Whether the intent names `action`, up to surrounding whitespace. */
  predicate Names(intent: Option<Intent>, action: string) {
    intent.Some? && intent.value.action.Some? && Trim(intent.value.action.value) == action
  }

  /** The four action names are distinct. */
  lemma ActionsDistinct()
    ensures ActionStateChanged != ActionAclConnected && ActionStateChanged != ActionAclDisconnected
    ensures ActionStateChanged != ActionBondStateChanged && ActionAclConnected != ActionAclDisconnected
    ensures ActionAclConnected != ActionBondStateChanged && ActionAclDisconnected != ActionBondStateChanged
  {
    assert ActionStateChanged[19] != ActionAclConnected[19];
    assert ActionStateChanged[19] != ActionAclDisconnected[19];
    assert ActionStateChanged[19] != ActionBondStateChanged[19];
    assert ActionAclConnected[37] != ActionAclDisconnected[37];
    assert ActionAclConnected[33] != ActionBondStateChanged[33];
    assert ActionAclDisconnected[33] != ActionBondStateChanged[33];
  }

  /** A dropped receiver handles nothing. */
  lemma DroppedReceiverIgnores<S>(reg: GattTree.Registry<S>, intent: Option<Intent>)
    ensures OnReceive(reg, false, intent) == (reg, None)
  {
  }

  /**
    * An adapter state change is forwarded with its state, and empties the
    * registry exactly when the state is `STATE_OFF` (or it was empty).
    */
  lemma StateChangeForwarded<S>(reg: GattTree.Registry<S>, intent: Option<Intent>)
    requires Names(intent, ActionStateChanged) && intent.value.state.Ok?
    ensures OnReceive(reg, true, intent).1 == Some(AdapterStateChanged(intent.value.state.value))
    ensures OnReceive(reg, true, intent).0 == map[] <==> intent.value.state.value == StateOff || reg == map[]
    ensures intent.value.state.value != StateOff ==> OnReceive(reg, true, intent).0 == reg
  {
  }

  /** An ACL connection is forwarded only for the LE transport, and never touches the registry. */
  lemma AclConnectedForwarded<S>(reg: GattTree.Registry<S>, intent: Option<Intent>)
    requires Names(intent, ActionAclConnected)
    ensures OnReceive(reg, true, intent).0 == reg
    ensures OnReceive(reg, true, intent).1.Some? <==> intent.value.transport == Ok(TransportLe) && intent.value.device.Ok?
    ensures OnReceive(reg, true, intent).1.Some? ==>
              OnReceive(reg, true, intent).1.value == AclConnectionStateChanged(intent.value.device.value, true)
  {
    ActionsDistinct();
  }

  /** An LE disconnection removes the device's connection, then is forwarded; other transports do nothing. */
  lemma AclDisconnectedForwarded<S>(reg: GattTree.Registry<S>, intent: Option<Intent>)
    requires Names(intent, ActionAclDisconnected)
    ensures intent.value.transport == Ok(TransportLe) && intent.value.device.Ok? ==>
              OnReceive(reg, true, intent) == (reg - {intent.value.device.value},
                                               Some(AclConnectionStateChanged(intent.value.device.value, false)))
    ensures !(intent.value.transport == Ok(TransportLe) && intent.value.device.Ok?) ==> OnReceive(reg, true, intent) == (reg, None)
  {
    ActionsDistinct();
  }

  /** A bond-state change is forwarded with the device and both states. */
  lemma BondChangeForwarded<S>(reg: GattTree.Registry<S>, intent: Option<Intent>)
    requires Names(intent, ActionBondStateChanged)
    ensures OnReceive(reg, true, intent).0 == reg
    ensures OnReceive(reg, true, intent).1.Some? <==>
              intent.value.device.Ok? && intent.value.previousBondState.Ok? && intent.value.bondState.Ok?
    ensures OnReceive(reg, true, intent).1.Some? ==>
              OnReceive(reg, true, intent).1.value
              == BondStateChanged(intent.value.device.value, intent.value.previousBondState.value, intent.value.bondState.value)
  {
    ActionsDistinct();
  }

  /** A missing intent, an unreadable action or an unknown action does nothing. */
  lemma OtherIntentsIgnored<S>(reg: GattTree.Registry<S>, intent: Option<Intent>)
    requires !(Names(intent, ActionStateChanged) || Names(intent, ActionAclConnected)
               || Names(intent, ActionAclDisconnected) || Names(intent, ActionBondStateChanged))
    ensures OnReceive(reg, true, intent) == (reg, None)
  {
  }

  /**
    * `build`: the live receiver when there is one; otherwise a new receiver
    * (`created`) becomes the global one, unless creating its Java proxy
    * fails. `current` is the global weak reference's upgrade.
    */
  function Build(current: Option<nat>, created: nat, proxy: Result<(), Kind>): (r: (Option<nat>, Result<nat, Kind>))
    ensures current.Some? ==> r == (current, Ok(current.value))
    ensures current.None? && proxy.Err? ==> r == (None, Err(proxy.error))
    ensures current.None? && proxy.Ok? ==> r == (Some(created), Ok(created))
    ensures r.1.Ok? ==> r.0 == Some(r.1.value)
  {
    match current
    case Some(g) => (current, Ok(g))
    case None =>
      match proxy
      case Err(e) => (None, Err(e))
      case Ok(_) => (Some(created), Ok(created))
  }

  /** Building again while the first receiver lives gives that same receiver, not a second one. */
  lemma BuildIsSingleton(current: Option<nat>, fresh1: nat, fresh2: nat, proxy1: Result<(), Kind>, proxy2: Result<(), Kind>)
    requires Build(current, fresh1, proxy1).1.Ok?
    ensures Build(Build(current, fresh1, proxy1).0, fresh2, proxy2) == Build(current, fresh1, proxy1)
  {
  }
}

=== FILE: gatt_tree.dfy ===
/**
  * `src/android/gatt_tree.rs`: the process-wide registry of GATT
  * connections, keyed by device identifier, each with the tree of services
  * discovered on it; the ATT status check of the Java callbacks; and the
  * routing of the connection-state, services-discovered and
  * service-changed callbacks into the registry.
  *
  * The Java objects are opaque: a service's subtree is a `Tree` token,
  * and whether a connection's callback handler is still alive is a flag.
  * The service-identifier type is a parameter `S` (the source uses UUIDs).
  */
module GattTree {
  import opened Wrappers
  import opened Ints
  import opened Kinds
  import AsyncUtil

  /** `DeviceId`: the Bluetooth address text. */
  type DeviceId = string

  /** The subtree `construct_service_tree` builds for one service (its characteristics and descriptors). */
  type Tree = nat

  /** The capacity of a connection's services-changed notifier. */
  const ServicesChangesCapacity: AsyncUtil.Capacity := 16

  /** `GattConnection`, reduced to what the registry logic reads and writes. */
  datatype Connection<S> = Connection(
    callbackAlive: bool,
    services: map<S, Tree>,
    discovery: AsyncUtil.Excluder<Result<(), U8>>,
    changes: AsyncUtil.Notifier<()>)

  type Registry<S> = map<DeviceId, Connection<S>>

  /** Every connection's notifier keeps its queues within capacity. */
  predicate Valid<S(==)>(reg: Registry<S>) {
    forall id :: id in reg ==> AsyncUtil.Bounded(reg[id].changes)
  }

  /** `register_connection`: the entry for `id` is replaced by a new one with no services. */
  function Register<S(==)>(reg: Registry<S>, id: DeviceId, callbackAlive: bool): (r: Registry<S>)
    ensures r.Keys == reg.Keys + {id}
    ensures r[id].services == map[] && r[id].callbackAlive == callbackAlive
    ensures !r[id].discovery.locked && !AsyncUtil.Active(r[id].changes)
    ensures forall k :: k in reg && k != id ==> r[k] == reg[k]
    ensures Valid(reg) ==> Valid(r)
  {
    reg[id := Connection(callbackAlive, map[], AsyncUtil.NewExcluder(), AsyncUtil.NewNotifier(ServicesChangesCapacity))]
  }

  /** `deregister_connection`: removes the entry; reports whether there was one. */
  function Deregister<S(==)>(reg: Registry<S>, id: DeviceId): (r: (Registry<S>, bool))
    ensures r.1 <==> id in reg
    ensures r.0.Keys == reg.Keys - {id}
    ensures forall k :: k in r.0 ==> r.0[k] == reg[k]
    ensures Valid(reg) ==> Valid(r.0)
  {
    (reg - {id}, id in reg)
  }

  /** `clear_connections`: empties the registry; reports whether it held anything. */
  function Clear<S(==)>(reg: Registry<S>): (r: (Registry<S>, bool))
    ensures r.0 == map[]
    ensures r.1 <==> reg != map[]
  {
    if reg != map[] then (map[], true) else (map[], false)
  }

  /**
    * `find_connection`: the entry for `id` while its callback handler is
    * alive; an entry whose handler is gone is removed instead.
    */
  function Find<S(==)>(reg: Registry<S>, id: DeviceId): (r: (Registry<S>, Option<Connection<S>>))
    ensures r.1.Some? <==> id in reg && reg[id].callbackAlive
    ensures r.1.Some? ==> r.1.value == reg[id] && r.0 == reg
    ensures r.1.None? ==> r.0 == reg - {id}
    ensures Valid(reg) ==> Valid(r.0)
  {
    if id !in reg then (reg, None)
    else if reg[id].callbackAlive then (reg, Some(reg[id]))
    else (Deregister(reg, id).0, None)
  }

  /** `find_service`: the service's tree on a live connection. */
  function FindService<S(==)>(reg: Registry<S>, id: DeviceId, service: S): (r: (Registry<S>, Option<Tree>))
    ensures r.0 == Find(reg, id).0
    ensures r.1.Some? <==> id in reg && reg[id].callbackAlive && service in reg[id].services
    ensures r.1.Some? ==> r.1.value == reg[id].services[service]
  {
    var (reg', conn) := Find(reg, id);
    match conn
    case None => (reg', None)
    case Some(c) => (reg', if service in c.services then Some(c.services[service]) else None)
  }

  /** Finding never removes a connection whose handler is alive, nor touches any other entry. */
  lemma FindEvictsOnlyDead<S>(reg: Registry<S>, id: DeviceId, other: DeviceId)
    requires other in reg && (other != id || reg[other].callbackAlive)
    ensures other in Find(reg, id).0 && Find(reg, id).0[other] == reg[other]
  {
  }

  /** One service `getServices()` lists: its identifier and the tree built for it, or a failing Java call. */
  datatype Listed<S> = Listed(id: S, tree: Result<Tree, Kind>) | Unreadable(error: Kind)

  /** The identifiers listed. */
  function ListedIds<S(==)>(listed: seq<Listed<S>>): set<S> {
    set i | 0 <= i < |listed| && listed[i].Listed? :: listed[i].id
  }

  /** Whether entry `i` is the first listing of its identifier. */
  predicate FirstListing<S(==)>(listed: seq<Listed<S>>, i: nat)
    requires i < |listed| && listed[i].Listed?
  {
    forall j :: 0 <= j < i ==> !(listed[j].Listed? && listed[j].id == listed[i].id)
  }

  /**
    * The loop of `refresh_services`: a listed service that is not yet in
    * the map gets its newly built tree, one already present is left alone
    * (its tree is not even built). The first failing call stops the loop
    * with its error, keeping what was added so far.
    */
  function AddListed<S(==)>(services: map<S, Tree>, listed: seq<Listed<S>>): (r: (map<S, Tree>, Option<Kind>))
    ensures services.Keys <= r.0.Keys
    ensures forall k :: k in services ==> r.0[k] == services[k]
    ensures r.1.None? ==> r.0.Keys == services.Keys + ListedIds(listed)
    ensures r.1.None? ==> forall k :: k in r.0 && k !in services ==>
              exists i :: 0 <= i < |listed| && listed[i] == Listed(k, Ok(r.0[k])) && FirstListing(listed, i)
    decreases |listed|
  {
    if listed == [] then (services, None)
    else match listed[0]
      case Unreadable(e) => (services, Some(e))
      case Listed(id, tree) =>
        if id in services then
          var r := AddListed(services, listed[1..]);
          AddListedShift(services, listed, r.0, r.1);
          r
        else match tree
          case Err(e) => (services, Some(e))
          case Ok(t) =>
            var r := AddListed(services[id := t], listed[1..]);
            AddListedShift(services, listed, r.0, r.1);
            r
  }

  /** The bookkeeping of `AddListed`'s recursive case: the first entry's identifier joins the rest's. */
  lemma AddListedShift<S>(services: map<S, Tree>, listed: seq<Listed<S>>, m: map<S, Tree>, err: Option<Kind>)
    requires listed != [] && listed[0].Listed?
    requires err.None? ==> m.Keys == (services.Keys + {listed[0].id}) + ListedIds(listed[1..])
    requires err.None? ==> listed[0].id in m && forall k :: k in m && k !in services && k != listed[0].id ==>
               exists i :: 0 <= i < |listed[1..]| && listed[1..][i] == Listed(k, Ok(m[k])) && FirstListing(listed[1..], i)
    requires err.None? && listed[0].id !in services ==> listed[0].tree == Ok(m[listed[0].id])
    ensures err.None? ==> m.Keys == services.Keys + ListedIds(listed)
    ensures err.None? ==> forall k :: k in m && k !in services ==>
              exists i :: 0 <= i < |listed| && listed[i] == Listed(k, Ok(m[k])) && FirstListing(listed, i)
  {
    if err.None? {
      assert ListedIds(listed) == {listed[0].id} + ListedIds(listed[1..]) by {
        forall k | k in ListedIds(listed) ensures k in {listed[0].id} + ListedIds(listed[1..]) {
          var i :| 0 <= i < |listed| && listed[i].Listed? && listed[i].id == k;
          if i > 0 { assert listed[1..][i - 1] == listed[i]; }
        }
        forall k | k in ListedIds(listed[1..]) ensures k in ListedIds(listed) {
          var i :| 0 <= i < |listed[1..]| && listed[1..][i].Listed? && listed[1..][i].id == k;
          assert listed[i + 1] == listed[1..][i];
        }
      }
      forall k | k in m && k !in services
        ensures exists i :: 0 <= i < |listed| && listed[i] == Listed(k, Ok(m[k])) && FirstListing(listed, i)
      {
        if k == listed[0].id {
          assert listed[0] == Listed(k, Ok(m[k])) && FirstListing(listed, 0);
        } else {
          var i :| 0 <= i < |listed[1..]| && listed[1..][i] == Listed(k, Ok(m[k])) && FirstListing(listed[1..], i);
          assert listed[i + 1] == listed[1..][i];
          assert FirstListing(listed, i + 1) by {
            forall j | 0 <= j < i + 1 ensures !(listed[j].Listed? && listed[j].id == k) {
              if j > 0 { assert listed[j] == listed[1..][j - 1]; }
            }
          }
        }
      }
    }
  }

  /**
    * `refresh_services`: after the loop, only the listed services are kept.
    * On a failing Java call the error is returned and the map keeps what
    * the loop had added, without the pruning.
    */
  function RefreshServices<S(==)>(services: map<S, Tree>, listed: seq<Listed<S>>): (r: (map<S, Tree>, Result<(), Kind>))
    ensures r.1.Ok? ==> r.0.Keys == ListedIds(listed)
    ensures r.1.Ok? ==> forall k :: k in services && k in r.0 ==> r.0[k] == services[k]
    ensures r.1.Ok? ==> forall k :: k in r.0 && k !in services ==>
              exists i :: 0 <= i < |listed| && listed[i] == Listed(k, Ok(r.0[k])) && FirstListing(listed, i)
    ensures r.1.Err? ==> services.Keys <= r.0.Keys && forall k :: k in services ==> r.0[k] == services[k]
  {
    var ids := ListedIds(listed);
    var (added, err) := AddListed(services, listed);
    match err
    case Some(e) => (added, Err(e))
    case None => (map k | k in added && k in ids :: added[k], Ok(()))
  }

  /** Listing only services already in the map adds nothing and fails nowhere. */
  lemma {:induction false} AddListedKnown<S>(services: map<S, Tree>, listed: seq<Listed<S>>)
    requires forall i :: 0 <= i < |listed| ==> listed[i].Listed? && listed[i].id in services
    ensures AddListed(services, listed) == (services, None)
    decreases |listed|
  {
    if listed != [] {
      AddListedKnown(services, listed[1..]);
    }
  }

  /** Refreshing with exactly the services already known keeps the map as it was. */
  lemma RefreshKeepsKnown<S>(services: map<S, Tree>, listed: seq<Listed<S>>)
    requires forall i :: 0 <= i < |listed| ==> listed[i].Listed? && listed[i].id in services
    requires ListedIds(listed) == services.Keys
    ensures RefreshServices(services, listed) == (services, Ok(()))
  {
    AddListedKnown(services, listed);
    var kept := map k | k in services && k in ListedIds(listed) :: services[k];
    assert kept == services;
  }

  /** `AttError::SUCCESS`. */
  const Success: int := 0

  /**
    * `gatt_error_check`: the callback status as an ATT result: success, the
    * status itself as the ATT code when it fits an octet, and
    * `UNLIKELY_ERROR` otherwise.
    */
  function GattErrorCheck(status: I32): (r: Result<(), U8>)
    ensures r.Ok? <==> status == Success
    ensures r.Err? && FitsU8(status) ==> r.error == status
    ensures !FitsU8(status) ==> r == Err(UnlikelyError)
  {
    if status == Success then Ok(())
    else if FitsU8(status) then Err(status)
    else Err(UnlikelyError)
  }

  /** An error status never reads as the success code, and distinct octet statuses stay distinct. */
  lemma GattErrorCodes(a: I32, b: I32)
    ensures GattErrorCheck(a).Err? ==> GattErrorCheck(a).error != Success
    ensures FitsU8(a) && FitsU8(b) && a != b ==> GattErrorCheck(a) != GattErrorCheck(b)
  {
  }

  /** `BluetoothProfile.STATE_DISCONNECTED`. */
  const StateDisconnected: I32 := 0

  /** The callback proxy of one device: its identifier and whether it holds a discovery lock taken on a service change. */
  datatype Proxy = Proxy(id: DeviceId, heldLock: bool)

  /** `onConnectionStateChange`: a disconnection removes the device's connection; any other state changes nothing. */
  function OnConnectionStateChange<S(==)>(reg: Registry<S>, p: Proxy, newState: I32): (r: Registry<S>)
    ensures newState == StateDisconnected ==> r == reg - {p.id}
    ensures newState != StateDisconnected ==> r == reg
  {
    if newState == StateDisconnected then Deregister(reg, p.id).0 else reg
  }

  /**
    * `onServicesDiscovered`: on a live connection, refresh the services
    * (an error is only logged), hand the ATT result to the discovery
    * excluder, drop a lock taken on a service change, and notify the
    * services-changed subscribers.
    */
  function OnServicesDiscovered<S(==)>(reg: Registry<S>, p: Proxy, status: I32, listed: seq<Listed<S>>)
    : (r: (Registry<S>, Proxy))
    requires Valid(reg)
    ensures Valid(r.0)
    ensures Find(reg, p.id).1.None? ==> r == (Find(reg, p.id).0, p)
    ensures Find(reg, p.id).1.Some? ==>
              && r.0.Keys == reg.Keys && !r.1.heldLock
              && r.0[p.id].services == RefreshServices(reg[p.id].services, listed).0
              && r.0[p.id].discovery.lastValue == Some(GattErrorCheck(status))
              && !r.0[p.id].discovery.locked
              && r.0[p.id].changes == AsyncUtil.Notify(reg[p.id].changes, ())
  {
    var (reg', found) := Find(reg, p.id);
    match found
    case None => (reg', p)
    case Some(c) =>
      var services := RefreshServices(c.services, listed).0;
      var discovery := AsyncUtil.Unlock(c.discovery, GattErrorCheck(status));
      var discovery' := if p.heldLock then AsyncUtil.DropLock(discovery) else discovery;
      var changes := AsyncUtil.Notify(c.changes, ());
      (reg'[p.id := Connection(c.callbackAlive, services, discovery', changes)], p.(heldLock := false))
  }

  /**
    * `onServiceChanged`: on a live connection whose discovery excluder is
    * free, take its lock and call `discoverServices`; when the call
    * succeeds the proxy keeps the lock until the discovery completes, and
    * when it fails the lock is dropped. Returns whether the call was made.
    */
  function OnServiceChanged<S(==)>(reg: Registry<S>, p: Proxy, discoverCall: Result<(), Kind>): (r: (Registry<S>, Proxy, bool))
    ensures r.2 <==> IsLive(reg, p.id) && !reg[p.id].discovery.locked
    ensures r.2 && discoverCall.Ok? ==> r.1.heldLock && p.id in r.0 && r.0[p.id].discovery.locked
    ensures r.2 && discoverCall.Err? ==> r.0 == reg && r.1 == p
    ensures !r.2 ==> r.0 == Find(reg, p.id).0 && r.1 == p
  {
    var (reg', found) := Find(reg, p.id);
    match found
    case None => (reg', p, false)
    case Some(c) =>
      var (discovery, got) := AsyncUtil.TryLock(c.discovery);
      if !got then (reg', p, false)
      else if discoverCall.Err? then (reg', p, true)
      else (reg'[p.id := c.(discovery := discovery)], p.(heldLock := true), true)
  }

  /** Whether `id` has a connection whose callback handler is alive. */
  predicate IsLive<S(==)>(reg: Registry<S>, id: DeviceId) {
    id in reg && reg[id].callbackAlive
  }

  /**
    * A service change triggers no new discovery while one is in progress,
    * and after a successful trigger a second change triggers nothing until
    * the discovery completes.
    */
  lemma ServiceChangeWaitsForDiscovery<S>(reg: Registry<S>, p: Proxy, call1: Result<(), Kind>, call2: Result<(), Kind>)
    requires IsLive(reg, p.id) && !reg[p.id].discovery.locked && call1.Ok?
    ensures OnServiceChanged(reg, p, call1).2
    ensures var (reg', p', _) := OnServiceChanged(reg, p, call1); !OnServiceChanged(reg', p', call2).2
  {
  }
}

=== FILE: ints.dfy ===
/** Rust's fixed-width integers as ranges of `int`. */
module Ints {
  type U8 = x: int | 0 <= x < 0x100
  type U16 = x: int | 0 <= x < 0x1_0000
  type U32 = x: int | 0 <= x < 0x1_0000_0000
  type I8 = x: int | -0x80 <= x < 0x80
  type I16 = x: int | -0x8000 <= x < 0x8000
  type I32 = x: int | -0x8000_0000 <= x < 0x8000_0000

  /** `u8::try_from(x).is_ok()`. */
  predicate FitsU8(x: int) {
    0 <= x < 0x100
  }
}

=== FILE: jni.dfy ===
/**
  * `src/android/jni.rs`: the per-thread nesting counter that makes nested
  * `with_env` calls share one JNI local frame, and the byte-array
  * conversions between Java's signed bytes and Rust's `u8`.
  */
module Jni {
  import opened Ints

  /** The local-frame capacity: larger on threads this module attached to the JVM. */
  function FrameSize(attachedHere: bool): (n: nat)
    ensures n == 256 || n == 512
    ensures attachedHere <==> n == 512
  {
    if attachedHere then 512 else 256
  }

  /** What a counter step did to the JNI frame stack. */
  datatype FrameOp = Pushed(size: nat) | Popped | Untouched

  /**
    * `increase_nest_level`: the outermost entry pushes a frame; every entry
    * counts one more level. `tls` is false once the thread-local is gone,
    * and then nothing happens.
    */
  function Increase(level: nat, attachedHere: bool, tls: bool): (r: (nat, FrameOp))
  {
    if !tls then (level, Untouched)
    else if level == 0 then (1, Pushed(FrameSize(attachedHere)))
    else (level + 1, Untouched)
  }

  /**
    * `decrease_nest_level`: leaving the outermost level pops the frame; the
    * level drops by one but never below 0.
    */
  function Decrease(level: nat, tls: bool): (r: (nat, FrameOp))
  {
    if !tls then (level, Untouched)
    else if level == 1 then (0, Popped)
    else if level > 0 then (level - 1, Untouched)
    else (0, Untouched)
  }

  /** A `with_env` entry or exit. */
  datatype Step = Enter | Exit

  /** Runs steps from `level`; returns the final level, and the numbers of pushes and pops. */
  function Run(level: nat, attachedHere: bool, steps: seq<Step>): (r: (nat, nat, nat))
    decreases |steps|
  {
    if steps == [] then (level, 0, 0)
    else
      var (next, op) := if steps[0] == Enter then Increase(level, attachedHere, true) else Decrease(level, true);
      var (final, pushes, pops) := Run(next, attachedHere, steps[1..]);
      (final, pushes + (if op.Pushed? then 1 else 0), pops + (if op.Popped? then 1 else 0))
  }

  /**
    * Starting with no frame, a frame is open exactly while the level is
    * positive: pushes exceed pops by one then, and equal them at level 0.
    */
  lemma {:induction false} FrameOpenWhileNested(level: nat, attachedHere: bool, steps: seq<Step>)
    ensures var (final, pushes, pops) := Run(level, attachedHere, steps);
            pushes + (if level > 0 then 1 else 0) == pops + (if final > 0 then 1 else 0)
    decreases |steps|
  {
    if steps != [] {
      var (next, _) := if steps[0] == Enter then Increase(level, attachedHere, true) else Decrease(level, true);
      FrameOpenWhileNested(next, attachedHere, steps[1..]);
    }
  }

  /** `k` nested entries followed by `k` exits. */
  function Nested(k: nat): (s: seq<Step>)
    ensures |s| == 2 * k
  {
    seq(k, _ => Enter) + seq(k, _ => Exit)
  }

  /** Running entries raises the level by their number and pushes only when starting at 0. */
  lemma {:induction false} RunEnters(level: nat, attachedHere: bool, k: nat, rest: seq<Step>)
    ensures var (f, pu, po) := Run(level + k, attachedHere, rest);
            Run(level, attachedHere, seq(k, _ => Enter) + rest)
            == (f, pu + (if level == 0 && k > 0 then 1 else 0), po)
    decreases k
  {
    if k > 0 {
      var s := seq(k, _ => Enter) + rest;
      assert s[0] == Enter;
      assert s[1..] == seq(k - 1, _ => Enter) + rest;
      RunEnters(level + 1, attachedHere, k - 1, rest);
    } else {
      assert seq(k, _ => Enter) + rest == rest;
    }
  }

  /** Running exits lowers the level by their number and pops only when reaching 0 from 1. */
  lemma {:induction false} RunExits(level: nat, attachedHere: bool, k: nat)
    requires k <= level
    ensures Run(level, attachedHere, seq(k, _ => Exit)) == (level - k, 0, if k > 0 && level == k then 1 else 0)
    decreases k
  {
    if k > 0 {
      var s := seq(k, _ => Exit);
      assert s[0] == Exit;
      assert s[1..] == seq(k - 1, _ => Exit);
      RunExits(level - 1, attachedHere, k - 1);
    }
  }

  /**
    * Balanced nested use from a fresh thread pushes one frame on the
    * outermost entry and pops it on the outermost exit, and returns to level 0.
    */
  lemma OneFramePerNesting(attachedHere: bool, k: nat)
    requires k > 0
    ensures Run(0, attachedHere, Nested(k)) == (0, 1, 1)
  {
    RunEnters(0, attachedHere, k, seq(k, _ => Exit));
    RunExits(k, attachedHere, k);
  }

  /** Exiting at level 0 pops nothing and stays at 0; the counter never goes negative. */
  lemma ExitAtZero(tls: bool)
    ensures Decrease(0, tls) == (0, Untouched)
  {
  }

  /** `i as u8` on each Java byte: two's complement reinterpretation. */
  function AsVecU8(a: seq<I8>): (r: seq<U8>)
    ensures |r| == |a|
    ensures forall i :: 0 <= i < |a| ==> r[i] == (if a[i] < 0 then a[i] as int + 0x100 else a[i] as int)
  {
    seq(|a|, i requires 0 <= i < |a| => if a[i] < 0 then (a[i] as int + 0x100) as U8 else a[i] as U8)
  }

  /** `from_slice`: the bytes stored into a Java byte array, each reinterpreted as signed. */
  function FromSlice(data: seq<U8>): (r: seq<I8>)
    ensures |r| == |data|
  {
    seq(|data|, i requires 0 <= i < |data| => if data[i] >= 0x80 then (data[i] as int - 0x100) as I8 else data[i] as I8)
  }

  /** Storing bytes into a Java array and reading them back gives them unchanged, and the other way round. */
  lemma ByteArrayRoundTrip(data: seq<U8>, a: seq<I8>)
    ensures AsVecU8(FromSlice(data)) == data
    ensures FromSlice(AsVecU8(a)) == a
  {
  }
}

=== FILE: kinds.dfy ===
/**
  * The error kinds the backends report (`ErrorKind::NotSupported`,
  * `ErrorKind::Protocol(AttError)`, ...). These belong to a newer error type
  * than the one in `src/error.rs`; that newer type's own file is not part of
  * this model, so its kinds are declared here as the backends use them.
  * `AttError` there is a plain wrapper around the ATT code octet.
  */
module Kinds {
  import opened Ints

  datatype Kind =
    | NotReady
    | NotAuthorized
    | NotSupported
    | NotConnected
    | NotFound
    | AdapterUnavailable
    | AlreadyScanning
    | ConnectionFailed
    | InvalidParameter
    | Timeout
    | ServiceChanged
    | Protocol(att: U8)
    | Internal
    | Other

  /** `AttError::UNLIKELY_ERROR`, code 0x0E of section 3.4.1.1 of Volume 3, Part F of the Core Specification. */
  const UnlikelyError: U8 := 0x0E
}

=== FILE: l2cap.dfy ===
/**
  * `src/corebluetooth/l2cap_channel.rs`: the packet queues between an
  * L2CAP channel's native streams and its reader and writer. Each side is a
  * bounded FIFO of 16 packets; the input stream's delegate enqueues reads
  * of at most 1024 octets.
  */
module L2cap {
  import opened Wrappers
  import opened Kinds

  /** The bound of both `async_channel::bounded` queues. */
  const Capacity := 16
  /** The size of the input delegate's read buffer. */
  const ReadChunk := 1024

  type Packet = seq<bv8>

  /** A bounded queue: the packets waiting, oldest first, and whether the other end is gone. */
  datatype Queue = Queue(packets: seq<Packet>, closed: bool)

  const Empty := Queue([], false)

  predicate Bounded(q: Queue) {
    |q.packets| <= Capacity
  }

  /** The reader's queue: bounded, and every packet at most one read buffer long. */
  predicate ReaderQueue(q: Queue) {
    Bounded(q) && forall i :: 0 <= i < |q.packets| ==> |q.packets[i]| <= ReadChunk
  }

  /** `try_send`: `ConnectionFailed` once closed, `NotReady` when full; otherwise the packet goes to the back. */
  function TrySend(q: Queue, p: Packet): (r: Result<Queue, Kind>)
    ensures r.Ok? <==> !q.closed && |q.packets| < Capacity
    ensures r.Ok? ==> r.value == q.(packets := q.packets + [p])
    ensures r.Err? ==> r.error == if q.closed then ConnectionFailed else NotReady
  {
    if q.closed then Err(ConnectionFailed)
    else if |q.packets| >= Capacity then Err(NotReady)
    else Ok(q.(packets := q.packets + [p]))
  }

  /**
    * `try_recv`: the front packet while any is queued, even after the
    * sender is gone; `NotReady` when empty, `ConnectionFailed` when empty
    * and closed.
    */
  function TryRecv(q: Queue): (r: Result<(Packet, Queue), Kind>)
    ensures r.Ok? <==> |q.packets| > 0
    ensures r.Ok? ==> [r.value.0] + r.value.1.packets == q.packets && r.value.1.closed == q.closed
    ensures r.Err? ==> r.error == if q.closed then ConnectionFailed else NotReady
  {
    if |q.packets| > 0 then Ok((q.packets[0], q.(packets := q.packets[1..])))
    else if q.closed then Err(ConnectionFailed)
    else Err(NotReady)
  }

  /** `recv().await`: like `try_recv`, except that an empty open queue keeps waiting (`None`). */
  function Recv(q: Queue): (r: Option<Result<(Packet, Queue), Kind>>)
    ensures r.None? <==> |q.packets| == 0 && !q.closed
    ensures r.Some? ==> r.value == TryRecv(q)
  {
    match TryRecv(q)
    case Err(NotReady) => None
    case r => Some(r)
  }

  /**
    * Copying a packet into the caller's buffer: `InvalidParameter` when it
    * does not fit; otherwise its length, with the packet at the front of the
    * buffer and the rest of the buffer as it was.
    */
  function CopyInto(p: Packet, buf: seq<bv8>): (r: Result<(nat, seq<bv8>), Kind>)
    ensures r.Ok? <==> |p| <= |buf|
    ensures r.Err? ==> r.error == InvalidParameter
    ensures r.Ok? ==> r.value.0 == |p| && |r.value.1| == |buf|
                      && r.value.1[..|p|] == p && r.value.1[|p|..] == buf[|p|..]
  {
    if |p| > |buf| then Err(InvalidParameter)
    else Ok((|p|, p + buf[|p|..]))
  }

  /** The outcome of a read: the queue afterwards, and the length read with the new buffer, or the error. */
  datatype ReadResult = ReadResult(queue: Queue, outcome: Result<(nat, seq<bv8>), Kind>)

  /** Dequeues, then copies; the packet is gone from the queue even when it does not fit. */
  function Deliver(received: Result<(Packet, Queue), Kind>, q: Queue, buf: seq<bv8>): (r: ReadResult)
    ensures received.Err? ==> r == ReadResult(q, Err(received.error))
    ensures received.Ok? ==> r == ReadResult(received.value.1, CopyInto(received.value.0, buf))
  {
    match received
    case Err(k) => ReadResult(q, Err(k))
    case Ok((p, rest)) => ReadResult(rest, CopyInto(p, buf))
  }

  /** `L2capChannelReader::try_read`. */
  function TryRead(q: Queue, buf: seq<bv8>): (r: ReadResult)
    ensures |q.packets| == 0 ==> r == ReadResult(q, Err(if q.closed then ConnectionFailed else NotReady))
    ensures |q.packets| > 0 ==> r.queue.packets == q.packets[1..]
    ensures |q.packets| > 0 && |q.packets[0]| > |buf| ==> r.outcome == Err(InvalidParameter)
    ensures r.outcome.Ok? ==> |q.packets| > 0 && r.outcome.value.0 == |q.packets[0]|
                              && r.outcome.value.1 == q.packets[0] + buf[|q.packets[0]|..]
  {
    Deliver(TryRecv(q), q, buf)
  }

  /** `L2capChannelReader::read`: `None` while it waits on an empty open queue. */
  function Read(q: Queue, buf: seq<bv8>): (r: Option<ReadResult>)
    ensures r.None? <==> |q.packets| == 0 && !q.closed
    ensures r.Some? ==> r.value == TryRead(q, buf)
  {
    match Recv(q)
    case None => None
    case Some(received) => Some(Deliver(received, q, buf))
  }

  /** `L2capChannelWriter::try_write`. */
  function TryWrite(q: Queue, p: Packet): (r: Result<Queue, Kind>)
    ensures r.Ok? <==> !q.closed && |q.packets| < Capacity
    ensures r.Err? ==> r.error == if q.closed then ConnectionFailed else NotReady
    ensures Bounded(q) && r.Ok? ==> Bounded(r.value) && r.value.packets == q.packets + [p]
  {
    TrySend(q, p)
  }

  /** `L2capChannelWriter::write`: waits (`None`) while the queue is full and open. */
  function Write(q: Queue, p: Packet): (r: Option<Result<Queue, Kind>>)
    ensures r.None? <==> !q.closed && |q.packets| >= Capacity
    ensures r.Some? ==> r.value == TrySend(q, p)
  {
    match TrySend(q, p)
    case Err(NotReady) => None
    case r => Some(r)
  }

  /** The input stream's delegate: the queue and whether it still listens to the stream. */
  datatype Input = Input(queue: Queue, listening: bool)

  /**
    * `HasBytesAvailable`: one native read of at most 1024 octets from the
    * bytes the stream has (`None` when the read reports failure, which
    * changes nothing), enqueued as one packet; when the queue refuses it,
    * the packet is lost and the delegate stops listening.
    */
  function BytesAvailable(i: Input, available: Option<seq<bv8>>): (r: Input)
    ensures ReaderQueue(i.queue) ==> ReaderQueue(r.queue)
    ensures !i.listening || available.None? ==> r == i
    ensures r.listening ==> i.listening
    ensures i.listening && available.Some? && r.listening ==>
              r.queue.packets == i.queue.packets + [available.value[..Min(|available.value|, ReadChunk)]]
    ensures i.listening && available.Some? && !r.listening ==> r.queue == i.queue
  {
    if !i.listening then i
    else match available
      case None => i
      case Some(bytes) =>
        var p := bytes[..Min(|bytes|, ReadChunk)];
        match TrySend(i.queue, p)
        case Ok(q) => Input(q, true)
        case Err(_) => Input(i.queue, false)
  }

  function Min(a: nat, b: nat): nat {
    if a < b then a else b
  }

  /** The queue after `try_send` of each packet in turn, stopping at the first refusal. */
  function SendAll(q: Queue, ps: seq<Packet>): Queue
    decreases |ps|
  {
    if ps == [] then q
    else match TrySend(q, ps[0])
      case Ok(q') => SendAll(q', ps[1..])
      case Err(_) => q
  }

  /** The packets `n` successive `try_recv`s return, stopping at the first error. */
  function RecvN(q: Queue, n: nat): seq<Packet>
    decreases n
  {
    if n == 0 then []
    else match TryRecv(q)
      case Ok((p, q')) => [p] + RecvN(q', n - 1)
      case Err(_) => []
  }

  /** Receiving from a queue returns exactly its packets, in order. */
  lemma {:induction false} RecvAll(q: Queue)
    ensures RecvN(q, |q.packets|) == q.packets
    decreases |q.packets|
  {
    if |q.packets| > 0 {
      RecvAll(q.(packets := q.packets[1..]));
    }
  }

  /** Sending into an open queue with room appends every packet. */
  lemma {:induction false} SendAllAppends(q: Queue, ps: seq<Packet>)
    requires !q.closed && |q.packets| + |ps| <= Capacity
    ensures SendAll(q, ps) == q.(packets := q.packets + ps)
    decreases |ps|
  {
    if ps != [] {
      SendAllAppends(q.(packets := q.packets + [ps[0]]), ps[1..]);
      assert q.packets + [ps[0]] + ps[1..] == q.packets + ps;
    }
  }

  /** First in, first out: up to 16 packets sent into a fresh queue come back out in the order sent. */
  lemma Fifo(ps: seq<Packet>)
    requires |ps| <= Capacity
    ensures RecvN(SendAll(Empty, ps), |ps|) == ps
  {
    SendAllAppends(Empty, ps);
    RecvAll(SendAll(Empty, ps));
  }
}

=== FILE: pairing.dfy ===
/**
  * `src/pairing.rs`: IO capabilities, the six-digit `Passkey` with its
  * zero-padded rendering and parsing, and the behaviour of the default and
  * the no-input-no-output pairing agents.
  */
module Pairing {
  import opened Wrappers
  import opened Ints

  /** IO capabilities of section 2.3.2 of Volume 3, Part H of the Core Specification. */
  datatype IoCapability = DisplayOnly | DisplayYesNo | KeyboardOnly | NoInputNoOutput | KeyboardDisplay

  /** A passkey: at most six decimal digits. */
  type Passkey = n: int | 0 <= n <= 999_999

  /** The error of a failed passkey conversion. */
  datatype InvalidPasskey = InvalidPasskey

  /** `Passkey::new`, which asserts the value has at most six digits. */
  function NewPasskey(n: U32): (p: Passkey)
    requires n <= 999_999
    ensures p as int == n
  {
    n
  }

  /** `From<Passkey> for u32`. */
  function PasskeyToU32(p: Passkey): (n: U32)
    ensures n <= 999_999 && n == p as int
  {
    p
  }

  /** `TryFrom<u32> for Passkey`. */
  function PasskeyTryFrom(v: U32): (r: Result<Passkey, InvalidPasskey>)
    ensures r.Ok? <==> v <= 999_999
    ensures r.Ok? ==> PasskeyToU32(r.value) == v
  {
    if v <= 999_999 then Ok(v) else Err(InvalidPasskey)
  }

  /** The ASCII character of a decimal digit. */
  function DigitChar(d: int): char
    requires 0 <= d < 10
  {
    ('0' as int + d) as char
  }

  predicate IsDigit(c: char) {
    '0' <= c <= '9'
  }

  /** Every character is a decimal digit. */
  predicate AllDigits(s: string) {
    forall i :: 0 <= i < |s| ==> IsDigit(s[i])
  }

  /** The value of a decimal digit character. */
  function DigitValue(c: char): (d: nat)
    requires IsDigit(c)
    ensures d < 10 && DigitChar(d) == c
  {
    c as int - '0' as int
  }

  /** `Display for Passkey`, `{:06}`: the value in decimal, zero-padded to six places. */
  function Display(p: Passkey): (s: string)
    ensures |s| == 6
    ensures AllDigits(s)
  {
    Digits(p, 6)
  }

  /** The last `n` decimal digits of `q`, most significant first, zero-padded. */
  function Digits(q: nat, n: nat): (s: string)
    ensures |s| == n && AllDigits(s)
  {
    if n == 0 then [] else Digits(q / 10, n - 1) + [DigitChar(q % 10)]
  }

  /** `10^n`. */
  function Pow10(n: nat): nat {
    if n == 0 then 1 else 10 * Pow10(n - 1)
  }

  /** The number a string of decimal digits denotes. */
  function DecimalValue(s: string): nat
    requires AllDigits(s)
  {
    if s == [] then 0 else DecimalValue(s[..|s| - 1]) * 10 + DigitValue(s[|s| - 1])
  }

  /**
    * `str::parse::<u32>`: an optional `+`, then one or more ASCII digits whose
    * value fits in 32 bits. Anything else (the empty string, a sign alone, a
    * `-`, whitespace, an overflowing value) is an error.
    */
  function ParseU32(s: string): (r: Option<U32>)
    ensures r.Some? ==> |s| > 0
  {
    var digits := if |s| > 0 && s[0] == '+' then s[1..] else s;
    if |digits| > 0 && AllDigits(digits) && DecimalValue(digits) < 0x1_0000_0000
    then Some(DecimalValue(digits))
    else None
  }

  /** Digits whose value fits in 32 bits parse to that value, with or without a leading `+`. */
  lemma ParseU32Accepts(s: string)
    requires |s| > 0 && AllDigits(s) && DecimalValue(s) < 0x1_0000_0000
    ensures ParseU32(s) == Some(DecimalValue(s))
    ensures ParseU32(['+'] + s) == Some(DecimalValue(s))
  {
    assert (['+'] + s)[1..] == s;
  }

  /** `FromStr for Passkey`: parse as `u32`, then require six digits at most. */
  function ParsePasskey(s: string): (r: Result<Passkey, InvalidPasskey>)
    ensures r.Ok? <==> ParseU32(s).Some? && ParseU32(s).value <= 999_999
    ensures r.Ok? ==> r.value as int == ParseU32(s).value
  {
    match ParseU32(s)
    case None => Err(InvalidPasskey)
    case Some(v) => PasskeyTryFrom(v)
  }

  /** The six digits of a passkey denote the passkey. */
  lemma DisplayValue(p: Passkey)
    ensures DecimalValue(Display(p)) == p
  {
    assert Pow10(6) == 1_000_000 by {
      assert Pow10(2) == 100;
      assert Pow10(4) == 10 * (10 * Pow10(2));
    }
    DigitsValue(p, 6);
  }

  /** `n` digits denote any value below `10^n`. */
  lemma {:induction false} DigitsValue(q: nat, n: nat)
    requires q < Pow10(n)
    ensures DecimalValue(Digits(q, n)) == q
  {
    if n > 0 {
      var s := Digits(q, n);
      assert s[..n - 1] == Digits(q / 10, n - 1);
      DigitsValue(q / 10, n - 1);
    }
  }

  /** Parsing the rendering of a passkey gives the passkey back. */
  lemma ParseDisplay(p: Passkey)
    ensures ParsePasskey(Display(p)) == Ok(p)
  {
    DisplayValue(p);
  }

  /** Text that is not a number, and numbers above 999_999, are rejected. */
  lemma ParseRejects(s: string)
    ensures (|s| == 0 || !(IsDigit(s[0]) || s[0] == '+')) ==> ParsePasskey(s) == Err(InvalidPasskey)
    ensures ParseU32(s).Some? && ParseU32(s).value > 999_999 ==> ParsePasskey(s) == Err(InvalidPasskey)
  {
    if |s| > 0 && !(IsDigit(s[0]) || s[0] == '+') {
      assert !AllDigits(s);
    }
  }

  /**
    * A pairing agent, given by its answers: its IO capability, whether it
    * confirms, which passkeys it confirms, and the passkey it supplies on
    * request (`None` when it rejects the request).
    */
  datatype Agent = Agent(
    ioCapability: IoCapability,
    confirms: bool,
    confirmsPasskey: Passkey -> bool,
    requestedPasskey: Option<Passkey>)

  /** `PairingRejected`. */
  datatype PairingRejected = PairingRejected

  /** `PairingAgent::confirm`. */
  function Confirm(a: Agent): Result<(), PairingRejected> {
    if a.confirms then Ok(()) else Err(PairingRejected)
  }

  /** `PairingAgent::confirm_passkey`. */
  function ConfirmPasskey(a: Agent, p: Passkey): Result<(), PairingRejected> {
    if a.confirmsPasskey(p) then Ok(()) else Err(PairingRejected)
  }

  /** `PairingAgent::request_passkey`. */
  function RequestPasskey(a: Agent): Result<Passkey, PairingRejected> {
    match a.requestedPasskey
    case Some(p) => Ok(p)
    case None => Err(PairingRejected)
  }

  /** An agent that keeps every default method of `PairingAgent`. */
  function DefaultAgent(io: IoCapability): (a: Agent)
    ensures a.ioCapability == io
    ensures Confirm(a).Err? && RequestPasskey(a).Err?
    ensures forall p: Passkey :: ConfirmPasskey(a, p).Err?
  {
    Agent(io, false, _ => false, None)
  }

  /** `NoInputOutputPairingAgent`: reports no IO and confirms, rejecting everything else. */
  function NoInputOutputAgent(): (a: Agent)
    ensures a.ioCapability == NoInputNoOutput
    ensures Confirm(a) == Ok(())
    ensures RequestPasskey(a).Err? && forall p: Passkey :: ConfirmPasskey(a, p).Err?
  {
    DefaultAgent(NoInputNoOutput).(confirms := true)
  }
}

=== FILE: properties.dfy ===
/**
  * `CharacteristicProperties` of `src/lib.rs`: ten flags, numbered 0..9 —
  * the eight GATT characteristic properties of section 3.3.1.1 (bits 0..7)
  * and the two extended properties of section 3.3.3.1 (bits 8 and 9) of the
  * Bluetooth Core Specification, Volume 3, Part G — and their raw `u32` form.
  */
module Properties {

  datatype CharacteristicProperties = CharacteristicProperties(
    broadcast: bool,
    read: bool,
    writeWithoutResponse: bool,
    write: bool,
    notify: bool,
    indicate: bool,
    authenticatedSignedWrites: bool,
    extendedProperties: bool,
    reliableWrite: bool,
    writableAuxiliaries: bool)

  /** The derived `Default`: every flag clear. */
  const Default := CharacteristicProperties(false, false, false, false, false, false, false, false, false, false)

  /** Flag number `k`, in declaration order. */
  function Flag(p: CharacteristicProperties, k: nat): bool
    requires k < 10
  {
    match k
    case 0 => p.broadcast
    case 1 => p.read
    case 2 => p.writeWithoutResponse
    case 3 => p.write
    case 4 => p.notify
    case 5 => p.indicate
    case 6 => p.authenticatedSignedWrites
    case 7 => p.extendedProperties
    case 8 => p.reliableWrite
    case _ => p.writableAuxiliaries
  }

  /** Whether any bit of `mask` is set in `bits`, `bits & mask != 0`. */
  predicate Has(bits: bv32, mask: bv32) {
    bits & mask != 0
  }

  /** Whether bit `k` of `b` is set, `b & (1 << k) != 0`. */
  predicate Bit(b: bv32, k: nat)
    requires k < 32
  {
    Has(b, 1 << k)
  }

  /** `u32::from(bool)`. */
  function B(x: bool): bv32 {
    if x then 1 else 0
  }

  /** `from_bits`: flag k is bit k; bits 10 and above are ignored. */
  function FromBits(bits: bv32): CharacteristicProperties {
    CharacteristicProperties(
      Has(bits, 0x001), Has(bits, 0x002), Has(bits, 0x004), Has(bits, 0x008), Has(bits, 0x010),
      Has(bits, 0x020), Has(bits, 0x040), Has(bits, 0x080), Has(bits, 0x100), Has(bits, 0x200))
  }

  /** `to_bits`: the flags packed into bits 0..9. */
  function ToBits(p: CharacteristicProperties): (bits: bv32)
    ensures bits < 1024
  {
    B(p.broadcast) | (B(p.read) << 1) | (B(p.writeWithoutResponse) << 2) | (B(p.write) << 3)
      | (B(p.notify) << 4) | (B(p.indicate) << 5) | (B(p.authenticatedSignedWrites) << 6)
      | (B(p.extendedProperties) << 7) | (B(p.reliableWrite) << 8) | (B(p.writableAuxiliaries) << 9)
  }

  /** Packing then unpacking gives the properties back. */
  lemma FromBitsToBits(p: CharacteristicProperties)
    ensures FromBits(ToBits(p)) == p
  {
  }

  /** Unpacking then packing keeps bits 0..9 and clears the rest. */
  lemma ToBitsFromBits(bits: bv32)
    ensures ToBits(FromBits(bits)) == bits & 0x3FF
  {
  }

  /** Flag `k` is set exactly when bit `k` of the raw form is set, in both directions. */
  lemma FlagIsBit(p: CharacteristicProperties, bits: bv32, k: nat)
    requires k < 10
    ensures Flag(p, k) <==> Bit(ToBits(p), k)
    ensures Flag(FromBits(bits), k) <==> Bit(bits, k)
  {
    MaskIsShift(k);
    PackedMask(p, k);
    UnpackedMask(bits, k);
  }

  /** The single-bit mask `1 << k`, written out. */
  function Mask(k: nat): bv32
    requires k < 10
  {
    match k
    case 0 => 0x001
    case 1 => 0x002
    case 2 => 0x004
    case 3 => 0x008
    case 4 => 0x010
    case 5 => 0x020
    case 6 => 0x040
    case 7 => 0x080
    case 8 => 0x100
    case _ => 0x200
  }

  /** `Mask(k)` is the shifted bit it spells out. */
  lemma MaskIsShift(k: nat)
    requires k < 10
    ensures 1 << k == Mask(k)
  {
    match k
    case 0 => assert 1 << k == 0x001 as bv32;
    case 1 => assert 1 << k == 0x002 as bv32;
    case 2 => assert 1 << k == 0x004 as bv32;
    case 3 => assert 1 << k == 0x008 as bv32;
    case 4 => assert 1 << k == 0x010 as bv32;
    case 5 => assert 1 << k == 0x020 as bv32;
    case 6 => assert 1 << k == 0x040 as bv32;
    case 7 => assert 1 << k == 0x080 as bv32;
    case 8 => assert 1 << k == 0x100 as bv32;
    case _ => assert 1 << k == 0x200 as bv32;
  }

  /** Flag `k` lands on bit `k` of the packed form. */
  lemma PackedMask(p: CharacteristicProperties, k: nat)
    requires k < 10
    ensures Flag(p, k) <==> Has(ToBits(p), Mask(k))
  {
    if k < 5 {
      PackedLow(p, k);
    } else {
      PackedHigh(p, k);
    }
  }

  /** `PackedMask` for flags 0..4. */
  lemma PackedLow(p: CharacteristicProperties, k: nat)
    requires k < 5
    ensures Flag(p, k) <==> ToBits(p) & Mask(k) != 0
  {
    match k
    case 0 => {}
    case 1 => {}
    case 2 => {}
    case 3 => {}
    case _ => {}
  }

  /** `PackedMask` for flags 5..9. */
  lemma PackedHigh(p: CharacteristicProperties, k: nat)
    requires 5 <= k < 10
    ensures Flag(p, k) <==> ToBits(p) & Mask(k) != 0
  {
    match k
    case 5 => {}
    case 6 => {}
    case 7 => {}
    case 8 => {}
    case _ => {}
  }

  /** Bit `k` of a raw form is flag `k` of its unpacked form. */
  lemma UnpackedMask(bits: bv32, k: nat)
    requires k < 10
    ensures Flag(FromBits(bits), k) <==> Has(bits, Mask(k))
  {
    match k
    case 0 => {}
    case 1 => {}
    case 2 => {}
    case 3 => {}
    case 4 => {}
    case 5 => {}
    case 6 => {}
    case 7 => {}
    case 8 => {}
    case _ => {}
  }

  /** Bits 10 and above make no difference to `from_bits`. */
  lemma HighBitsIgnored(bits: bv32)
    ensures FromBits(bits) == FromBits(bits & 0x3FF)
  {
  }

  /** The default value has no flag set and packs to 0. */
  lemma DefaultIsZero()
    ensures ToBits(Default) == 0 && FromBits(0) == Default
    ensures forall k :: 0 <= k < 10 ==> !Flag(Default, k)
  {
  }
}

=== FILE: streams.dfy ===
/**
  * Finite views of the asynchronous streams the backends consume. An event
  * stream is the sequence of events received so far; a loop that returns on
  * its first decisive event is `FirstSome`, a `filter_map` adapter is
  * `FilterMap`, and `take_while` is `TakeWhile`.
  */
module Streams {
  import opened Wrappers

  /**
    * The verdict of the first event `f` decides on, or `None` while every
    * event so far is ignored (the loop is still waiting).
    */
  function FirstSome<A, B(==)>(s: seq<A>, f: A -> Option<B>): (r: Option<B>)
    ensures r.None? <==> forall i :: 0 <= i < |s| ==> f(s[i]).None?
    ensures r.Some? ==> exists i :: 0 <= i < |s| && f(s[i]) == r && forall j :: 0 <= j < i ==> f(s[j]).None?
    decreases |s|
  {
    if s == [] then None
    else if f(s[0]).Some? then f(s[0])
    else
      var r := FirstSome(s[1..], f);
      assert forall i :: 0 < i < |s| ==> s[i] == s[1..][i - 1];
      if r.Some? then
        var i :| 0 <= i < |s[1..]| && f(s[1..][i]) == r && forall j :: 0 <= j < i ==> f(s[1..][j]).None?;
        assert f(s[i + 1]) == r && forall j :: 0 <= j < i + 1 ==> f(s[j]).None?;
        r
      else r
  }

  /** The verdict is the one of the earliest decisive event, whatever follows it. */
  lemma FirstSomeAt<A, B>(s: seq<A>, f: A -> Option<B>, i: nat)
    requires i < |s| && f(s[i]).Some?
    requires forall j :: 0 <= j < i ==> f(s[j]).None?
    ensures FirstSome(s, f) == f(s[i])
  {
    var k :| 0 <= k < |s| && f(s[k]) == FirstSome(s, f) && forall j :: 0 <= j < k ==> f(s[j]).None?;
  }

  /**
    * Receiving more events never changes a verdict already reached, and
    * while waiting the verdict is that of the later events.
    */
  lemma {:induction false} FirstSomeAppend<A, B>(a: seq<A>, b: seq<A>, f: A -> Option<B>)
    ensures FirstSome(a + b, f) == if FirstSome(a, f).Some? then FirstSome(a, f) else FirstSome(b, f)
    decreases |a|
  {
    if a == [] {
      assert a + b == b;
    } else {
      assert (a + b)[0] == a[0];
      assert (a + b)[1..] == a[1..] + b;
      FirstSomeAppend(a[1..], b, f);
    }
  }

  /** `filter_map`: the images of the events `f` keeps, in order. */
  function FilterMap<A, B>(s: seq<A>, f: A -> Option<B>): (r: seq<B>)
    ensures |r| <= |s|
    decreases |s|
  {
    if s == [] then []
    else
      var rest := FilterMap(s[1..], f);
      match f(s[0])
      case Some(y) => [y] + rest
      case None => rest
  }

  /** `filter_map` distributes over concatenation: a stream can be consumed in pieces. */
  lemma {:induction false} FilterMapAppend<A, B>(a: seq<A>, b: seq<A>, f: A -> Option<B>)
    ensures FilterMap(a + b, f) == FilterMap(a, f) + FilterMap(b, f)
    decreases |a|
  {
    if a == [] {
      assert a + b == b;
    } else {
      assert (a + b)[0] == a[0];
      assert (a + b)[1..] == a[1..] + b;
      FilterMapAppend(a[1..], b, f);
    }
  }

  /** An event `f` drops can be removed from anywhere without changing the items. */
  lemma FilterMapSkips<A, B>(a: seq<A>, x: A, b: seq<A>, f: A -> Option<B>)
    requires f(x).None?
    ensures FilterMap(a + [x] + b, f) == FilterMap(a + b, f)
  {
    FilterMapAppend(a + [x], b, f);
    FilterMapAppend(a, [x], f);
    FilterMapAppend(a, b, f);
    assert FilterMap([x], f) == [] by {
      assert [x][1..] == [];
    }
  }

  /** Every item comes from an event of the stream, and every kept event yields an item. */
  lemma {:induction false} FilterMapMembers<A, B>(s: seq<A>, f: A -> Option<B>)
    ensures forall y :: y in FilterMap(s, f) <==> exists i :: 0 <= i < |s| && f(s[i]) == Some(y)
    decreases |s|
  {
    if s != [] {
      FilterMapMembers(s[1..], f);
      assert forall i :: 0 < i < |s| ==> s[i] == s[1..][i - 1];
      forall y | exists i :: 0 <= i < |s| && f(s[i]) == Some(y)
        ensures y in FilterMap(s, f)
      {
        var i :| 0 <= i < |s| && f(s[i]) == Some(y);
        if i > 0 {
          assert f(s[1..][i - 1]) == Some(y);
        }
      }
    }
  }

  /** `take_while`: the longest prefix whose every event satisfies `p`. */
  function TakeWhile<A>(s: seq<A>, p: A -> bool): (r: seq<A>)
    ensures r <= s
    ensures forall i :: 0 <= i < |r| ==> p(r[i])
    ensures |r| < |s| ==> !p(s[|r|])
    decreases |s|
  {
    if s == [] || !p(s[0]) then []
    else
      var rest := TakeWhile(s[1..], p);
      assert [s[0]] + s[1..] == s;
      [s[0]] + rest
  }

  /** Events that all pass `p` are all taken, and taking continues into what follows them. */
  lemma {:induction false} TakeWhileAppend<A>(a: seq<A>, b: seq<A>, p: A -> bool)
    requires forall i :: 0 <= i < |a| ==> p(a[i])
    ensures TakeWhile(a + b, p) == a + TakeWhile(b, p)
    decreases |a|
  {
    if a == [] {
      assert a + b == b;
    } else {
      assert (a + b)[0] == a[0];
      assert (a + b)[1..] == a[1..] + b;
      TakeWhileAppend(a[1..], b, p);
    }
  }

  /** `Iterator::filter`: the events satisfying `p`, in order. */
  function Filter<A(!new)>(s: seq<A>, p: A -> bool): (r: seq<A>)
    ensures |r| <= |s|
    ensures forall x :: x in r <==> x in s && p(x)
    decreases |s|
  {
    if s == [] then []
    else
      var rest := Filter(s[1..], p);
      assert forall x :: x in s <==> x == s[0] || x in s[1..];
      if p(s[0]) then [s[0]] + rest else rest
  }
}

=== FILE: uuid_ext.dfy ===
/**
  * `src/uuid.rs`: the alternative `BluetoothUuidExt` implementation. Its
  * 32-bit predicate demands a non-zero upper half, so a UUID is at most one of
  * "16-bit" and "32-bit", and the wire form of a 32-bit number that fits in 16
  * bits is the 2-byte form.
  */
module UuidExt {
  import opened Wrappers
  import opened Uuids

  /** `is_u16_uuid`: on the Base UUID with the top 16 bits clear. */
  predicate IsU16(u: Uuid) {
    OnBase(u) && High32(u) & 0xFFFF_0000 == 0
  }

  /** `is_u32_uuid`: on the Base UUID with some of the top 16 bits set. */
  predicate IsU32(u: Uuid) {
    OnBase(u) && High32(u) & 0xFFFF_0000 != 0
  }

  /** `try_to_u16`: the top bits truncated to 16 bits, when `IsU16` holds. */
  function TryToU16(u: Uuid): (r: Option<bv16>)
    ensures r.Some? <==> IsU16(u)
    ensures r.Some? ==> FromU16(r.value) == u
  {
    if IsU16(u) then OnBaseDeterminedByHigh(u); Some(((u >> 96) & 0xFFFF) as bv16) else None
  }

  /** `try_to_u32`: the top 32 bits, when `IsU32` holds. */
  function TryToU32(u: Uuid): (r: Option<bv32>)
    ensures r.Some? <==> IsU32(u)
    ensures r.Some? ==> FromU32(r.value) == u && r.value > 0xFFFF
  {
    if IsU32(u) then OnBaseDeterminedByHigh(u); Some((u >> 96) as bv32) else None
  }

  /**
    * `as_bluetooth_bytes`: octets 2..4 of a 16-bit UUID, octets 0..4 of a
    * 32-bit one, all sixteen octets otherwise.
    */
  function AsBluetoothBytes(u: Uuid): (r: seq<bv8>)
    ensures |r| == 2 <==> IsU16(u)
    ensures |r| == 4 <==> IsU32(u)
    ensures |r| == 16 <==> !OnBase(u)
    ensures IsWireLength(|r|)
  {
    if IsU16(u) then Bytes(u)[2..4]
    else if IsU32(u) then Bytes(u)[0..4]
    else Bytes(u)
  }

  /** The two predicates never hold together. */
  lemma Exclusive(u: Uuid)
    ensures !(IsU16(u) && IsU32(u))
  {
  }

  /** Every 16-bit number comes back from its UUID. */
  lemma U16RoundTrip(x: bv16)
    ensures TryToU16(FromU16(x)) == Some(x)
  {
  }

  /**
    * A 32-bit number comes back from `try_to_u32` exactly when it does not fit
    * in 16 bits; one that fits comes back from `try_to_u16` instead.
    */
  lemma U32RoundTrip(x: bv32)
    ensures TryToU32(FromU32(x)) == Some(x) <==> x > 0xFFFF
    ensures x <= 0xFFFF ==> TryToU32(FromU32(x)) == None && TryToU16(FromU32(x)) == Some(x as bv16)
  {
    if x > 0xFFFF {
      LargeU32(x);
    } else {
      SmallU32(x);
    }
  }

  /** A number above 0xFFFF gives a 32-bit UUID. */
  lemma LargeU32(x: bv32)
    requires x > 0xFFFF
    ensures IsU32(FromU32(x))
  {
    assert High32(FromU32(x)) == x;
  }

  /** A number up to 0xFFFF gives the same UUID as its 16-bit form. */
  lemma SmallU32(x: bv32)
    requires x <= 0xFFFF
    ensures IsU16(FromU32(x)) && FromU16(x as bv16) == FromU32(x)
  {
    assert High32(FromU32(x)) == x;
  }

  /** The wire form decodes back to the UUID it came from. */
  lemma WireRoundTrip(u: Uuid)
    ensures FromBluetoothBytes(AsBluetoothBytes(u)) == u
  {
    HighOctets(u);
    if IsU16(u) || IsU32(u) {
      OnBaseDeterminedByHigh(u);
    } else {
      BytesThenFromBytes(u);
    }
  }

  /** A 2-byte wire form is reproduced exactly. */
  lemma ShortWireRoundTrip(s: seq<bv8>)
    requires |s| == 2
    ensures AsBluetoothBytes(FromBluetoothBytes(s)) == s
  {
    FromU16Octets(s);
    var r := Bytes(FromBluetoothBytes(s));
    assert r[2..4] == r[..4][2..4];
  }

  /**
    * A 4-byte wire form is reproduced when its first two octets are not both
    * zero; otherwise it collapses to its last two octets.
    */
  lemma MediumWireRoundTrip(s: seq<bv8>)
    requires |s| == 4
    ensures s[0] == 0 && s[1] == 0 ==> AsBluetoothBytes(FromBluetoothBytes(s)) == s[2..]
    ensures !(s[0] == 0 && s[1] == 0) ==> AsBluetoothBytes(FromBluetoothBytes(s)) == s
  {
    FromU32Octets(s);
    var u := FromBluetoothBytes(s);
    HighOctets(u);
    var r := Bytes(u);
    assert r[2..4] == r[..4][2..4];
    assert r[0..4] == r[..4];
  }
}

=== FILE: uuids.dfy ===
/**
  * Bluetooth UUIDs as 128-bit integers (the `as_u128` view of a `Uuid`), the
  * Bluetooth Base UUID, and the 2-, 4- and 16-byte big-endian wire forms.
  * These pieces are written identically in `src/btuuid.rs` and `src/uuid.rs`,
  * so they are defined here once; the two files' differing predicates live in
  * `BtUuid` and `UuidExt`.
  */
module Uuids {

  /** A UUID, read as the big-endian 128-bit integer `Uuid::as_u128`. */
  type Uuid = bv128

  /** The Bluetooth Base UUID 00000000-0000-1000-8000-00805F9B34FB. */
  const Base: Uuid := 0x0000_0000_0000_1000_8000_0080_5f9b_34fb

  /** `(1 << 96) - 1`: the part of a UUID shared with the Base UUID. */
  const LowMask: Uuid := 0xFFFF_FFFF_FFFF_FFFF_FFFF_FFFF

  /** The top 32 bits, `(u >> 96) as u32`. */
  function High32(u: Uuid): bv32 {
    (u >> 96) as bv32
  }

  /** True when the low 96 bits are those of the Base UUID. */
  predicate OnBase(u: Uuid) {
    u & LowMask == Base
  }

  /** `bluetooth_uuid_from_u16`: a 16-bit short UUID placed on the Base UUID. */
  function FromU16(x: bv16): (u: Uuid)
    ensures OnBase(u)
    ensures High32(u) == x as bv32
  {
    ((x as bv128) << 96) | Base
  }

  /** `bluetooth_uuid_from_u32`: a 32-bit short UUID placed on the Base UUID. */
  function FromU32(x: bv32): (u: Uuid)
    ensures OnBase(u)
    ensures High32(u) == x
  {
    ((x as bv128) << 96) | Base
  }

  /** A UUID is determined by its top 32 bits once it lies on the Base UUID. */
  lemma OnBaseDeterminedByHigh(u: Uuid)
    requires OnBase(u)
    ensures u == FromU32(High32(u))
  {
  }

  /** `Uuid::as_bytes`: the sixteen octets, most significant first. */
  function Bytes(u: Uuid): (r: seq<bv8>)
    ensures |r| == 16
  {
    [((u >> 120) & 0xFF) as bv8,
     ((u >> 112) & 0xFF) as bv8,
     ((u >> 104) & 0xFF) as bv8,
     ((u >> 96) & 0xFF) as bv8,
     ((u >> 88) & 0xFF) as bv8,
     ((u >> 80) & 0xFF) as bv8,
     ((u >> 72) & 0xFF) as bv8,
     ((u >> 64) & 0xFF) as bv8,
     ((u >> 56) & 0xFF) as bv8,
     ((u >> 48) & 0xFF) as bv8,
     ((u >> 40) & 0xFF) as bv8,
     ((u >> 32) & 0xFF) as bv8,
     ((u >> 24) & 0xFF) as bv8,
     ((u >> 16) & 0xFF) as bv8,
     ((u >> 8) & 0xFF) as bv8,
     ((u >> 0) & 0xFF) as bv8]
  }

  /** `Uuid::from_bytes`: sixteen octets, most significant first. */
  function FromBytes(s: seq<bv8>): Uuid
    requires |s| == 16
  {
    ((s[0] as bv128) << 120) |
    ((s[1] as bv128) << 112) |
    ((s[2] as bv128) << 104) |
    ((s[3] as bv128) << 96) |
    ((s[4] as bv128) << 88) |
    ((s[5] as bv128) << 80) |
    ((s[6] as bv128) << 72) |
    ((s[7] as bv128) << 64) |
    ((s[8] as bv128) << 56) |
    ((s[9] as bv128) << 48) |
    ((s[10] as bv128) << 40) |
    ((s[11] as bv128) << 32) |
    ((s[12] as bv128) << 24) |
    ((s[13] as bv128) << 16) |
    ((s[14] as bv128) << 8) |
    (s[15] as bv128)
  }

  /** `u16::from_be_bytes`. */
  function BeU16(s: seq<bv8>): bv16
    requires |s| == 2
  {
    ((s[0] as bv16) << 8) | (s[1] as bv16)
  }

  /** `u32::from_be_bytes`. */
  function BeU32(s: seq<bv8>): bv32
    requires |s| == 4
  {
    ((s[0] as bv32) << 24) | ((s[1] as bv32) << 16) | ((s[2] as bv32) << 8) | (s[3] as bv32)
  }

  /** The lengths a Bluetooth UUID can have on the wire. */
  predicate IsWireLength(n: nat) {
    n == 2 || n == 4 || n == 16
  }

  /**
    * `from_bluetooth_bytes`: a 2-byte slice is a big-endian 16-bit short UUID,
    * a 4-byte slice a big-endian 32-bit short UUID, a 16-byte slice a full UUID.
    * Any other length panics, hence the precondition.
    */
  function FromBluetoothBytes(s: seq<bv8>): (u: Uuid)
    requires IsWireLength(|s|)
    ensures |s| != 16 ==> OnBase(u)
    ensures |s| == 16 ==> Bytes(u) == s
  {
    if |s| == 2 then FromU16(BeU16(s))
    else if |s| == 4 then FromU32(BeU32(s))
    else FromBytesThenBytes(s); FromBytes(s)
  }

  /** The first four octets of a UUID are the octets of its top 32 bits. */
  lemma HighOctets(u: Uuid)
    ensures Bytes(u)[0] == ((High32(u) >> 24) & 0xFF) as bv8
    ensures Bytes(u)[1] == ((High32(u) >> 16) & 0xFF) as bv8
    ensures Bytes(u)[2] == ((High32(u) >> 8) & 0xFF) as bv8
    ensures Bytes(u)[3] == (High32(u) & 0xFF) as bv8
  {
  }

  /** A 2-byte wire form reappears as octets 2 and 3 of its UUID, after two zero octets. */
  lemma FromU16Octets(s: seq<bv8>)
    requires |s| == 2
    ensures Bytes(FromBluetoothBytes(s))[..4] == [0, 0] + s
  {
    var u := FromBluetoothBytes(s);
    var w: seq<bv8> := [0, 0] + s;
    HighOctets(u);
    BeU16Octets(s);
    WidenedOctets(BeU16(s));
    assert w[0] == 0 && w[1] == 0 && w[2] == s[0] && w[3] == s[1];
    Prefix4(Bytes(u), w);
  }

  /** `u16::from_be_bytes` keeps the octets in order. */
  lemma BeU16Octets(s: seq<bv8>)
    requires |s| == 2
    ensures (BeU16(s) >> 8) as bv8 == s[0] && (BeU16(s) & 0xFF) as bv8 == s[1]
  {
  }

  /** A 16-bit value widened to 32 bits has two zero octets above its own two. */
  lemma WidenedOctets(x: bv16)
    ensures ((x as bv32 >> 24) & 0xFF) as bv8 == 0 && ((x as bv32 >> 16) & 0xFF) as bv8 == 0
    ensures ((x as bv32 >> 8) & 0xFF) as bv8 == (x >> 8) as bv8 && (x as bv32 & 0xFF) as bv8 == (x & 0xFF) as bv8
  {
  }

  /** `u32::from_be_bytes` keeps the octets in order. */
  lemma BeU32Octets(s: seq<bv8>)
    requires |s| == 4
    ensures ((BeU32(s) >> 24) & 0xFF) as bv8 == s[0]
    ensures ((BeU32(s) >> 16) & 0xFF) as bv8 == s[1]
    ensures ((BeU32(s) >> 8) & 0xFF) as bv8 == s[2]
    ensures (BeU32(s) & 0xFF) as bv8 == s[3]
  {
  }

  /** When the top 32 bits of a UUID are `u32::from_be_bytes(s)`, its first four octets are `s`. */
  lemma HighOctetsAre(u: Uuid, s: seq<bv8>)
    requires |s| == 4 && High32(u) == BeU32(s)
    ensures Bytes(u)[0] == s[0] && Bytes(u)[1] == s[1] && Bytes(u)[2] == s[2] && Bytes(u)[3] == s[3]
  {
    BeU32Octets(s);
    HighOctets(u);
  }

  /** A 4-byte wire form reappears as the first four octets of its UUID. */
  lemma FromU32Octets(s: seq<bv8>)
    requires |s| == 4
    ensures Bytes(FromBluetoothBytes(s))[..4] == s
  {
    var u := FromBluetoothBytes(s);
    assert High32(u) == BeU32(s);
    HighOctetsAre(u, s);
    Prefix4(Bytes(u), s);
  }

  /** Two sequences that agree on their first four elements share a four-element prefix. */
  lemma Prefix4(r: seq<bv8>, s: seq<bv8>)
    requires |r| >= 4 && |s| == 4
    requires r[0] == s[0] && r[1] == s[1] && r[2] == s[2] && r[3] == s[3]
    ensures r[..4] == s
  {
  }

  /** Reading the octets of a UUID back gives the UUID. */
  lemma BytesThenFromBytes(u: Uuid)
    ensures FromBytes(Bytes(u)) == u
  {
  }

  /** Sixteen octets survive a trip through the integer view. */
  lemma FromBytesThenBytes(s: seq<bv8>)
    requires |s| == 16
    ensures Bytes(FromBytes(s)) == s
  {
  }
}

=== FILE: win_adapter.dfy ===
/**
  * `src/windows/adapter.rs`: reading UUIDs out of advertisement data
  * sections (solicited services and service data), the conversion of a
  * received advertisement into the Windows backend's record, and the scan
  * service filter. How the native `DataReader` orders the octets of an
  * integer is its own setting, so it is a parameter here.
  */
module WinAdapter {
  import opened Wrappers
  import opened Ints
  import Uuids
  import BtUuid
  import AdData
  import Streams

  /** The `DataReader`'s byte order for multi-octet integers. */
  datatype ByteOrder = BigEndian | LittleEndian

  datatype UuidKind = U16 | U32 | U128

  /** The octets one UUID of a kind takes up. */
  function Width(k: UuidKind): (w: nat)
    ensures w == 2 || w == 4 || w == 16
  {
    match k
    case U16 => 2
    case U32 => 4
    case U128 => 16
  }

  /** `ReadUInt16` / `ReadUInt32`: the first octets as an integer in the reader's byte order. */
  function ReadU16(order: ByteOrder, s: seq<bv8>): bv16
    requires |s| >= 2
  {
    match order
    case BigEndian => Uuids.BeU16(s[..2])
    case LittleEndian => Uuids.BeU16([s[1], s[0]])
  }

  function ReadU32(order: ByteOrder, s: seq<bv8>): bv32
    requires |s| >= 4
  {
    match order
    case BigEndian => Uuids.BeU32(s[..4])
    case LittleEndian => Uuids.BeU32([s[3], s[2], s[1], s[0]])
  }

  /**
    * `read_uuid`: 16- and 32-bit values are widened onto the Base UUID,
    * 128-bit UUIDs are sixteen raw octets; the read fails when too few
    * octets remain.
    */
  function ReadUuid(order: ByteOrder, k: UuidKind, s: seq<bv8>): (r: Option<Uuids.Uuid>)
    ensures r.Some? <==> |s| >= Width(k)
    ensures r.Some? && k == U16 ==> BtUuid.TryToU16(r.value) == Some(ReadU16(order, s))
    ensures r.Some? && k == U32 ==> BtUuid.TryToU32(r.value) == Some(ReadU32(order, s))
    ensures r.Some? && k == U128 ==> Uuids.Bytes(r.value) == s[..16]
  {
    if |s| < Width(k) then None
    else match k
      case U16 => BtUuid.U16RoundTrip(ReadU16(order, s)); Some(Uuids.FromU16(ReadU16(order, s)))
      case U32 => BtUuid.U32RoundTrip(ReadU32(order, s)); Some(Uuids.FromU32(ReadU32(order, s)))
      case U128 => Uuids.FromBytesThenBytes(s[..16]); Some(Uuids.FromBytes(s[..16]))
  }

  /** `while let Ok(uuid) = read_uuid(..)`: whole UUIDs one after another; a short tail is ignored. */
  function ReadAll(order: ByteOrder, k: UuidKind, s: seq<bv8>): (r: seq<Uuids.Uuid>)
    ensures |r| == |s| / Width(k)
    ensures |s| >= Width(k) ==> r[0] == ReadUuid(order, k, s).value
    ensures k != U128 ==> forall i :: 0 <= i < |r| ==> Uuids.OnBase(r[i])
    decreases |s|
  {
    match ReadUuid(order, k, s)
    case None => []
    case Some(u) => [u] + ReadAll(order, k, s[Width(k)..])
  }

  /** A data section of an advertisement: its AD type and its octets. */
  datatype Section = Section(dataType: U8, data: seq<bv8>)

  /** Solicitation AD types: 0x14 lists 16-bit, 0x15 128-bit and 0x1F 32-bit UUIDs. */
  function SolicitedKind(t: U8): (k: Option<UuidKind>)
    ensures k.Some? <==> t in {0x14, 0x15, 0x1F}
  {
    if t == 0x14 then Some(U16)
    else if t == 0x15 then Some(U128)
    else if t == 0x1F then Some(U32)
    else None
  }

  /** Service data AD types: 0x16 for 16-bit, 0x20 for 32-bit and 0x21 for 128-bit UUIDs. */
  function ServiceDataKind(t: U8): (k: Option<UuidKind>)
    ensures k.Some? <==> t in {0x16, 0x20, 0x21}
  {
    if t == 0x16 then Some(U16)
    else if t == 0x20 then Some(U32)
    else if t == 0x21 then Some(U128)
    else None
  }

  /** The UUIDs one section solicits. */
  function SectionSolicits(order: ByteOrder, s: Section): (r: seq<Uuids.Uuid>)
    ensures SolicitedKind(s.dataType).None? ==> r == []
  {
    match SolicitedKind(s.dataType)
    case None => []
    case Some(k) => ReadAll(order, k, s.data)
  }

  /** `to_solicited_services`: every section's UUIDs, sections in order. */
  function SolicitedServices(order: ByteOrder, sections: seq<Section>): seq<Uuids.Uuid>
    decreases |sections|
  {
    if sections == [] then []
    else SectionSolicits(order, sections[0]) + SolicitedServices(order, sections[1..])
  }

  /** Sections' UUIDs are concatenated in order, so the sections can be split anywhere. */
  lemma {:induction false} SolicitedAppend(order: ByteOrder, a: seq<Section>, b: seq<Section>)
    ensures SolicitedServices(order, a + b) == SolicitedServices(order, a) + SolicitedServices(order, b)
    decreases |a|
  {
    if a != [] {
      assert (a + b)[0] == a[0];
      assert (a + b)[1..] == a[1..] + b;
      SolicitedAppend(order, a[1..], b);
    } else {
      assert a + b == b;
    }
  }

  /** A section of a 16-bit solicitation type contributes one UUID per two octets, each the widened value. */
  lemma SolicitedU16Section(order: ByteOrder, s: Section)
    requires s.dataType == 0x14
    ensures |SolicitedServices(order, [s])| == |s.data| / 2
    ensures forall u :: u in SolicitedServices(order, [s]) ==> BtUuid.IsU16(u)
  {
    assert SolicitedServices(order, [s]) == ReadAll(order, U16, s.data) + SolicitedServices(order, []);
    forall u | u in ReadAll(order, U16, s.data)
      ensures BtUuid.IsU16(u)
    {
      ReadAllU16(order, s.data, u);
    }
  }

  /** Every UUID read as 16-bit is a 16-bit UUID. */
  lemma {:induction false} ReadAllU16(order: ByteOrder, s: seq<bv8>, u: Uuids.Uuid)
    requires u in ReadAll(order, U16, s)
    ensures BtUuid.IsU16(u)
    decreases |s|
  {
    var first := ReadUuid(order, U16, s).value;
    if u != first {
      ReadAllU16(order, s[2..], u);
    }
  }

  /**
    * One section's service data entry: the UUID it starts with and every
    * octet after it; nothing for other types or a section too short for
    * its UUID.
    */
  function ServiceDataEntry(order: ByteOrder, s: Section): (r: Option<(Uuids.Uuid, seq<bv8>)>)
    ensures r.Some? <==> ServiceDataKind(s.dataType).Some? && |s.data| >= Width(ServiceDataKind(s.dataType).value)
    ensures r.Some? ==> r.value.1 == s.data[Width(ServiceDataKind(s.dataType).value)..]
  {
    match ServiceDataKind(s.dataType)
    case None => None
    case Some(k) =>
      match ReadUuid(order, k, s.data)
      case None => None
      case Some(u) => Some((u, s.data[Width(k)..]))
  }

  /** `ServiceDataEntry` as a function value, for `filter_map`. */
  function EntryOf(order: ByteOrder): Section -> Option<(Uuids.Uuid, seq<bv8>)> {
    (s: Section) => ServiceDataEntry(order, s)
  }

  /** `to_service_data`: the sections' entries inserted in order, so a repeated UUID keeps the last value. */
  function ServiceData(order: ByteOrder, sections: seq<Section>): (r: AdData.ServiceData)
    ensures AdData.DistinctKeys(r)
  {
    AdData.Collect(Streams.FilterMap(sections, EntryOf(order)))
  }

  /** The value kept for a UUID is the one of the last section that carries it. */
  lemma ServiceDataKeepsLast(order: ByteOrder, sections: seq<Section>, u: Uuids.Uuid, v: seq<bv8>)
    requires sections != [] && ServiceDataEntry(order, sections[|sections| - 1]) == Some((u, v))
    ensures AdData.Lookup(ServiceData(order, sections), u) == Some(v)
  {
    var f := EntryOf(order);
    var n := |sections| - 1;
    assert sections == sections[..n] + [sections[n]];
    Streams.FilterMapAppend(sections[..n], [sections[n]], f);
    var entries := Streams.FilterMap(sections, f);
    assert Streams.FilterMap([sections[n]], f) == [(u, v)] by {
      assert [sections[n]][1..] == [];
    }
    AdData.LookupLast(entries, u, |entries| - 1);
  }

  /** Only sections of a service data type, long enough for their UUID, contribute. */
  lemma ServiceDataSkips(order: ByteOrder, a: seq<Section>, s: Section, b: seq<Section>)
    requires ServiceDataEntry(order, s).None?
    ensures ServiceData(order, a + [s] + b) == ServiceData(order, a + b)
  {
    Streams.FilterMapSkips(a, s, b, EntryOf(order));
  }

  /** The Windows backend's advertisement record, which also lists solicited services. */
  datatype WinAdvertisement = WinAdvertisement(
    localName: Option<string>,
    manufacturerData: Option<AdData.ManufacturerData>,
    services: seq<Uuids.Uuid>,
    solicitedServices: seq<Uuids.Uuid>,
    serviceData: AdData.ServiceData,
    txPowerLevel: Option<I16>,
    isConnectable: bool)

  /** The advertisement part of a received event; `None` where the native getter fails. */
  datatype NativeAdvertisement = NativeAdvertisement(
    localName: Option<string>,
    manufacturerData: seq<AdData.ManufacturerData>,
    serviceUuids: Option<seq<Uuids.Uuid>>,
    dataSections: Option<seq<Section>>)

  /** A received event: connectability, transmit power and the advertisement, each `None` where the getter fails. */
  datatype ReceivedEvent = ReceivedEvent(
    isConnectable: Option<bool>,
    txPowerLevel: Option<I16>,
    advertisement: Option<NativeAdvertisement>)

  /**
    * `From<BluetoothLEAdvertisementReceivedEventArgs>`: an empty local name
    * is no name, only the first manufacturer data entry is kept, a failed
    * getter gives the empty value, and without an advertisement every
    * advertised field is empty.
    */
  function FromReceived(order: ByteOrder, e: ReceivedEvent): (r: WinAdvertisement)
    ensures r.isConnectable == e.isConnectable.GetOr(false) && r.txPowerLevel == e.txPowerLevel
    ensures r.localName.Some? <==> e.advertisement.Some? && e.advertisement.value.localName.Some?
                                    && e.advertisement.value.localName.value != ""
    ensures r.localName.Some? ==> r.localName == e.advertisement.value.localName
    ensures r.manufacturerData.Some? <==> e.advertisement.Some? && |e.advertisement.value.manufacturerData| > 0
    ensures r.manufacturerData.Some? ==> r.manufacturerData.value == e.advertisement.value.manufacturerData[0]
    ensures e.advertisement.None? ==> r.services == [] && r.solicitedServices == [] && r.serviceData == []
    ensures e.advertisement.Some? ==> r.services == e.advertisement.value.serviceUuids.GetOr([])
  {
    match e.advertisement
    case None => WinAdvertisement(None, None, [], [], [], e.txPowerLevel, e.isConnectable.GetOr(false))
    case Some(adv) =>
      var sections := adv.dataSections.GetOr([]);
      WinAdvertisement(
        if adv.localName.Some? && adv.localName.value != "" then adv.localName else None,
        if |adv.manufacturerData| > 0 then Some(adv.manufacturerData[0]) else None,
        adv.serviceUuids.GetOr([]),
        SolicitedServices(order, sections),
        ServiceData(order, sections),
        e.txPowerLevel, e.isConnectable.GetOr(false))
  }

  /**
    * The scan filter: with no service list every advertisement passes;
    * with a list, an advertisement passes when one of its services is
    * listed.
    */
  predicate Passes(filter: Option<seq<Uuids.Uuid>>, ad: WinAdvertisement) {
    match filter
    case None => true
    case Some(wanted) => exists i :: 0 <= i < |ad.services| && ad.services[i] in wanted
  }

  /** What the scan stream yields from the advertisements received. */
  function ScanFilter(filter: Option<seq<Uuids.Uuid>>, ads: seq<WinAdvertisement>): (r: seq<WinAdvertisement>)
    ensures forall a :: a in r <==> a in ads && Passes(filter, a)
  {
    Streams.Filter(ads, (a: WinAdvertisement) => Passes(filter, a))
  }

  /** No filter keeps everything; an empty service list keeps nothing. */
  lemma ScanFilterExtremes(ads: seq<WinAdvertisement>)
    ensures ScanFilter(None, ads) == ads
    ensures ScanFilter(Some([]), ads) == []
  {
    FilterAll(ads);
    FilterNone(ads);
  }

  lemma {:induction false} FilterAll(ads: seq<WinAdvertisement>)
    ensures ScanFilter(None, ads) == ads
    decreases |ads|
  {
    if ads != [] {
      FilterAll(ads[1..]);
    }
  }

  lemma {:induction false} FilterNone(ads: seq<WinAdvertisement>)
    ensures ScanFilter(Some([]), ads) == []
    decreases |ads|
  {
    if ads != [] {
      FilterNone(ads[1..]);
    }
  }
}

=== FILE: win_characteristic.dfy ===
/**
  * `src/windows/characteristic.rs`: a WinRT GATT characteristic. Every
  * native operation reports a `GattCommunicationStatus`; the model takes
  * the status (and the value a successful operation produced) as input and
  * records which cache mode, write option or descriptor value was asked
  * for. Errors use the kinds of `src/error.rs`.
  */
module WinCharacteristic {
  import opened Wrappers
  import Errors
  import Properties
  import Uuids

  /** `GattCommunicationStatus`; `None` stands for a failing `Status()` getter. */
  datatype CommunicationStatus = Success | Unreachable | ProtocolError | AccessDenied

  datatype CacheMode = Cached | Uncached

  datatype WriteOption = WriteWithoutResponse | WriteWithResponse

  /** Every status but `Success`, and a failing status getter, is `AdapterUnavailable`. */
  function CheckStatus(status: Option<CommunicationStatus>): (r: Result<(), Errors.ErrorKind>)
    ensures r.Ok? <==> status == Some(Success)
    ensures r.Err? ==> r.error == Errors.AdapterUnavailable
  {
    if status == Some(Success) then Ok(()) else Err(Errors.AdapterUnavailable)
  }

  /**
    * `properties`: `BitFlags::from_bits(..).unwrap_or_else(|e| e.truncate())`,
    * so the bits no property is declared for are dropped instead of
    * failing. The property set is assumed to declare the ten GATT flags at
    * bits 0..9, which is where WinRT puts them.
    */
  function PropertiesOf(raw: bv32): (p: Properties.CharacteristicProperties)
    ensures Properties.ToBits(p) == raw & 0x3FF
    ensures p == PropertiesOf(raw & 0x3FF)
  {
    Properties.ToBitsFromBits(raw);
    Properties.HighBitsIgnored(raw);
    Properties.FromBits(raw & 0x3FF)
  }

  /** A native read: the status and, on success, the value. */
  datatype ReadOutcome = ReadOutcome(status: Option<CommunicationStatus>, value: seq<bv8>)

  /** `read_value`: the value on success, `AdapterUnavailable` otherwise. */
  function ReadValue(o: ReadOutcome): (r: Result<seq<bv8>, Errors.ErrorKind>)
    ensures r.Ok? <==> o.status == Some(Success)
    ensures r.Ok? ==> r.value == o.value
    ensures r.Err? ==> r.error == Errors.AdapterUnavailable
  {
    match CheckStatus(o.status)
    case Ok(_) => Ok(o.value)
    case Err(k) => Err(k)
  }

  /** `value`: one read in the `Cached` mode, given the native read for each mode. */
  function Value(native: CacheMode -> ReadOutcome): (r: Result<seq<bv8>, Errors.ErrorKind>)
    ensures r.Ok? <==> native(Cached).status == Some(Success)
    ensures r.Ok? ==> r.value == native(Cached).value
  {
    ReadValue(native(Cached))
  }

  /** `read`: one read in the `Uncached` mode, given the native read for each mode. */
  function Read(native: CacheMode -> ReadOutcome): (r: Result<seq<bv8>, Errors.ErrorKind>)
    ensures r.Ok? <==> native(Uncached).status == Some(Success)
    ensures r.Ok? ==> r.value == native(Uncached).value
  {
    ReadValue(native(Uncached))
  }

  /** A write request: the octets and the write option. */
  datatype WriteRequest = WriteRequest(value: seq<bv8>, option: WriteOption)

  /** `write_kind`: the request made and, from its status, the outcome. */
  function WriteKind(value: seq<bv8>, option: WriteOption, status: Option<CommunicationStatus>)
    : (r: (WriteRequest, Result<(), Errors.ErrorKind>))
    ensures r.0 == WriteRequest(value, option)
    ensures r.1 == CheckStatus(status)
  {
    (WriteRequest(value, option), CheckStatus(status))
  }

  /** `write`: the value is sent without asking for a response. */
  function Write(value: seq<bv8>, status: Option<CommunicationStatus>): (r: (WriteRequest, Result<(), Errors.ErrorKind>))
    ensures r.0.value == value && r.0.option == WriteWithoutResponse
    ensures r.1.Ok? <==> status == Some(Success)
  {
    WriteKind(value, WriteWithoutResponse, status)
  }

  /** `write_with_response`: the value is sent asking the device to acknowledge it. */
  function WriteAcknowledged(value: seq<bv8>, status: Option<CommunicationStatus>): (r: (WriteRequest, Result<(), Errors.ErrorKind>))
    ensures r.0.value == value && r.0.option == WriteWithResponse
    ensures r.1.Ok? <==> status == Some(Success)
  {
    WriteKind(value, WriteWithResponse, status)
  }

  /** `GattClientCharacteristicConfigurationDescriptorValue`: its raw values. */
  const CccdNone: bv32 := 0
  const CccdNotify: bv32 := 1
  const CccdIndicate: bv32 := 2

  /**
    * The value `notify` writes to the configuration descriptor: Notify when
    * the characteristic notifies, else Indicate when it indicates, else
    * `OperationNotSupported` before any handler is registered.
    */
  function NotifyValue(p: Properties.CharacteristicProperties): (r: Result<bv32, Errors.ErrorKind>)
    ensures r.Err? <==> !p.notify && !p.indicate
    ensures r.Err? ==> r.error == Errors.OperationNotSupported
    ensures r.Ok? ==> r.value == if p.notify then CccdNotify else CccdIndicate
  {
    if p.notify then Ok(CccdNotify)
    else if p.indicate then Ok(CccdIndicate)
    else Err(Errors.OperationNotSupported)
  }

  /** What `notify` did: whether a value-changed handler stays registered, what it wrote, and the outcome. */
  datatype NotifySetup = NotifySetup(handlerKept: bool, written: Option<bv32>, outcome: Result<(), Errors.ErrorKind>)

  /**
    * `notify`: chooses the value, registers the handler, writes the value;
    * on a failed write the guard removes the handler again.
    */
  function Notify(p: Properties.CharacteristicProperties, status: Option<CommunicationStatus>): (r: NotifySetup)
    ensures r.outcome.Ok? <==> (p.notify || p.indicate) && status == Some(Success)
    ensures r.handlerKept <==> r.outcome.Ok?
    ensures r.written.Some? <==> p.notify || p.indicate
    ensures r.written.Some? ==> NotifyValue(p) == Ok(r.written.value)
  {
    match NotifyValue(p)
    case Err(k) => NotifySetup(false, None, Err(k))
    case Ok(v) =>
      var outcome := CheckStatus(status);
      NotifySetup(outcome.Ok?, Some(v), outcome)
  }

  /** `is_notifying`: whether the configuration descriptor has the Notify or the Indicate bit. */
  function IsNotifying(status: Option<CommunicationStatus>, cccd: bv32): (r: Result<bool, Errors.ErrorKind>)
    ensures r.Ok? <==> status == Some(Success)
    ensures r.Err? ==> r.error == Errors.AdapterUnavailable
    ensures r.Ok? ==> (r.value <==> cccd & 1 != 0 || cccd & 2 != 0)
  {
    match CheckStatus(status)
    case Ok(_) => Ok(cccd & (CccdIndicate | CccdNotify) != 0)
    case Err(k) => Err(k)
  }

  /**
    * The write the stream's drop guard makes: the configuration descriptor
    * is set back to `None`. The guard exists only once set-up succeeded.
    */
  function StopWrite(setup: NotifySetup): (w: Option<bv32>)
    ensures w.Some? <==> setup.handlerKept
    ensures w.Some? ==> w.value & (CccdNotify | CccdIndicate) == 0
  {
    if setup.handlerKept then Some(CccdNone) else None
  }

  /**
    * After a successful `notify`, the descriptor reads back as notifying;
    * after the stream is dropped and the guard's write lands, it does not.
    */
  lemma NotifyThenIsNotifying(p: Properties.CharacteristicProperties)
    requires Notify(p, Some(Success)).written.Some?
    ensures IsNotifying(Some(Success), Notify(p, Some(Success)).written.value) == Ok(true)
    ensures StopWrite(Notify(p, Some(Success))).Some?
    ensures IsNotifying(Some(Success), StopWrite(Notify(p, Some(Success))).value) == Ok(false)
  {
  }

  /** A descriptor lookup: for one UUID or for all, in a cache mode. */
  datatype DescriptorQuery = DescriptorQuery(uuid: Option<Uuids.Uuid>, mode: CacheMode)

  /** `get_descriptors`: the query made, and the native result on success. */
  function GetDescriptors<D>(uuid: Option<Uuids.Uuid>, mode: CacheMode, status: Option<CommunicationStatus>, found: seq<D>)
    : (r: (DescriptorQuery, Result<seq<D>, Errors.ErrorKind>))
    ensures r.0 == DescriptorQuery(uuid, mode)
    ensures r.1.Ok? <==> status == Some(Success)
    ensures r.1.Ok? ==> r.1.value == found
  {
    (DescriptorQuery(uuid, mode), match CheckStatus(status) case Ok(_) => Ok(found) case Err(k) => Err(k))
  }

  /** `discover_descriptors`: asks the device, for one UUID or for all. */
  function DiscoverDescriptors<D>(uuid: Option<Uuids.Uuid>, status: Option<CommunicationStatus>, found: seq<D>)
    : (r: (DescriptorQuery, Result<seq<D>, Errors.ErrorKind>))
    ensures r.0.uuid == uuid && r.0.mode == Uncached
    ensures r.1.Ok? <==> status == Some(Success)
  {
    GetDescriptors(uuid, Uncached, status, found)
  }

  /** `descriptors`: asks the cache for every descriptor. */
  function Descriptors<D>(status: Option<CommunicationStatus>, found: seq<D>)
    : (r: (DescriptorQuery, Result<seq<D>, Errors.ErrorKind>))
    ensures r.0.uuid.None? && r.0.mode == Cached
    ensures r.1.Ok? <==> status == Some(Success)
  {
    GetDescriptors(None, Cached, status, found)
  }
}

=== FILE: win_device.dfy ===
/**
  * `src/windows/device.rs`: the pairing kinds offered for an agent's IO
  * capability, how each pairing request is answered, the custom pairing
  * loop, `rssi` and device equality. The pairing operation's final status
  * check is a native helper, so its outcome is an input.
  */
module WinDevice {
  import opened Wrappers
  import opened Kinds
  import Pairing

  /** `DevicePairingKinds` a request can carry; `OtherKind` stands for the rest. */
  datatype PairingKind = ConfirmOnly | DisplayPin | ProvidePin | ConfirmPinMatch | OtherKind

  /** Whether an IO capability includes a display, per section 2.3.2 of Volume 3, Part H of the Core Specification. */
  predicate HasDisplay(io: Pairing.IoCapability) {
    io == Pairing.DisplayOnly || io == Pairing.DisplayYesNo || io == Pairing.KeyboardDisplay
  }

  /** Whether it includes a keyboard. */
  predicate HasKeyboard(io: Pairing.IoCapability) {
    io == Pairing.KeyboardOnly || io == Pairing.KeyboardDisplay
  }

  /** Whether the user can answer yes or no (a yes/no input or a keyboard). */
  predicate CanAnswer(io: Pairing.IoCapability) {
    io == Pairing.DisplayYesNo || HasKeyboard(io)
  }

  /** The pairing kinds `pair_with_agent` offers for the agent's IO capability. */
  function SupportedKinds(io: Pairing.IoCapability): set<PairingKind> {
    match io
    case DisplayOnly => {DisplayPin}
    case DisplayYesNo => {ConfirmOnly, DisplayPin, ConfirmPinMatch}
    case KeyboardOnly => {ConfirmOnly, ProvidePin}
    case NoInputNoOutput => {ConfirmOnly}
    case KeyboardDisplay => {ConfirmOnly, DisplayPin, ProvidePin, ConfirmPinMatch}
  }

  /**
    * The offered kinds follow the capability: a PIN is shown exactly when
    * there is a display, asked for exactly when there is a keyboard, and
    * matched exactly when there is a display and a way to answer; plain
    * confirmation is offered to every capability except display-only.
    */
  lemma SupportedKindsFollowCapability(io: Pairing.IoCapability)
    ensures DisplayPin in SupportedKinds(io) <==> HasDisplay(io)
    ensures ProvidePin in SupportedKinds(io) <==> HasKeyboard(io)
    ensures ConfirmPinMatch in SupportedKinds(io) <==> HasDisplay(io) && CanAnswer(io)
    ensures ConfirmOnly in SupportedKinds(io) <==> io != Pairing.DisplayOnly
    ensures OtherKind !in SupportedKinds(io)
  {
  }

  /** A pairing request: its kind and the PIN text it carries. */
  datatype Request = Request(kind: PairingKind, pin: string)

  /** How a request was answered. */
  datatype Answer = Accepted | AcceptedWithPin(pin: string) | Displayed(passkey: Pairing.Passkey) | Unanswered

  /**
    * The agent's handling of one request: confirmation is accepted when the
    * agent confirms; a PIN to display is shown when it parses as a passkey;
    * a PIN to provide is the agent's passkey in its six-digit form; a PIN
    * to match is accepted when it parses and the agent confirms it.
    */
  function Respond(agent: Pairing.Agent, r: Request): (a: Answer)
    ensures a.Accepted? ==> (r.kind == ConfirmOnly && agent.confirms)
                            || (r.kind == ConfirmPinMatch && Pairing.ParsePasskey(r.pin).Ok?
                                && agent.confirmsPasskey(Pairing.ParsePasskey(r.pin).value))
    ensures a.AcceptedWithPin? ==> r.kind == ProvidePin && agent.requestedPasskey.Some?
                                   && a.pin == Pairing.Display(agent.requestedPasskey.value)
    ensures a.Displayed? ==> r.kind == DisplayPin && Pairing.ParsePasskey(r.pin) == Ok(a.passkey)
    ensures r.kind == ConfirmOnly ==> (a == Accepted <==> agent.confirms)
    ensures r.kind == ProvidePin && agent.requestedPasskey.Some? ==>
              a == AcceptedWithPin(Pairing.Display(agent.requestedPasskey.value))
    ensures r.kind == DisplayPin && Pairing.ParsePasskey(r.pin).Ok? ==> a == Displayed(Pairing.ParsePasskey(r.pin).value)
    ensures r.kind == ConfirmPinMatch ==>
              (a == Accepted <==> Pairing.ParsePasskey(r.pin).Ok? && agent.confirmsPasskey(Pairing.ParsePasskey(r.pin).value))
    ensures r.kind == OtherKind ==> a == Unanswered
  {
    match r.kind
    case ConfirmOnly => if Pairing.Confirm(agent).Ok? then Accepted else Unanswered
    case DisplayPin =>
      (match Pairing.ParsePasskey(r.pin)
       case Ok(p) => Displayed(p)
       case Err(_) => Unanswered)
    case ProvidePin =>
      (match Pairing.RequestPasskey(agent)
       case Ok(p) => AcceptedWithPin(Pairing.Display(p))
       case Err(_) => Unanswered)
    case ConfirmPinMatch =>
      (match Pairing.ParsePasskey(r.pin)
       case Ok(p) => if Pairing.ConfirmPasskey(agent, p).Ok? then Accepted else Unanswered
       case Err(_) => Unanswered)
    case OtherKind => Unanswered
  }

  /** A PIN given to the device is six digits that parse back to the agent's passkey. */
  lemma ProvidedPinRoundTrips(agent: Pairing.Agent, r: Request)
    requires Respond(agent, r).AcceptedWithPin?
    ensures |Respond(agent, r).pin| == 6
    ensures Pairing.ParsePasskey(Respond(agent, r).pin) == Ok(agent.requestedPasskey.value)
  {
    Pairing.ParseDisplay(agent.requestedPasskey.value);
  }

  /** The default agent answers nothing but display requests. */
  lemma DefaultAgentAnswersNothing(io: Pairing.IoCapability, r: Request)
    ensures Respond(Pairing.DefaultAgent(io), r).Unanswered? || Respond(Pairing.DefaultAgent(io), r).Displayed?
  {
  }

  /**
    * What happens while the pairing operation runs: it completes (with the
    * outcome of the status check), or a request arrives and its handler
    * runs, where `failure` is the error of a native call inside the handler.
    */
  datatype PairEvent = Completed(outcome: Result<(), Kind>) | Requested(request: Request, failure: Option<Kind>)

  /** The loop's record: the answers given so far, whether the operation was cancelled, and the outcome once known. */
  datatype PairRun = PairRun(answers: seq<Answer>, cancelled: bool, outcome: Option<Result<(), Kind>>)

  /**
    * `pair_with_agent`'s loop: each request is answered in turn; a failing
    * handler cancels the operation and returns its error; completion ends
    * the loop with the status check's outcome.
    */
  function PairWithAgent(agent: Pairing.Agent, es: seq<PairEvent>): (r: PairRun)
    ensures |r.answers| <= |es|
    ensures r.cancelled ==> r.outcome.Some? && r.outcome.value.Err?
    ensures r.outcome.None? ==> |r.answers| == |es| && !r.cancelled
    decreases |es|
  {
    if es == [] then PairRun([], false, None)
    else match es[0]
      case Completed(outcome) => PairRun([], false, Some(outcome))
      case Requested(req, Some(k)) => PairRun([], true, Some(Err(k)))
      case Requested(req, None) =>
        var rest := PairWithAgent(agent, es[1..]);
        rest.(answers := [Respond(agent, req)] + rest.answers)
  }

  /** Whether every event before `i` is a request whose handler succeeded. */
  predicate HandledBefore(es: seq<PairEvent>, i: nat)
    requires i <= |es|
  {
    forall j :: 0 <= j < i ==> es[j].Requested? && es[j].failure.None?
  }

  /**
    * The run is decided by the first event that is not a successfully
    * handled request: a completion gives its outcome, a failing handler
    * cancels with its error; every request before it is answered, in order.
    */
  lemma {:induction false} PairDecides(agent: Pairing.Agent, es: seq<PairEvent>, i: nat)
    requires i < |es| && HandledBefore(es, i) && !(es[i].Requested? && es[i].failure.None?)
    ensures PairWithAgent(agent, es).outcome == Some(if es[i].Completed? then es[i].outcome else Err(es[i].failure.value))
    ensures PairWithAgent(agent, es).cancelled <==> es[i].Requested?
    ensures |PairWithAgent(agent, es).answers| == i
    ensures forall j :: 0 <= j < i ==> PairWithAgent(agent, es).answers[j] == Respond(agent, es[j].request)
    decreases i
  {
    if i > 0 {
      PairDecides(agent, es[1..], i - 1);
    }
  }

  /** `rssi` is not available on this platform. */
  function Rssi(): (r: Result<int, Kind>)
    ensures r == Err(NotSupported)
  {
    Err(NotSupported)
  }

  /**
    * A device, reduced to the result of its `DeviceId` getter (`None` when
    * the getter fails) and the name it reports.
    */
  datatype Device = Device(id: Option<string>, name: string)

  /** `PartialEq` compares the two getters' results. */
  predicate SameDevice(a: Device, b: Device) {
    a.id == b.id
  }

  /** `Hash` hashes the identifier, which must be available. */
  function HashKey(d: Device): string
    requires d.id.Some?
  {
    d.id.value
  }

  /**
    * Equality is an equivalence that ignores every other attribute, and
    * devices with identifiers are equal exactly when they hash alike.
    */
  lemma EqualityAgreesWithHash(a: Device, b: Device, c: Device)
    ensures SameDevice(a, a)
    ensures SameDevice(a, b) ==> SameDevice(b, a)
    ensures SameDevice(a, b) && SameDevice(b, c) ==> SameDevice(a, c)
    ensures SameDevice(a, a.(name := b.name))
    ensures a.id.Some? && b.id.Some? ==> (SameDevice(a, b) <==> HashKey(a) == HashKey(b))
  {
  }
}

=== FILE: win_types.dfy ===
/**
  * `src/windows/types.rs`: the string collection handed to WinRT scan
  * filters and its iterator, a shared vector with a cursor position.
  */
module WinTypes {
  import opened Wrappers

  /** `StringVec`, the shared vector. */
  datatype StringVec = StringVec(strings: seq<string>)

  /** `StringIterator`: the vector and the cursor. */
  datatype StringIterator = StringIterator(vec: seq<string>, pos: nat)

  /** The error `Current` reports when the cursor is past the end. */
  datatype IteratorError = PastEnd

  /** `First`: a cursor at the start of the same vector. */
  function First(v: StringVec): (it: StringIterator)
    ensures it.vec == v.strings && it.pos == 0
  {
    StringIterator(v.strings, 0)
  }

  /** `HasCurrent`. */
  predicate HasCurrent(it: StringIterator) {
    it.pos < |it.vec|
  }

  /** `Current`: the element under the cursor, an error past the end; the cursor does not move. */
  function Current(it: StringIterator): (r: Result<string, IteratorError>)
    ensures r.Ok? <==> HasCurrent(it)
    ensures r.Ok? ==> r.value == it.vec[it.pos]
  {
    if it.pos < |it.vec| then Ok(it.vec[it.pos]) else Err(PastEnd)
  }

  /** `MoveNext`: one step forward; whether the new position has an element. */
  function MoveNext(it: StringIterator): (r: (StringIterator, bool))
    ensures r.0.vec == it.vec && r.0.pos == it.pos + 1
    ensures r.1 <==> HasCurrent(r.0)
  {
    var next := it.(pos := it.pos + 1);
    (next, it.pos + 1 < |it.vec|)
  }

  /** The number of elements `GetMany` can copy into a buffer of `capacity` slots. */
  function Available(it: StringIterator, capacity: nat): (n: nat)
    ensures n <= capacity
    ensures it.pos >= |it.vec| ==> n == 0
    ensures it.pos < |it.vec| ==> n == if |it.vec| - it.pos < capacity then |it.vec| - it.pos else capacity
  {
    if it.pos < |it.vec| then
      var left := |it.vec| - it.pos;
      if left < capacity then left else capacity
    else 0
  }

  /**
    * `GetMany`: copies the next elements into the front of `items`, as many
    * as both have, leaving the later items as they were; returns the count
    * and the cursor moved by the whole buffer's length.
    */
  method GetMany(it: StringIterator, items: seq<string>) returns (it': StringIterator, items': seq<string>, count: nat)
    ensures it'.vec == it.vec && it'.pos == it.pos + |items|
    ensures count == Available(it, |items|)
    ensures |items'| == |items|
    ensures forall k :: 0 <= k < count ==> items'[k] == it.vec[it.pos + k]
    ensures items'[count..] == items[count..]
  {
    it' := it.(pos := it.pos + |items|);
    count := Available(it, |items|);
    items' := items;
    var k := 0;
    while k < count
      invariant 0 <= k <= count
      invariant |items'| == |items|
      invariant forall j :: 0 <= j < k ==> items'[j] == it.vec[it.pos + j]
      invariant items'[k..] == items[k..]
    {
      items' := items'[k := it.vec[it.pos + k]];
      k := k + 1;
    }
  }

  /** Stepping with `MoveNext` from `First` visits the elements in order: after `k` steps, `Current` is element `k`. */
  lemma {:induction false} WalkVisitsInOrder(v: StringVec, k: nat)
    ensures Walk(First(v), k).vec == v.strings && Walk(First(v), k).pos == k
    ensures k < |v.strings| ==> Current(Walk(First(v), k)) == Ok(v.strings[k])
    ensures k >= |v.strings| ==> Current(Walk(First(v), k)).Err?
  {
    if k > 0 {
      WalkVisitsInOrder(v, k - 1);
    }
  }

  /** `k` calls of `MoveNext`. */
  function Walk(it: StringIterator, k: nat): (r: StringIterator)
    decreases k
  {
    if k == 0 then it else MoveNext(Walk(it, k - 1)).0
  }
}

=== FILE: win_ver.dfy ===
/**
  * `windows_version_above` of `src/windows/winver.rs`: whether the running
  * system's (major, minor, build) version is at least the given one. The
  * version query is native; its result is an input.
  */
module WinVer {
  import opened Wrappers
  import opened Ints

  datatype Version = Version(major: U32, minor: U32, build: U32)

  /** `std::cmp::Ordering`. */
  datatype Ordering = Less | Equal | Greater

  /** `Ord::cmp` on integers. */
  function Cmp(a: int, b: int): (o: Ordering)
    ensures o == Less <==> a < b
    ensures o == Equal <==> a == b
  {
    if a < b then Less else if a == b then Equal else Greater
  }

  /** `Ordering::then_with`: the first ordering unless it is `Equal`. */
  function ThenWith(o: Ordering, next: Ordering): Ordering {
    if o == Equal then next else o
  }

  /** `windows_version_above`: false when the version is unknown; otherwise the chained comparison `is_ge`. */
  function VersionAbove(current: Option<Version>, wanted: Version): bool {
    match current
    case None => false
    case Some(c) =>
      ThenWith(ThenWith(Cmp(c.major, wanted.major), Cmp(c.minor, wanted.minor)), Cmp(c.build, wanted.build)) != Less
  }

  /** Lexicographic order on versions, stated directly. */
  predicate AtLeast(c: Version, w: Version) {
    c.major > w.major
    || (c.major == w.major && c.minor > w.minor)
    || (c.major == w.major && c.minor == w.minor && c.build >= w.build)
  }

  /** The chained comparison is the lexicographic order; an unknown version is never above anything. */
  lemma VersionAboveIsLexicographic(current: Option<Version>, wanted: Version)
    ensures VersionAbove(current, wanted) <==> current.Some? && AtLeast(current.value, wanted)
  {
  }

  /** A known version is above itself. */
  lemma VersionAboveItself(v: Version)
    ensures VersionAbove(Some(v), v)
  {
  }

  /** Monotone: a version above `w` is above every version below `w`. */
  lemma VersionAboveMonotone(current: Option<Version>, w: Version, lower: Version)
    requires AtLeast(w, lower)
    ensures VersionAbove(current, w) ==> VersionAbove(current, lower)
  {
    VersionAboveIsLexicographic(current, w);
    VersionAboveIsLexicographic(current, lower);
  }
}

=== FILE: wrappers.dfy ===
/** Failure-carrying wrappers shared by every module: Rust's `Option` and `Result`. */
module Wrappers {

  /** Rust's `Option<T>`. */
  datatype Option<+T> = None | Some(value: T) {

    /** The value, or `default` when there is none (`unwrap_or`). */
    function GetOr(default: T): T {
      match this
      case Some(v) => v
      case None => default
    }
  }

  /** Rust's `Result<T, E>`. */
  datatype Result<+T, +E> = Ok(value: T) | Err(error: E)
}
